=== FILE: README.md ===
# Recipe book: the state rules behind the pages

This project models, in Dafny, the rules behind a small recipe-book web
application. The application keeps recipes, cuisines, ingredients and per-user
settings in a hosted document store. The rules are pulled out of its DOM and
store code and written as pure functions over an abstract store: a collection
maps ids to documents, and a document maps field names to values.
`add`, `update`, `set(…, {merge: true})` and `delete` are functions on that map.
The server timestamp placeholder is an abstract value.

The model has ten modules:

- `Common`: sequence helpers (`filter`, `splice`, `insertBefore`, a sort that returns a permutation), trimming, lower-casing, `includes`, `parseInt`, and a total collation order standing in for `localeCompare`.
- `Documents`: values, documents, collections, and the store's write operations.
- `CuisineRefs`: a recipe's cuisine entries. Each entry is a bare legacy name or an `{id, name}` object. The module covers "Add to / Remove from Favorites" and the per-cuisine counts (by id, falling back to the name).
- `CuisineTags`: the cuisine tags of the recipe panel. Entries are rendered as tags and read back; tags are added with de-duplication and removed by index.
- `RecipeDraft`: the recipe panel as a state machine with three pieces of state: the draft id, the loading flag and the creating flag.
  - `autoSave` is split into "start the creation" and "the creation completes", so the window in which an edit is dropped is an explicit state.
  - The module also covers the star, number and text inputs, opening the panel blank or on a stored recipe, and the merge-write on close.
- `RecipeList`: the rating and cook-time filters and the sort comparator of the recipe grid, the search box, and "Duplicate recipe".
- `IngredientGroups`: the ingredient groups with "Other" pinned last. This covers loading, bucketing, the drop handler, the saved snapshot, and new and delete group.
- `IngredientPanel`: the ingredient panel, with save-on-close choosing between `update` and `add`. It also covers the cascade that strips a deleted ingredient's id from every recipe, and the shopping-table comparator.
- `CuisineList`: the cuisine menu at the level of the list's DOM children. These are drop indicators and rows, with the Favorites row pinned first.
  - It covers row insertion, the trailing indicator, the sorted load, the drag-over and drop rules, the drop itself, and the saved ranks.
- `ShoppingPdf`: the printable shopping list. This is the to-buy query, filing each item under its category, ordering the categories, splitting each category into boxes, and the background fallback.

Inputs the program takes from the browser or the store are parameters. These are the signed-in user, the store's answer to a call, whether a DOM element exists, and where the pointer is. Each asynchronous operation is a function from the state before it to the state after it. For an operation that waits on the store, the store's answer is a parameter.

## Model

| member | source | states |
|---|---|---|
| Documents.Update | public/recipes.js:534-537 | an `update` of a missing document is rejected; otherwise exactly the given fields are overwritten and every other field and document is kept |
| Documents.SetMerge | public/recipes.js:805-821 | a merge-write creates the document with exactly the given fields when it is missing; otherwise the document holds exactly its old fields plus the given ones, the given values win and the rest keep theirs; other documents are untouched |
| Documents.Add | public/recipes.js:517-521 | `add` under a fresh id adds exactly one document holding the given fields and leaves the others alone |
| Documents.Delete | public/ingredients.js:2113 | `delete` removes exactly that document, whether or not it exists |
| Common.SortBy | public/recipes.js:119-139 | `Array.sort` with an antisymmetric comparator yields a permutation of its input in which each element compares at most equal to the next |
| Common.SortByStable | public/recipes.js:119-139 | `Array.sort` is stable: with a comparator whose ties are transitive, the elements tied with any given element come out in the order they went in |
| Common.FilterConcat | public/recipes.js:90-116 | `filter` works piecewise over a concatenation, so the kept elements keep their relative order |
| Common.MoveBeside | public/ingredients.js:425-429 | a drag move takes the element out and puts it immediately before or after the target; the other elements keep their relative order |
| Common.Includes | public/app.js:1434 | the substring search answers true exactly when the needle occurs at some offset of the text |
| Common.ParseIntOfDecimal | public/app.js:1749-1750 | `parseInt` of a number's decimal text gives the number back |
| Common.ParseIntOfHex | public/app.js:1749-1750 | `parseInt` without a radix reads `0x` followed by hexadecimal digits as a base-16 number |
| Common.ParseIntOfEmptyHex | public/app.js:1749-1750 | a `0x` prefix with no hexadecimal digit after it is NaN |
| Common.ParseIntOfMinus | public/app.js:1749-1750 | a leading minus negates what the unsigned text parses to, and NaN stays NaN |
| Common.TrimIdempotent | public/app.js:1429 | trimming twice is trimming once |
| Common.CollateAntisymmetric | public/recipes.js:123 | the collation standing in for `localeCompare` is antisymmetric |
| Common.CollateZeroIffEqual | public/recipes.js:123 | the collation reports equality exactly for equal strings |
| Common.CollateTransitive | public/recipes.js:123 | the collation is transitive |
| CuisineRefs.EntriesOf | public/recipes.js:657 | a stored `cuisines` list wins even when empty; otherwise a non-empty legacy `cuisine` is wrapped in a one-element list, else the list is empty |
| CuisineRefs.WithFavorites | public/recipes.js:557-565 | "Favorites" is appended as a bare name exactly when no entry, bare or object, is already a favorite; the existing entries stay as they are |
| CuisineRefs.WithoutFavorites | public/recipes.js:606-613 | every favorite entry in either format is removed, and exactly the non-favorite entries remain |
| CuisineRefs.WithoutFavoritesConcat | public/recipes.js:606-613 | removal works piecewise over a concatenation, so the remaining entries keep their order |
| CuisineRefs.WithoutFavoritesKeepsNonFavorites | public/recipes.js:606-613 | a list holding no favorite is left unchanged by the removal |
| CuisineRefs.WithFavoritesIdempotent | public/recipes.js:557-565 | adding to favorites twice is the same as adding once |
| CuisineRefs.RemoveAfterAdd | public/recipes.js:606-613 | removing from favorites undoes adding |
| CuisineRefs.AddAfterRemove | public/recipes.js:557-565 | adding after removing appends exactly one bare "Favorites" |
| CuisineRefs.ChangeFavorites | public/recipes.js:543-635 | no user: nothing written; a missing recipe: the update fails; otherwise `cuisines`, the legacy `cuisine` (the first entry's name) and `updatedAt` are written, no other field is added, and every other field and recipe is kept |
| CuisineRefs.AddToFavoritesIdempotent | public/recipes.js:543-587 | a second "Add to Favorites" on the same recipe succeeds and leaves its entries as the first left them |
| CuisineRefs.TallyMatchesHits | public/recipes.js:655-674 | the tally by id and the tally by name hold exactly the number of entries counting toward each key, and hold a key exactly when that number is positive |
| CuisineRefs.RowCountMeaning | public/recipes.js:687-708 | a cuisine row shows its id count when an entry references its id, else the count of entries naming it |
| CuisineRefs.FavoritesCountMeaning | public/recipes.js:677-683 | the Favorites row shows the number of entries counted under the name "Favorites" |
| CuisineTags.RenderTags | public/app.js:1863-1870 | one tag per entry, in order, each shown as the entry's name (or the looked-up name) with its id or "" |
| CuisineTags.CurrentCuisines | public/app.js:1945-1956 | one entry per tag, in order: `{id, name}` for a tag with an id, the bare trimmed name otherwise |
| CuisineTags.TagsRoundTrip | public/app.js:1945-1956 | rendering well-formed entries (distinct names in plain text, free of `<`, `&`, CR and NUL) as tags and reading them back gives the same entries |
| CuisineTags.IdlessObjectReadsBackBare | public/app.js:1866-1870 | an object entry without an id is read back as a bare name |
| CuisineTags.AddCuisineTag | public/app.js:1897-1926 | nothing happens exactly when an entry with the picked name is present; otherwise the pick is appended as `{id, name}` when it has an id and as the bare name otherwise |
| CuisineTags.AddCuisineTagKeepsNamesDistinct | public/app.js:1909-1912 | tag names stay free of duplicates under adding |
| CuisineTags.RemoveCuisineTag | public/app.js:1928-1943 | `splice(index, 1)` removes exactly the entry at an in-range index and keeps the others in order; an index past the end removes nothing |
| CuisineTags.RemoveUndoesAdd | public/app.js:1928-1943 | removing the tag just added restores the list |
| RecipeDraft.DraftDoc | public/recipes.js:517-521 | the document a fresh draft creates holds exactly the owner and two server timestamps |
| RecipeDraft.WriteEdit | public/recipes.js:534-537 | the `update` for an edit is rejected when the draft document is gone; otherwise it writes the field and `updatedAt` and keeps everything else |
| RecipeDraft.AutoSave | public/recipes.js:501-538 | ignored while loading; with no draft id the edit is dropped during a creation, abandoned with no user, or starts the creation; with a draft id it is written; each case holds exactly under its condition |
| RecipeDraft.CreateCompletes | public/recipes.js:517-531 | a successful `add` adopts the fresh id, clears the flag and writes the edit to the new document; a failure only clears the flag |
| RecipeDraft.FirstEditCreatesOneDocument | public/recipes.js:501-538 | the first edit of a fresh draft creates exactly one document holding owner, both timestamps and the field; the next edit writes to it and creates nothing |
| RecipeDraft.EditDuringCreationIsDropped | public/recipes.js:504-506 | an edit made while the creation is in flight writes nothing, and the created document does not hold its field |
| RecipeDraft.FailedCreationIsRetried | public/recipes.js:509-531 | with no user or a failed creation, no id is adopted and the flag is reset, so the next edit starts the creation again |
| RecipeDraft.NoEditWhileLoading | public/recipes.js:502 | while a recipe is being fetched, an edit changes neither the store nor the panel state |
| RecipeDraft.ActiveStarsCount | public/app.js:1715-1724 | the number of active stars for rating k is k clamped to 0..5 |
| RecipeDraft.ClickStar | public/app.js:1711-1727 | clicking star k activates exactly the stars valued at most k and saves rating k |
| RecipeDraft.TypeNumber | public/app.js:1749-1750 | typing into minutes or servings shows the text and saves `parseInt(text) \|\| 0` |
| RecipeDraft.TypedNumberIsSaved | public/app.js:1749-1750 | typing a number's decimal text saves that number; text that does not start with a number saves 0 |
| RecipeDraft.TypeText | public/app.js:1746-1752 | typing into the title, ingredients or instructions saves the raw text |
| RecipeDraft.AddTag | public/app.js:1897-1926 | picking a cuisine already shown changes nothing; otherwise the tags show the extended list and the whole list is saved as `cuisines` |
| RecipeDraft.RemoveTag | public/app.js:1928-1943 | removing a tag shows the remaining list and saves it as `cuisines` |
| RecipeDraft.BlankForm | public/app.js:1564-1601 | the new-recipe form has every input blank, no tag, no active star and no image |
| RecipeDraft.OpenSidePanel | public/app.js:1555-1605 | without the panel nothing changes; otherwise the draft id, both flags and the related ingredients are reset and the form is blank |
| RecipeDraft.NumberText | public/app.js:1655-1656 | a stored number is shown as text that parses back to it, and an absent or zero number is shown as "" |
| RecipeDraft.Populate | public/app.js:1648-1694 | the form shows the stored fields with their defaults: "" for text, the entries read as tags, the number of active stars from the rating, the image only when there is one |
| RecipeDraft.BeginOpenExisting | public/app.js:1611-1626 | the draft id is set and the creation flag cleared before the fetch; loading is set exactly when the panel exists |
| RecipeDraft.FinishOpenExisting | public/app.js:1639-1701 | a found recipe fills the form and the related ingredients; a missing one or a failed fetch leaves them; loading is cleared and the draft id kept in every case |
| RecipeDraft.OpenExistingRecipe | public/app.js:1611-1702 | opening a recipe ends not loading, not creating, with the draft id set, and the form filled only when the panel exists and the recipe was found |
| RecipeDraft.Finalize | public/recipes.js:785-822 | no draft id: nothing is written; no user and no stored owner: the write is refused; otherwise the draft document exists afterwards and no other document changes |
| RecipeDraft.MergeWritesSnapshot | public/recipes.js:805-821 | the merge-write stores every form field with its value: title, entries, first entry's name, rating, minutes, servings, ingredients, instructions, image URL and offset, related ingredients, owner, `createdAt` and a fresh `updatedAt`; it keeps every stored field the form does not hold, and a missing document is created with exactly the form's fields |
| RecipeDraft.FinalizeWritesForm | public/recipes.js:785-822 | a successful finalize stores the trimmed title, the entries read from the tags and the first one's name, the active-star count, the parsed numbers, the raw ingredients and instructions, the shown image or "" and its offset or "0px", the related ingredients, a fresh `updatedAt`, the signed-in or stored owner, and the stored `createdAt` when set or else a server time; every other stored field is kept |
| RecipeDraft.ClosePanel | public/recipes.js:464-466 | closing finalizes and then forgets the draft id; a refused finalize keeps the panel open |
| RecipeDraft.EditAfterCloseStartsNewDraft | public/recipes.js:464-466 | after closing, the next edit starts a new document instead of writing to the old one |
| RecipeDraft.ReopenThenCloseKeepsRecipe | public/recipes.js:791-821 | opening a stored recipe and closing again writes back its title, entries, numbers, rating and related ingredients unchanged |
| RecipeList.BucketsPartition | public/recipes.js:99-116 | every number of minutes falls in exactly one of the five cook-time buckets |
| RecipeList.ApplyFilters | public/recipes.js:90-116 | the kept recipes are exactly those with the chosen rating (missing as 0) and in the chosen cook-time bucket |
| RecipeList.ApplyFiltersConcat | public/recipes.js:90-116 | the filters work piecewise over a concatenation, so the kept recipes keep their relative order |
| RecipeList.NoFilterKeepsAll | public/recipes.js:94-116 | with no rating filter and no or an unknown cook-time choice every recipe is kept, in order |
| RecipeList.FiltersIdempotent | public/recipes.js:90-116 | filtering again changes nothing |
| RecipeList.CompareAntisymmetric | public/recipes.js:119-139 | the recipe comparator is antisymmetric for every key and order |
| RecipeList.OrderFlagReverses | public/recipes.js:134-139 | "asc" and "desc" give opposite orders for every sort key |
| RecipeList.SortRecipes | public/recipes.js:119-139 | the sorted recipes are a permutation of the filtered ones, each comparing at most equal to the next |
| RecipeList.SortRecipesStable | public/recipes.js:119-139 | recipes the comparator ties come out in the order they were loaded |
| RecipeList.RecipeDirections | public/recipes.js:119-139 | under "desc" rating and date sort highest and newest first, cook time longest first and names in reverse alphabetical order; "asc" gives the opposite of each; without a flag rating and date sort as under "desc", names and cook time as under "asc" |
| RecipeList.GridStartsNewestFirst | public/recipes.js:119-139 | with the grid's initial "createdAt" and "desc" (public/app.js:2220-2221) the newest recipe comes first |
| RecipeList.CardShows | public/app.js:1432-1438 | a card is shown exactly when the needle is empty or occurs in the lower-cased text of its title element, which is the stored title (or "Untitled") as the browser renders it through `innerHTML` (public/recipes.js:225) |
| RecipeList.ShowAll | public/app.js:1431-1439 | the display decision of every card is made by that rule on its rendered title |
| RecipeList.FilterCards | public/app.js:1427-1440 | `filterRecipes(term)` shows exactly the cards whose lower-cased rendered title contains the trimmed lower-cased term, or all of them for a blank term |
| RecipeList.SearchIgnoresCase | public/app.js:1429 | searching ignores the case of the term |
| RecipeList.TitleFindsItsCard | public/app.js:1427-1440 | searching for the text a card shows keeps that card, whatever the browser made of its stored title |
| RecipeList.PlainTitleFindsItsCard | public/app.js:1427-1440 | a title in plain text is shown as stored, so searching for the stored title keeps its card |
| RecipeList.PlainTitleSearchedAsStored | public/app.js:1427-1440 | for a title in plain text, the card is shown exactly when the needle is empty or occurs in the lower-cased stored title |
| RecipeList.CopyFields | public/recipes.js:742-766 | the copy holds the shown title with " Copy", the same entries and first entry's name, the new owner and fresh timestamps, and no related ingredients or image position |
| RecipeList.DuplicateRecipe | public/recipes.js:724-780 | nothing without a user or when the recipe is gone; otherwise exactly one new document holding the copy, every recipe untouched |
| RecipeList.CopyKeepsTitleAndCuisines | public/recipes.js:742-750 | the copy shows the original's title followed by " Copy" and counts toward the same cuisines |
| RecipeList.CopyFiltersLikeOriginal | public/recipes.js:752-766 | a copy passes the rating and cook-time filters exactly when its original does |
| IngredientGroups.LoadUserGroups | public/ingredients.js:8-28 | a stored list replaces the groups; the groups are written back exactly when the user's settings lack a list, and then unchanged; no user or a failed read keeps them |
| IngredientGroups.GroupOf | public/ingredients.js:184-189 | an ingredient is shown under its category (default "Other") when that is a listed group, else under "Other" |
| IngredientGroups.Buckets | public/ingredients.js:177-197 | one bucket per listed group holding exactly the ingredients shown under it; loading fails exactly when an ingredient falls back to an unlisted "Other" |
| IngredientGroups.EveryIngredientInOneGroup | public/ingredients.js:177-197 | every ingredient is shown, and only under its own group's name |
| IngredientGroups.SaveGroupOrder | public/ingredients.js:450-470 | the stored order is the DOM's group names other than "Other", in DOM order, then exactly one "Other" |
| IngredientGroups.SaveGroupOrderIdempotent | public/ingredients.js:450-470 | the saved order is a full snapshot: saving it again stores the same list |
| IngredientGroups.DropGroup | public/ingredients.js:415-432 | the drop is ignored exactly with nothing dragged, onto itself or onto "Other"; otherwise the dragged group lands right before or right after the target and the others keep their order |
| IngredientGroups.DropKeepsOtherLast | public/ingredients.js:415-432 | "Other" stays last through every accepted drop |
| IngredientGroups.DropAndSave | public/ingredients.js:415-432 | a drop followed by saving stores the moved DOM order's group names, so the dragged group lands where the drop puts it, then "Other" last; every other group appears as often as before |
| IngredientGroups.NewGroup | public/ingredients.js:610-628 | a trimmed non-empty name is put in front of the list with no duplicate check; an empty one changes nothing |
| IngredientGroups.NewGroupKeepsOtherLast | public/ingredients.js:610-628 | a new group keeps "Other" last |
| IngredientGroups.DeleteGroup | public/ingredients.js:276-300 | the user's ingredients in the group move to "Other", every other ingredient is kept, and the first occurrence of the name leaves the list |
| IngredientGroups.DeleteGroupEmptiesIt | public/ingredients.js:276-300 | after deleting a group none of the user's ingredients is left in it, and "Other" stays last |
| IngredientPanel.EditTarget | public/ingredients.js:1874 | an empty editing id counts as no edit |
| IngredientPanel.OpenIngredientPanel | public/ingredients.js:644-699 | the blank panel has no edit target and every input empty |
| IngredientPanel.OpenForEditAsWritten | public/ingredients.js:1979-2039 | as written: a found ingredient fills the inputs and sets the edit target but leaves the recipe selection as it was; otherwise nothing changes |
| IngredientPanel.InputsOf | public/ingredients.js:1993-2034 | the inputs show the stored fields with "" defaults, the to-buy box its truthiness, and the image only when there is one |
| IngredientPanel.OpenForEdit | public/ingredients.js:1979-2039 | (corrected, see ## Findings) a found ingredient fills the inputs, sets the edit target and selects its recipes; otherwise nothing changes |
| IngredientPanel.TextOrNull | public/ingredients.js:1887-1888 | an optional text is stored trimmed, or `null` when it trims to empty |
| IngredientPanel.Clean | public/ingredients.js:1876-1892 | the name is trimmed, the category trimmed or "Other", quantity and notes trimmed or `null` |
| IngredientPanel.IngredientFields | public/ingredients.js:1884-1899 | the saved document has exactly the fields `name`, `category`, `quantity`, `notes`, `toBuy`, `recipes` and `updatedAt`, plus `imageUrl` and `imageOffsetY` only when the preview shows an image; they hold the cleaned values, the picked recipes and a fresh `updatedAt` |
| IngredientPanel.UpdateIngredient | public/ingredients.js:1901-1912 | an edit is an `update` of the edited document, refused when it is gone |
| IngredientPanel.CreateIngredient | public/ingredients.js:1914-1928 | a new ingredient is added with the saved fields, the owner and a creation time |
| IngredientPanel.SaveIngredient | public/ingredients.js:1868-1934 | nothing is written with no user or an empty trimmed name; an edit target gives an update, its absence an add; the edit state is cleared only after a write |
| IngredientPanel.NewPanelCreates | public/ingredients.js:1914-1928 | a panel opened with "+ New Ingredient" never updates: a save either adds a document or writes nothing |
| IngredientPanel.BlankPanelSavesNothing | public/ingredients.js:1882 | closing a blank new panel writes nothing |
| IngredientPanel.CleanOfStored | public/ingredients.js:2030-2034 | the inputs filled from a stored, already clean ingredient clean back to its stored values |
| IngredientPanel.EditWithoutChangesKeepsIngredient | public/ingredients.js:1884-1892 | (corrected, see ## Findings) opening a stored ingredient for editing and closing without changes keeps its name, category, quantity, notes, to-buy flag and recipes |
| IngredientPanel.AsWrittenEditDropsRecipes | public/ingredients.js:1884-1892 | as written, opening an ingredient linked to recipe "r1" on a blank selection and saving without a change writes `recipes` as [] |
| IngredientPanel.WithoutId | public/ingredients.js:553 | the filtered list lacks the deleted id and holds every other id as often as before |
| IngredientPanel.WithoutIdConcat | public/ingredients.js:553 | the filter works piecewise over a concatenation, so the remaining ids keep their order |
| IngredientPanel.WithoutAbsentId | public/ingredients.js:553 | a list that does not hold the id is left unchanged |
| IngredientPanel.Cascade | public/ingredients.js:544-564 | exactly the recipes that list the id are updated, with the id filtered out and a fresh `updatedAt`; the others are untouched |
| IngredientPanel.DeleteIngredient | public/ingredients.js:544-567 | the cascade runs over the recipes, then exactly the ingredient's document is deleted |
| IngredientPanel.NoDanglingReference | public/ingredients.js:544-567 | after the deletion no recipe refers to the ingredient |
| IngredientPanel.CascadeIdempotent | public/ingredients.js:544-564 | running the cascade a second time changes nothing |
| IngredientPanel.CompareShoppingAntisymmetric | public/ingredients.js:114-135 | the shopping comparator is antisymmetric |
| IngredientPanel.ShoppingOrderFlagReverses | public/ingredients.js:127-132 | "asc" and "desc" give opposite orders for every key |
| IngredientPanel.SortShopping | public/ingredients.js:114-135 | the sorted table is a permutation of the items, each comparing at most equal to the next |
| IngredientPanel.SortShoppingStable | public/ingredients.js:114-135 | items the comparator ties keep their order in the table |
| IngredientPanel.ShoppingDirections | public/ingredients.js:114-135 | names and categories come out alphabetically with "asc", dates newest first with "desc" |
| CuisineList.FindRow | public/cuisines.js:589 | the lookup finds the first row with the id, or answers none exactly when no row has it |
| CuisineList.FirstRegular | public/cuisines.js:171 | the lookup finds the first regular row, or answers none exactly when there is none |
| CuisineList.EnsureTrailingIndicator | public/cuisines.js:92-101 | the list ends with an indicator; one is appended exactly when the last child is not one |
| CuisineList.EnsureTrailingIndicatorIdempotent | public/cuisines.js:92-101 | a second call changes nothing |
| CuisineList.InsertionPoint | public/cuisines.js:159-180 | a special row goes at the very top; a regular one right before the first regular row, or at the end |
| CuisineList.AddCuisineRow | public/cuisines.js:104-183 | the list ends with an indicator; a special row goes to the very top with its indicator above it, and a regular row becomes the first regular row |
| CuisineList.AddCuisineRowShape | public/cuisines.js:159-183 | adding a regular row keeps Favorites first, and fresh element keys keep the children distinct |
| CuisineList.LoadListShape | public/cuisines.js:300-407 | the loaded list has Favorites on top and no element twice |
| CuisineList.HoverPlace | public/cuisines.js:512-560 | nothing is recorded exactly over the dragged row; "before" is recorded exactly for the upper half of a row that is neither Favorites nor directly below it |
| CuisineList.HoverIsAccepted | public/cuisines.js:512-581 | a position recorded by a drag-over is never one the drop rejects |
| CuisineList.DropAsWritten | public/cuisines.js:562-605 | the handler as written goes ahead exactly for the drops the rules accept |
| CuisineList.CarryStart | public/cuisines.js:583-586 | the carried stretch starts at the indicator directly above the dragged row when there is one, else at the row |
| CuisineList.Drop | public/cuisines.js:562-605 | (corrected, see ## Findings) a drop goes ahead exactly when the rules accept it (not onto the dragged row, not "before" Favorites or the row just below it), and keeps the same children |
| CuisineList.ReinsertPermutes | public/cuisines.js:583-605 | taking the carried stretch out and putting it back keeps the same children |
| CuisineList.DropMovesRow | public/cuisines.js:562-605 | (corrected, see ## Findings) an accepted drop puts the dragged row before or after the target as recorded, and the other rows keep their relative order |
| CuisineList.DropKeepsFavoritesFirst | public/cuisines.js:571-581 | (corrected, see ## Findings) an accepted drop keeps Favorites on top |
| CuisineList.DragToTopComesFirst | public/cuisines.js:624-637 | (corrected, see ## Findings) dragging a row just before the topmost regular row makes it the row the next save ranks 0 |
| CuisineList.LoadedRowsAreAdjacent | public/cuisines.js:171-179 | loading x, y, z gives a list in which the rows z, y, x sit directly one above the other, with their indicators gathered above them |
| CuisineList.AsWrittenDropCarriesNeighbour | public/cuisines.js:583-605 | as written, dropping x before z in the loaded list z, y, x moves y along and leaves y, x, z |
| CuisineList.DropOfExampleMovesOneRow | public/cuisines.js:583-605 | (corrected, see ## Findings) the same drop by the drop rules leaves x, z, y |
| CuisineList.WriteRanksFails | public/cuisines.js:627-637 | the batch fails exactly when a listed cuisine has no document |
| CuisineList.WriteRanksWrites | public/cuisines.js:629-635 | a committed batch gives each listed cuisine its rank and leaves the other documents alone |
| CuisineList.SaveNewOrder | public/cuisines.js:624-637 | the batch fails exactly when a shown cuisine has no document; otherwise the regular rows are ranked 0, 1, … in the order they show and every other document is left alone |
| CuisineList.SaveNewOrderIdempotent | public/cuisines.js:624-637 | saving the same list twice writes the same ranks as saving it once |
| CuisineList.CompareCuisinesAntisymmetric | public/cuisines.js:368-399 | the cuisine comparator is antisymmetric |
| CuisineList.CuisineOrderFlagReverses | public/cuisines.js:389-396 | "asc" and "desc" give opposite orders for every key |
| CuisineList.SortCuisines | public/cuisines.js:368-399 | the sorted cuisines are a permutation of the loaded ones, each comparing at most equal to the next |
| CuisineList.SortCuisinesStable | public/cuisines.js:368-399 | cuisines the comparator ties keep the order they were loaded in |
| CuisineList.CuisineDirections | public/cuisines.js:368-399 | under "asc" names sort alphabetically, dates oldest first and counts lowest first with equal counts in reverse alphabetical order; "desc" gives the opposite of each; without a flag names sort as under "asc", dates and counts as under "desc" |
| CuisineList.InitialSortIsAlphabetical | public/cuisines.js:368-399 | the comparator's initial setting, name and "asc" (public/app.js:320-321, public/cuisines.js:290), sorts the cuisines alphabetically; what the menu then shows is stated by the next two rows |
| CuisineList.WithCounts | public/cuisines.js:331-365 | before a count sort each cuisine gets its count from the tally of all recipe entries |
| CuisineList.WithCountsMeaning | public/cuisines.js:357-364 | a counted cuisine gets the number of entries referencing its id, or when there are none the number naming it |
| CuisineList.LoadCuisines | public/cuisines.js:367-404 | as written: Favorites on top and the sorted cuisines shown back to front |
| CuisineList.LoadShowsSortReversed | public/cuisines.js:402-404 | as written, the menu shows the sorted cuisines back to front |
| CuisineList.LoadByNameShowsDescending | public/cuisines.js:402-404 | cuisines "a" and "b" loaded by name ascending show "b" above "a" |
| CuisineList.MenuStartsReverseAlphabetical | public/cuisines.js:402-404 | as written, the menu as first shown (name, "asc") lists the cuisines in reverse alphabetical order under Favorites |
| CuisineList.LoadCuisinesInOrder | public/cuisines.js:367-404 | (corrected, see ## Findings) the corrected load shows the sorted cuisines top to bottom under Favorites |
| CuisineList.InOrderShowsSorted | public/cuisines.js:367-404 | (corrected, see ## Findings) in the corrected load each cuisine shows directly above the one it sorts before |
| CuisineList.CorrectedMenuStartsAlphabetical | public/cuisines.js:367-404 | (corrected, see ## Findings) in the corrected load the menu as first shown (name, "asc") lists the cuisines alphabetically, top to bottom |
| ShoppingPdf.ToBuyDocs | public/shopping.js:74-77 | the query answers exactly the user's ingredients marked to buy |
| ShoppingPdf.FilingDefaults | public/shopping.js:141-154 | an item is filed under its category or "Other", named or "Untitled", with quantity and notes or "" |
| ShoppingPdf.GroupKeys | public/shopping.js:139-154 | each category key is created once, and the keys are exactly the categories of the items |
| ShoppingPdf.GroupFilesEveryLine | public/shopping.js:139-154 | each category holds the lines filed under it, in the store's order, and at least one |
| ShoppingPdf.PresentGroupsAsWritten | public/shopping.js:157-162 | the first loop as written takes the listed groups that have items |
| ShoppingPdf.PresentGroups | public/shopping.js:157-162 | (corrected, see ## Findings) the corrected first loop takes the same groups |
| ShoppingPdf.PresentGroupsOrdered | public/shopping.js:157-162 | (corrected, see ## Findings) the corrected first loop lists no group twice |
| ShoppingPdf.AddRemaining | public/shopping.js:164-169 | the second loop extends the list it is given |
| ShoppingPdf.AddRemainingContents | public/shopping.js:164-169 | the second loop adds exactly the keys not yet listed, without repeating one |
| ShoppingPdf.AddRemainingRanked | public/shopping.js:164-169 | the remaining keys are added in the order they were first met |
| ShoppingPdf.CategoryOrderAsWritten | public/shopping.js:156-169 | the category order as written holds exactly the categories that have items |
| ShoppingPdf.CategoryOrderShape | public/shopping.js:156-169 | (corrected, see ## Findings) every category with items appears exactly once; listed groups come first in list order, the others follow in first-met order |
| ShoppingPdf.AsWrittenAgreesWithoutRepeats | public/shopping.js:156-169 | without repeated group names the ordering as written and the corrected one agree |
| ShoppingPdf.AsWrittenRepeatsCategory | public/shopping.js:156-169 | with "Fruits" listed twice, which the new-group button allows, the ordering as written lists the category twice |
| ShoppingPdf.CategoryBoxes | public/shopping.js:290-355 | a category's boxes hold its lines in order, concatenating back to them; there is no box exactly when there is no line |
| ShoppingPdf.CategoryBoxesLabelled | public/shopping.js:290-352 | every box is labelled with the category, and only the first box of a category is not a continuation |
| ShoppingPdf.CategoryBoxesFit | public/shopping.js:333-338 | every box holds at least one line and at most the capacity of its place |
| ShoppingPdf.CategoryLines | public/shopping.js:286-356 | the boxes of a category hold its lines and nothing of another category |
| ShoppingPdf.BoxesHoldTheirLines | public/shopping.js:286-356 | each category in the order gets exactly its lines, in order; a category outside it gets none |
| ShoppingPdf.ContinuationsFollowTheirCategory | public/shopping.js:286-356 | a box is a continuation exactly when it follows a box of the same category |
| ShoppingPdf.BackgroundFallsBackToSimple | public/shopping.js:553-563 | every name maps to one of the five images; the simple one exactly for "simple" or an unknown name |
| ShoppingPdf.DownloadShoppingList | public/shopping.js:69-169 | as written: no user: nothing; a failed query: an error; no item to buy: the alert and no PDF; otherwise a PDF when the library is loaded, on the chosen background, laid out in the category order as written |
| ShoppingPdf.DownloadShoppingListCorrected | public/shopping.js:69-169 | (corrected, see ## Findings) a PDF exactly when the download as written gives one, on the chosen background; every other outcome is the same as written (what the PDF holds is stated by `ShoppingPdf.PdfListsEveryItemOnce` and `ShoppingPdf.PdfMarksContinuations`) |
| ShoppingPdf.AsWrittenDownloadAgreesWithoutRepeats | public/shopping.js:156-169 | without repeated group names the download as written and the corrected one are the same |
| ShoppingPdf.RepeatedCategoryDrawnTwice | public/shopping.js:286-356 | a category laid out twice in a row has its lines drawn twice, and the continuation marks no longer follow the categories: the second run starts unmarked |
| ShoppingPdf.RepeatedGroupDrawsOneItemTwice | public/shopping.js:138-356 | as written, when the only item's category is ordered twice, the PDF draws the item twice and marks no continuation |
| ShoppingPdf.AsWrittenPdfDrawsItemTwice | public/shopping.js:138-356 | as written, groups "Fruits", "Fruits", "Other" and one fruit to buy give a PDF that draws the fruit twice |
| ShoppingPdf.PdfListsEveryItemOnce | public/shopping.js:138-356 | (corrected, see ## Findings) the PDF lists under each category exactly the to-buy lines filed under it, in the store's order, so each item is drawn once |
| ShoppingPdf.PdfMarksContinuations | public/shopping.js:286-356 | (corrected, see ## Findings) in the PDF the first box is not a continuation, and a later box is one exactly when it follows a box of the same category |

## Left out

- DOM rendering, animations, menus, modals and the confirm and alert dialogs are presentation only, except where text written into the page is read back (the recipe search and the cuisine tags, below). A dialog the user must confirm is modelled as already confirmed.
- The store client, sign-in and the query engine are replaced by the map-based store. Queries are filters over the collection. A batch is a fold of `update`s that fails as a whole when one of its documents is missing. Besides that, the model knows only these store failures: an `update` of a missing document, an `add` or a query or `get` whose outcome parameter says it failed, and a draft merge-write refused because no owner is known (`RecipeDraft.ClosePanel`). No other store call fails in the model, so three failure paths are not modelled: a failing `get` in `finalizeRecipeSave` (public/recipes.js:788), which leaves the close handler before it forgets the draft id (public/recipes.js:464-466); a `delete` that fails after the cascade of `deleteIngredient` has been committed (public/ingredients.js:562-567), which would leave the recipes stripped and the ingredient kept; and the error path of deleting a group (public/ingredients.js:304-307).
- Real asynchronous interleaving is not modelled. Only the window between starting and completing the draft's creation is an explicit state, so an edit made in that window can be described.
- Common.Collate: `localeCompare` is modelled as code-unit order, a total order, not the locale's collation. `toLowerCase` and `trim` work on ASCII letters and blanks only.
- ShoppingPdf.CategoryBoxes: the page and column geometry, float line spacing and text-width truncation become a capacity function `fit` that gives each box at least one line. Positions, page breaks and the date header are not modelled.
- ShoppingPdf.BackgroundFallsBackToSimple: only the choice of image is modelled. When the image fails to load, the page falls back to a white fill, which is not modelled.
- The file name of the PDF and the drawn date depend on the clock and are left out.
- The image upload, canvas compression and image repositioning of both panels are float geometry and browser calls. They are left out, as are the icon picker and its catalogues.
- IngredientPanel.InputsOf: the preview offset is an integer. The source reads it with `parseFloat`.
- Documents: JavaScript property enumeration order, prototype keys and values of an unexpected type are not modelled. A field of the wrong kind reads as absent, like a falsy one.
- CuisineList.WithCounts: a cuisine without a name is looked up in the name tally as "". In the source the lookup key would be the string "undefined".
- CuisineList.Drop: drop handlers exist only on regular rows (public/cuisines.js:472-476), so the target is always a regular row. The drag-over on the list itself (public/cuisines.js:435-469) only shows indicators and records no drop position, so it is left out.
- CuisineList.SaveNewOrder: the `order` it writes is never read back; the menu's load sorts by name, date or count only (public/cuisines.js:368-399).
- RecipeDraft.Finalize: `set(…, {merge: true})` creates the draft document again when it has been deleted in the meantime (public/recipes.js:805-821).
- RecipeList.FilterCards: the title is written into its card through `innerHTML` (public/recipes.js:225) and searched through `textContent` (public/app.js:1432). The HTML parser between the two is not modelled: it is the parameter `render` of the search, known only to give plain text (`Common.PlainText`) back unchanged, so what the search finds for a title holding markup or character references depends on that parameter.
- CuisineTags.RenderTags: a name is shown through `innerHTML`, so markup in it is parsed and not shown as typed. The model takes names as plain text; only names free of `<`, `&`, CR and NUL survive that unchanged.
- CuisineTags.CurrentCuisines: names are read back through `textContent`, so a name holding markup reads back changed; the model reads back the text as rendered.
- CuisineTags.TagsRoundTrip: stated only for names free of `<`, `&`, CR and NUL (`Common.PlainText`), since the browser rewrites the others.
- RecipeDraft.ReopenThenCloseKeepsRecipe: stated only for stored entries whose names are plain text in that sense, for the same reason.
- Common.ParseInt: the number is an unbounded integer. Past 2^53 JavaScript's parsed value loses precision, and very long digit runs become Infinity; neither is modelled.
- The application directory holds a second, older `app.js` at its root and a copy of the PDF routine in public/app.js:569-1051. Neither is part of this model: the root copy cannot load together with the public scripts, and the copy is identical to public/shopping.js.

## Findings

| source | as written | input that shows it | evidently intended | confidence | as-written member | corrected member |
|---|---|---|---|---|---|---|
| public/cuisines.js:583-605 | the drop handler takes the dragged row's previous sibling to be its indicator, and puts it back next to the target even when it is a row; rows added by a load sit directly one above the other (public/cuisines.js:171-174) | load z, y, x, then drag x "before" z: the list becomes y, x, z | only the dragged row moves, giving x, z, y | high, not executed | CuisineList.DropAsWritten, CuisineList.AsWrittenDropCarriesNeighbour | CuisineList.Drop, CuisineList.DropMovesRow, CuisineList.DropOfExampleMovesOneRow |
| public/cuisines.js:402-404 | the sorted cuisines are added one by one, and each regular row goes in before the first regular row (public/cuisines.js:171-174), so the menu shows the sort back to front | two cuisines "a" and "b" loaded by name ascending show "b" above "a" | the menu shows the cuisines in sorted order | high, not executed | CuisineList.LoadCuisines, CuisineList.LoadShowsSortReversed, CuisineList.LoadByNameShowsDescending, CuisineList.MenuStartsReverseAlphabetical | CuisineList.LoadCuisinesInOrder, CuisineList.InOrderShowsSorted, CuisineList.CorrectedMenuStartsAlphabetical |
| public/shopping.js:157-169 | the first loop pushes a group once per occurrence in the group list, and the new-group button (public/ingredients.js:624) does not refuse a name that is already listed | groups "Fruits", "Fruits", "Other" with one fruit to buy: the category order is "Fruits", "Fruits", so the fruit is drawn twice and the second box is not marked as a continuation | each category with items appears once | medium, not executed | ShoppingPdf.PresentGroupsAsWritten, ShoppingPdf.CategoryOrderAsWritten, ShoppingPdf.DownloadShoppingList, ShoppingPdf.AsWrittenPdfDrawsItemTwice | ShoppingPdf.PresentGroups, ShoppingPdf.CategoryOrderShape, ShoppingPdf.DownloadShoppingListCorrected, ShoppingPdf.PdfListsEveryItemOnce |
| public/ingredients.js:1979-2037 | opening an ingredient for editing does not load its stored `recipes` into the selection, and saving writes the selection (public/ingredients.js:1890) | open an ingredient stored with recipes ["r1"] and close the panel without a change: `recipes` is written as [] | editing without a change keeps the ingredient's recipe links | medium, not executed | IngredientPanel.OpenForEditAsWritten, IngredientPanel.AsWrittenEditDropsRecipes | IngredientPanel.OpenForEdit, IngredientPanel.EditWithoutChangesKeepsIngredient |

=== FILE: common.dfy ===
/** Helpers shared by every part of the model: an optional value, the
    JavaScript string built-ins the application relies on (`trim`,
    `toLowerCase`, `includes`, `parseInt`, `localeCompare`), and small
    sequence operations that mirror `Array.prototype` methods. */
module Common {

  datatype Option<+T> = None | Some(value: T)

  // ---------------------------------------------------------------------
  // Sequences
  // ---------------------------------------------------------------------

  /** `Array.prototype.filter`: the elements satisfying `p`, in order. */
  function Filter<T(!new)>(s: seq<T>, p: T -> bool): (r: seq<T>)
    ensures |r| <= |s|
    ensures forall x :: x in r <==> x in s && p(x)
    ensures forall i :: 0 <= i < |r| ==> p(r[i])
  {
    if |s| == 0 then []
    else if p(s[0]) then [s[0]] + Filter(s[1..], p)
    else Filter(s[1..], p)
  }

  /** Filtering a concatenation filters each part: the kept elements stay
      in the order they had. */
  lemma {:induction false} FilterConcat<T(!new)>(s: seq<T>, t: seq<T>, p: T -> bool)
    ensures Filter(s + t, p) == Filter(s, p) + Filter(t, p)
  {
    if |s| > 0 {
      assert (s + t)[0] == s[0] && (s + t)[1..] == s[1..] + t;
      FilterConcat(s[1..], t, p);
    } else {
      assert s + t == t;
    }
  }

  /** Number of positions of `s` holding `x`. */
  function Occurrences<T(==)>(s: seq<T>, x: T): nat
  {
    if |s| == 0 then 0
    else (if s[0] == x then 1 else 0) + Occurrences(s[1..], x)
  }

  predicate NoDuplicates<T(==)>(s: seq<T>)
  {
    forall i, j :: 0 <= i < j < |s| ==> s[i] != s[j]
  }

  /** `splice(i, 1)` on an in-range index. */
  function RemoveAt<T>(s: seq<T>, i: nat): (r: seq<T>)
    requires i < |s|
    ensures |r| == |s| - 1
    ensures forall k :: 0 <= k < i ==> r[k] == s[k]
    ensures forall k :: i <= k < |r| ==> r[k] == s[k + 1]
  {
    s[..i] + s[i + 1..]
  }

  /** `insertBefore` at position `i` (`i == |s|` appends). */
  function InsertAt<T>(s: seq<T>, i: nat, x: T): (r: seq<T>)
    requires i <= |s|
    ensures |r| == |s| + 1
    ensures r[i] == x
    ensures forall k :: 0 <= k < i ==> r[k] == s[k]
    ensures forall k :: i < k < |r| ==> r[k] == s[k - 1]
  {
    s[..i] + [x] + s[i..]
  }

  /** Index of the first element equal to `x` (`indexOf`), if any. */
  function IndexOf<T(==)>(s: seq<T>, x: T): (r: Option<nat>)
    ensures r.None? <==> x !in s
    ensures r.Some? ==> r.value < |s| && s[r.value] == x
    ensures r.Some? ==> forall k :: 0 <= k < r.value ==> s[k] != x
  {
    if |s| == 0 then None
    else if s[0] == x then Some(0)
    else match IndexOf(s[1..], x)
      case None => None
      case Some(k) => Some(k + 1)
  }

  lemma RemoveAtMultiset<T>(s: seq<T>, i: nat)
    requires i < |s|
    ensures multiset(RemoveAt(s, i)) + multiset{s[i]} == multiset(s)
  {
    assert s == s[..i] + [s[i]] + s[i + 1..];
  }

  /** Moving the stretch `c` from between `a` and `b` to position `k` of
      `a + b` keeps the elements. */
  lemma SpliceMultiset<T>(a: seq<T>, c: seq<T>, b: seq<T>, k: nat)
    requires k <= |a| + |b|
    ensures multiset((a + b)[..k] + c + (a + b)[k..]) == multiset(a + c + b)
  {
    var rest := a + b;
    var x, y := rest[..k], rest[k..];
    assert rest == x + y;
    calc {
      multiset(x + c + y);
      multiset(x) + multiset(c) + multiset(y);
      multiset(x) + multiset(y) + multiset(c);
      multiset(x + y) + multiset(c);
      multiset(a) + multiset(b) + multiset(c);
      multiset(a) + multiset(c) + multiset(b);
      multiset(a + c + b);
    }
  }

  /** Inserting at the seam of a join. */
  lemma JoinAt<T>(a: seq<T>, b: seq<T>, x: T)
    ensures InsertAt(a + b, |a|, x) == a + [x] + b
  {
    assert (a + b)[..|a|] == a && (a + b)[|a|..] == b;
  }

  /** Removing the element between the two parts of a join. */
  lemma RemoveAtJoin<T>(a: seq<T>, x: T, b: seq<T>)
    ensures RemoveAt(a + [x] + b, |a|) == a + b
  {
    assert (a + [x] + b)[..|a|] == a && (a + [x] + b)[|a| + 1..] == b;
  }

  /** A prefix reaching past the end of `a`. */
  lemma PrefixOfJoin<T>(a: seq<T>, b: seq<T>, k: nat)
    requires |a| <= k <= |a| + |b|
    ensures (a + b)[..k] == a + b[..k - |a|]
  {
  }

  /** The position the moved element takes when the element at `from` is
      taken out and put back next to the element that was at `to`. */

  function MovedIndex(from: nat, to: nat, after: bool): nat
  {
    (if from < to then to - 1 else to) + (if after then 1 else 0)
  }

  /** A drag-and-drop move: the element at `from` is removed and reinserted
      immediately before (or after) the element that was at `to`; every
      other element keeps its relative order. */
  function MoveBeside<T>(s: seq<T>, from: nat, to: nat, after: bool): (r: seq<T>)
    requires from < |s| && to < |s| && from != to
    ensures |r| == |s| && MovedIndex(from, to, after) < |r|
    ensures r[MovedIndex(from, to, after)] == s[from]
    ensures RemoveAt(r, MovedIndex(from, to, after)) == RemoveAt(s, from)
    ensures multiset(r) == multiset(s)
    ensures !after ==> MovedIndex(from, to, after) + 1 < |r| && r[MovedIndex(from, to, after) + 1] == s[to]
    ensures after ==> MovedIndex(from, to, after) >= 1 && r[MovedIndex(from, to, after) - 1] == s[to]
  {
    var rest := RemoveAt(s, from);
    var at := MovedIndex(from, to, after);
    var r := InsertAt(rest, at, s[from]);
    assert RemoveAt(r, at) == rest by {
      RemoveInserted(rest, at, s[from]);
    }
    assert multiset(r) == multiset(s) by {
      RemoveAtMultiset(s, from);
      RemoveAtMultiset(r, at);
    }
    assert (!after ==> at + 1 < |r| && r[at + 1] == s[to]) && (after ==> at >= 1 && r[at - 1] == s[to]) by {
      TargetAfterRemoval(s, from, to);
      InsertBeside(rest, if from < to then to - 1 else to, s[from], after);
    }
    r
  }

  /** Taking out what was just put in gives the sequence back. */
  lemma RemoveInserted<T>(s: seq<T>, i: nat, x: T)
    requires i <= |s|
    ensures RemoveAt(InsertAt(s, i, x), i) == s
  {
    assert (s[..i] + [x] + s[i..])[..i] == s[..i];
    assert (s[..i] + [x] + s[i..])[i + 1..] == s[i..];
    assert s[..i] + s[i..] == s;
  }

  /** Inserting just before or just after position `t` leaves the element
      at `t` as the inserted one's neighbour. */
  lemma InsertBeside<T>(s: seq<T>, t: nat, x: T, after: bool)
    requires t < |s|
    ensures var at := t + (if after then 1 else 0);
      var r := InsertAt(s, at, x);
      (after ==> at >= 1 && r[at - 1] == s[t]) && (!after ==> at + 1 < |r| && r[at + 1] == s[t])
  {
  }

  /** Where the element at `to` sits once the one at `from` is out. */
  lemma TargetAfterRemoval<T>(s: seq<T>, from: nat, to: nat)
    requires from < |s| && to < |s| && from != to
    ensures var t := if from < to then to - 1 else to;
      t < |s| - 1 && RemoveAt(s, from)[t] == s[to]
  {
  }

  /** `s` back to front. */
  function Reverse<T>(s: seq<T>): (r: seq<T>)
    ensures |r| == |s|
    ensures forall i :: 0 <= i < |s| ==> r[i] == s[|s| - 1 - i]
  {
    if |s| == 0 then [] else Reverse(s[1..]) + [s[0]]
  }

  lemma ReverseInvolution<T>(s: seq<T>)
    ensures Reverse(Reverse(s)) == s
  {
    assert forall i :: 0 <= i < |s| ==> Reverse(Reverse(s))[i] == Reverse(s)[|s| - 1 - i];
  }

  /** Number of `true` flags in `s`. */
  function CountTrue(s: seq<bool>): nat
  {
    if |s| == 0 then 0 else (if s[0] then 1 else 0) + CountTrue(s[1..])
  }

  // ---------------------------------------------------------------------
  // Sorting with a comparator (Array.prototype.sort)
  // ---------------------------------------------------------------------

  /** The order flag of the sort menus; `NoOrder` stands for any value
      other than "asc" and "desc". */
  datatype SortOrder = Asc | Desc | NoOrder

  /** A comparator that answers the opposite way when its arguments are
      swapped, as every comparator of the application does. */
  ghost predicate Antisymmetric<T(!new)>(cmp: (T, T) -> int)
  {
    forall a, b :: cmp(a, b) == -cmp(b, a)
  }

  /** Every element compares at most equal to the one after it. */
  predicate SortedBy<T>(s: seq<T>, cmp: (T, T) -> int)
  {
    forall i :: 0 <= i < |s| - 1 ==> cmp(s[i], s[i + 1]) <= 0
  }

  /** `x` placed before the first element it does not sort after. */
  function Insert<T(!new)>(x: T, s: seq<T>, cmp: (T, T) -> int): (r: seq<T>)
    requires Antisymmetric(cmp) && SortedBy(s, cmp)
    ensures SortedBy(r, cmp)
    ensures multiset(r) == multiset(s) + multiset{x}
    ensures |r| == |s| + 1 && (r[0] == x || (|s| > 0 && r[0] == s[0]))
  {
    if |s| == 0 then [x]
    else if cmp(x, s[0]) <= 0 then [x] + s
    else
      var rest := Insert(x, s[1..], cmp);
      assert s == [s[0]] + s[1..];
      assert cmp(s[0], x) < 0;
      [s[0]] + rest
  }

  /** The array sorted by `cmp`: a permutation of `s` in which every element
      compares at most equal to the next. */
  function SortBy<T(!new)>(s: seq<T>, cmp: (T, T) -> int): (r: seq<T>)
    requires Antisymmetric(cmp)
    ensures SortedBy(r, cmp)
    ensures multiset(r) == multiset(s)
  {
    if |s| == 0 then []
    else
      assert s == [s[0]] + s[1..];
      Insert(s[0], SortBy(s[1..], cmp), cmp)
  }

  /** Ties of `cmp` are an equivalence: two elements tied with a third
      are tied with each other. Every comparator of the application has
      this property. */
  ghost predicate TiesTransitive<T(!new)>(cmp: (T, T) -> int)
  {
    forall a, b, c :: cmp(a, b) == 0 && cmp(b, c) == 0 ==> cmp(a, c) == 0
  }

  /** The elements of `s` that `cmp` ties with `k`, in their order in `s`. */
  function TiedWith<T>(s: seq<T>, cmp: (T, T) -> int, k: T): (r: seq<T>)
    ensures |r| <= |s|
    ensures forall i :: 0 <= i < |r| ==> cmp(r[i], k) == 0
  {
    if |s| == 0 then []
    else (if cmp(s[0], k) == 0 then [s[0]] else []) + TiedWith(s[1..], cmp, k)
  }

  lemma TiedWithCons<T>(a: T, t: seq<T>, cmp: (T, T) -> int, k: T)
    ensures TiedWith([a] + t, cmp, k) == (if cmp(a, k) == 0 then [a] else []) + TiedWith(t, cmp, k)
  {
    assert ([a] + t)[1..] == t;
  }

  /** Two elements tied with the same `k` are tied with each other. */
  lemma TiedTogether<T(!new)>(a: T, b: T, cmp: (T, T) -> int, k: T)
    requires Antisymmetric(cmp) && TiesTransitive(cmp)
    ensures cmp(a, k) == 0 && cmp(b, k) == 0 ==> cmp(a, b) == 0
  {
    assert cmp(k, b) == -cmp(b, k);
  }

  /** Putting `h` in front of a list into which `x` went, when `h` and `x`
      are not both tied with `k`. */
  lemma TiedPastHead<T>(x: T, h: T, rest: seq<T>, t: seq<T>, cmp: (T, T) -> int, k: T)
    requires TiedWith(rest, cmp, k) == (if cmp(x, k) == 0 then [x] else []) + TiedWith(t, cmp, k)
    requires !(cmp(x, k) == 0 && cmp(h, k) == 0)
    ensures TiedWith([h] + rest, cmp, k) == (if cmp(x, k) == 0 then [x] else []) + TiedWith([h] + t, cmp, k)
  {
    TiedWithCons(h, rest, cmp, k);
    TiedWithCons(h, t, cmp, k);
    var rt, tt := TiedWith(rest, cmp, k), TiedWith(t, cmp, k);
    if cmp(x, k) == 0 {
      assert rt == [x] + tt;
      assert TiedWith([h] + rest, cmp, k) == [] + rt;
      assert TiedWith([h] + t, cmp, k) == [] + tt;
    } else {
      assert rt == [] + tt == tt;
    }
  }

  /** Inserting `x` places it before every element it ties with. */
  lemma {:induction false} InsertTied<T(!new)>(x: T, s: seq<T>, cmp: (T, T) -> int, k: T)
    requires Antisymmetric(cmp) && TiesTransitive(cmp) && SortedBy(s, cmp)
    ensures TiedWith(Insert(x, s, cmp), cmp, k) == (if cmp(x, k) == 0 then [x] else []) + TiedWith(s, cmp, k)
  {
    if |s| == 0 || cmp(x, s[0]) <= 0 {
      TiedWithCons(x, s, cmp, k);
    } else {
      var h, t := s[0], s[1..];
      assert s == [h] + t;
      InsertTied(x, t, cmp, k);
      TiedTogether(x, h, cmp, k);
      TiedPastHead(x, h, Insert(x, t, cmp), t, cmp, k);
    }
  }

  /** `SortBy` is stable: the elements tied with any `k` keep the order they
      had in the input, as `Array.prototype.sort` guarantees. */
  lemma {:induction false} SortByStable<T(!new)>(s: seq<T>, cmp: (T, T) -> int, k: T)
    requires Antisymmetric(cmp) && TiesTransitive(cmp)
    ensures TiedWith(SortBy(s, cmp), cmp, k) == TiedWith(s, cmp, k)
  {
    if |s| > 0 {
      SortByStable(s[1..], cmp, k);
      InsertTied(s[0], SortBy(s[1..], cmp), cmp, k);
    }
  }

  // ---------------------------------------------------------------------
  // Strings
  // ---------------------------------------------------------------------

  /** The ASCII part of ECMAScript's white-space and line-terminator set. */
  predicate IsSpace(c: char)
  {
    c == ' ' || c == '\t' || c == '\n' || c == '\r' || c == '\U{000B}' || c == '\U{000C}'
  }

  function TrimStart(s: string): (r: string)
    ensures |r| <= |s| && r == s[|s| - |r|..]
    ensures forall k :: 0 <= k < |s| - |r| ==> IsSpace(s[k])
    ensures |r| > 0 ==> !IsSpace(r[0])
  {
    if |s| > 0 && IsSpace(s[0]) then TrimStart(s[1..]) else s
  }

  function TrimEnd(s: string): (r: string)
    ensures |r| <= |s| && r == s[..|r|]
    ensures forall k :: |r| <= k < |s| ==> IsSpace(s[k])
    ensures |r| > 0 ==> !IsSpace(r[|r| - 1])
  {
    if |s| > 0 && IsSpace(s[|s| - 1]) then TrimEnd(s[..|s| - 1]) else s
  }

  /** `String.prototype.trim`. */
  function Trim(s: string): string
  {
    TrimEnd(TrimStart(s))
  }

  predicate IsTrimmed(s: string)
  {
    |s| == 0 || (!IsSpace(s[0]) && !IsSpace(s[|s| - 1]))
  }

  /** Text the HTML parser reads back literally when it is written through
      `innerHTML`: no `<` (which opens markup), no `&` (which opens a
      character reference), no carriage return (turned into a line feed)
      and no NUL (dropped). */
  predicate PlainText(n: string)
  {
    forall i :: 0 <= i < |n| ==> n[i] != '<' && n[i] != '&' && n[i] != '\r' && n[i] != '\0'
  }

  lemma TrimIsTrimmed(s: string)
    ensures IsTrimmed(Trim(s))
  {
    var t := TrimStart(s);
    var r := TrimEnd(t);
    if |r| > 0 {
      assert r[0] == t[0];
    }
  }

  /** Trimming a string that has no surrounding blanks gives it back. */
  lemma TrimOfTrimmed(s: string)
    requires IsTrimmed(s)
    ensures Trim(s) == s
  {
  }

  lemma TrimIdempotent(s: string)
    ensures Trim(Trim(s)) == Trim(s)
  {
    TrimIsTrimmed(s);
    TrimOfTrimmed(Trim(s));
  }

  /** `toLowerCase`, on the ASCII letters. */
  function LowerChar(c: char): char
  {
    if 'A' <= c <= 'Z' then (c as int + 32) as char else c
  }

  function Lower(s: string): (r: string)
    ensures |r| == |s|
    ensures forall k :: 0 <= k < |s| ==> r[k] == LowerChar(s[k])
  {
    if |s| == 0 then "" else [LowerChar(s[0])] + Lower(s[1..])
  }

  lemma LowerIdempotent(s: string)
    ensures Lower(Lower(s)) == Lower(s)
  {
  }

  /** `t` occurs in `s` starting at offset `i`. */
  predicate OccursAt(s: string, t: string, i: int)
  {
    0 <= i <= |s| - |t| && s[i..i + |t|] == t
  }

  /** `s.includes(t)`: `t` occurs in `s` at some offset. */
  predicate Contains(s: string, t: string)
  {
    exists i :: 0 <= i <= |s| - |t| && OccursAt(s, t, i)
  }

  /** The trimmed text is a piece of the text it came from. */
  lemma TrimOccurs(s: string)
    ensures OccursAt(s, Trim(s), |s| - |TrimStart(s)|)
    ensures Contains(s, Trim(s))
  {
    var t := TrimStart(s);
    var r := TrimEnd(t);
    var k := |s| - |t|;
    PieceOccurs(s, k, |r|);
    OccursIsContained(s, r, k);
  }

  /** A prefix of a suffix occurs where the suffix starts. */
  lemma PieceOccurs(s: string, k: nat, m: nat)
    requires k + m <= |s|
    ensures OccursAt(s, s[k..][..m], k)
  {
    SliceOfSuffix(s, k, m);
  }

  lemma OccursIsContained(s: string, t: string, i: int)
    requires OccursAt(s, t, i)
    ensures Contains(s, t)
  {
  }

  lemma SliceOfSuffix(s: string, k: nat, m: nat)
    requires k + m <= |s|
    ensures s[k..][..m] == s[k..k + m]
  {
  }

  /** The substring search behind `includes`. */
  method Includes(s: string, t: string) returns (found: bool)
    ensures found <==> Contains(s, t)
  {
    if |t| > |s| {
      return false;
    }
    var i := 0;
    while i <= |s| - |t|
      invariant 0 <= i <= |s| - |t| + 1
      invariant forall j :: 0 <= j < i ==> !OccursAt(s, t, j)
    {
      if s[i..i + |t|] == t {
        assert OccursAt(s, t, i);
        return true;
      }
      i := i + 1;
    }
    return false;
  }

  // ---------------------------------------------------------------------
  // Integers: parseInt(text) without a radix, and the number-to-text
  // conversion
  // ---------------------------------------------------------------------

  /** The value `parseInt` gives `c` as a digit: 0-9 for the decimal
      digits, 10-35 for the letters in either case, and 36 (a digit in no
      radix) for anything else. */
  function CharValue(c: char): nat
  {
    if '0' <= c <= '9' then c as int - '0' as int
    else if 'a' <= c <= 'z' then c as int - 'a' as int + 10
    else if 'A' <= c <= 'Z' then c as int - 'A' as int + 10
    else 36
  }

  /** The two bases the source's number fields can be read in. */
  datatype Radix = Decimal | Hexadecimal

  function Base(radix: Radix): nat
  {
    if radix == Hexadecimal then 16 else 10
  }

  predicate IsDigitIn(c: char, radix: Radix)
  {
    CharValue(c) < Base(radix)
  }

  function DigitChar(d: nat): (c: char)
    requires d < 10
    ensures IsDigitIn(c, Decimal) && CharValue(c) == d
  {
    ('0' as int + d) as char
  }

  /** Length of the longest prefix of `s` made of digits in `radix`. */
  function DigitPrefix(s: string, radix: Radix): (n: nat)
    ensures n <= |s|
    ensures forall k :: 0 <= k < n ==> IsDigitIn(s[k], radix)
    ensures n < |s| ==> !IsDigitIn(s[n], radix)
  {
    if |s| > 0 && IsDigitIn(s[0], radix) then 1 + DigitPrefix(s[1..], radix) else 0
  }

  /** A text made of digits is read to its end. */
  lemma {:induction false} DigitPrefixOfDigits(s: string, radix: Radix)
    requires forall k :: 0 <= k < |s| ==> IsDigitIn(s[k], radix)
    ensures DigitPrefix(s, radix) == |s|
  {
    if |s| > 0 {
      DigitPrefixOfDigits(s[1..], radix);
    }
  }

  /** The value of a run of digits in `radix`. */
  function DigitsValue(ds: string, radix: Radix): nat
    requires forall k :: 0 <= k < |ds| ==> IsDigitIn(ds[k], radix)
  {
    if |ds| == 0 then 0
    else
      var high := DigitsValue(ds[..|ds| - 1], radix);
      (if radix == Hexadecimal then 16 * high else 10 * high) + CharValue(ds[|ds| - 1])
  }

  /** The text starts with the `0x` (or `0X`) prefix. */
  predicate HexPrefixed(s: string)
  {
    |s| >= 2 && s[0] == '0' && (s[1] == 'x' || s[1] == 'X')
  }

  /** `parseInt(s)` with no radix argument: leading blanks are skipped, an
      optional sign is read, a `0x` prefix switches to base 16, then the
      longest run of digits is read; no digits at all gives NaN, modelled
      as `None`. */
  function ParseInt(s: string): Option<int>
  {
    var t := TrimStart(s);
    match ReadDigits(SignlessBody(t))
    case None => None
    case Some(m) => if |t| > 0 && t[0] == '-' then Some(-(m as int)) else Some(m)
  }

  /** The number the digits after the sign spell, in base 16 behind a `0x`
      prefix and in base 10 otherwise; `None` when there is no digit. */
  function ReadDigits(body: string): Option<nat>
  {
    var digits := DigitsAfterPrefix(body);
    var radix := RadixOf(body);
    var n := DigitPrefix(digits, radix);
    if n == 0 then None else Some(DigitsValue(digits[..n], radix))
  }

  /** The text after an optional leading sign. */
  function SignlessBody(t: string): string
  {
    if |t| > 0 && (t[0] == '-' || t[0] == '+') then t[1..] else t
  }

  function RadixOf(body: string): Radix
  {
    if HexPrefixed(body) then Hexadecimal else Decimal
  }

  function DigitsAfterPrefix(body: string): string
  {
    if HexPrefixed(body) then body[2..] else body
  }

  /** `parseInt(s) || 0`: NaN (and zero) become 0. */
  function IntOrZero(s: string): int
  {
    match ParseInt(s)
    case None => 0
    case Some(n) => n
  }

  /** Text with no blank or sign in front parses to what its digits
      spell. */
  lemma ParseIntOfUnsigned(s: string)
    requires TrimStart(s) == s && SignlessBody(s) == s
    ensures ReadDigits(s).None? ==> ParseInt(s) == None
    ensures ReadDigits(s).Some? ==> ParseInt(s) == Some(ReadDigits(s).value as int)
  {
  }

  lemma ReadDigitsOfHex(d: string)
    requires |d| > 0 && forall k :: 0 <= k < |d| ==> IsDigitIn(d[k], Hexadecimal)
    ensures ReadDigits("0x" + d) == Some(DigitsValue(d, Hexadecimal))
  {
    HexLiteral(d);
    DigitPrefixOfDigits(d, Hexadecimal);
    assert d[..|d|] == d;
  }

  /** Behind a `0x` prefix the text is read in base 16. */
  lemma ParseIntOfHex(d: string)
    requires |d| > 0 && forall k :: 0 <= k < |d| ==> IsDigitIn(d[k], Hexadecimal)
    ensures ParseInt("0x" + d) == Some(DigitsValue(d, Hexadecimal))
  {
    HexLiteral(d);
    ReadDigitsOfHex(d);
    ParseIntOfUnsigned("0x" + d);
  }

  /** A `0x` literal has no blank or sign in front. */
  lemma HexLiteral(d: string)
    ensures var s := "0x" + d;
      TrimStart(s) == s && SignlessBody(s) == s && HexPrefixed(s) && s[2..] == d
  {
    var s := "0x" + d;
    assert s[0] == '0' && s[1] == 'x';
  }

  /** A minus sign in front of unsigned text negates what it parses
      to. */
  lemma ParseIntOfMinus(s: string)
    requires |s| > 0 && !IsSpace(s[0]) && s[0] != '-' && s[0] != '+'
    ensures ParseInt(s).None? ==> ParseInt("-" + s) == None
    ensures ParseInt(s).Some? ==> ParseInt("-" + s) == Some(-ParseInt(s).value)
  {
    assert TrimStart(s) == s && SignlessBody(s) == s;
    var m := "-" + s;
    assert m[0] == '-' && m[1..] == s;
    assert TrimStart(m) == m && SignlessBody(m) == s;
  }

  /** A `0x` prefix followed by no hexadecimal digit is NaN. */
  lemma ParseIntOfEmptyHex(d: string)
    requires |d| == 0 || !IsDigitIn(d[0], Hexadecimal)
    ensures ParseInt("0x" + d) == None
  {
    HexLiteral(d);
    assert DigitPrefix(d, Hexadecimal) == 0;
    ParseIntOfUnsigned("0x" + d);
  }

  function NatToDecimal(n: nat): (r: string)
    ensures |r| > 0
    ensures forall k :: 0 <= k < |r| ==> IsDigitIn(r[k], Decimal)
    decreases n
  {
    if n < 10 then [DigitChar(n)] else NatToDecimal(n / 10) + [DigitChar(n % 10)]
  }

  /** `String(n)` for an integer. */
  function IntToDecimal(n: int): string
  {
    if n < 0 then "-" + NatToDecimal(-n) else NatToDecimal(n)
  }

  lemma {:induction false} NatToDecimalValue(n: nat)
    ensures DigitsValue(NatToDecimal(n), Decimal) == n
    decreases n
  {
    var r := NatToDecimal(n);
    if n >= 10 {
      NatToDecimalValue(n / 10);
      assert r[..|r| - 1] == NatToDecimal(n / 10);
    }
  }

  lemma ReadDigitsOfDecimal(n: nat)
    ensures ReadDigits(NatToDecimal(n)) == Some(n)
  {
    var digits := NatToDecimal(n);
    assert !HexPrefixed(digits) by {
      if |digits| >= 2 {
        assert IsDigitIn(digits[1], Decimal);
      }
    }
    DigitPrefixOfDigits(digits, Decimal);
    assert digits[..|digits|] == digits;
    NatToDecimalValue(n);
  }

  /** Decimal digits parse to the value they spell. */
  lemma ParseIntOfDigits(digits: string, m: nat)
    requires |digits| > 0 && forall k :: 0 <= k < |digits| ==> IsDigitIn(digits[k], Decimal)
    requires ReadDigits(digits) == Some(m)
    ensures ParseInt(digits) == Some(m)
  {
    DigitIsNotBlank(digits[0]);
    TrimStartOfNonBlank(digits);
    ParseIntOfUnsigned(digits);
  }

  lemma DigitIsNotBlank(c: char)
    requires IsDigitIn(c, Decimal)
    ensures !IsSpace(c) && c != '-' && c != '+'
  {
  }

  lemma TrimStartOfNonBlank(s: string)
    requires |s| > 0 && !IsSpace(s[0])
    ensures TrimStart(s) == s
  {
  }

  /** The text written into a number field parses back to the number. */
  lemma ParseIntOfDecimal(n: int)
    ensures ParseInt(IntToDecimal(n)) == Some(n)
  {
    var m: nat := if n < 0 then -n else n;
    var digits := NatToDecimal(m);
    ReadDigitsOfDecimal(m);
    ParseIntOfDigits(digits, m);
    if n < 0 {
      assert IsDigitIn(digits[0], Decimal);
      assert IntToDecimal(n) == "-" + digits;
      ParseIntOfMinus(digits);
    } else {
      assert IntToDecimal(n) == digits;
    }
  }

  /** `parseInt(String(n)) || 0` is `n`, and `String(n)` is never empty. */
  lemma IntOrZeroOfDecimal(n: int)
    ensures IntToDecimal(n) != "" && IntOrZero(IntToDecimal(n)) == n
  {
    ParseIntOfDecimal(n);
  }

  /** `parseInt("") || 0` is 0. */
  lemma IntOrZeroOfEmpty()
    ensures IntOrZero("") == 0
  {
    assert TrimStart("") == "" && SignlessBody("") == "";
    assert DigitPrefix("", Decimal) == 0;
  }

  // ---------------------------------------------------------------------
  // localeCompare, modelled as the lexicographic order on code units
  // ---------------------------------------------------------------------

  /** Negative, zero or positive as `a` sorts before, with, or after `b`. */
  function Collate(a: string, b: string): (r: int)
    ensures -1 <= r <= 1
  {
    if |a| == 0 && |b| == 0 then 0
    else if |a| == 0 then -1
    else if |b| == 0 then 1
    else if a[0] < b[0] then -1
    else if a[0] > b[0] then 1
    else Collate(a[1..], b[1..])
  }

  lemma {:induction false} CollateAntisymmetric(a: string, b: string)
    ensures Collate(a, b) == -Collate(b, a)
  {
    if |a| > 0 && |b| > 0 && a[0] == b[0] {
      CollateAntisymmetric(a[1..], b[1..]);
    }
  }

  lemma {:induction false} CollateZeroIffEqual(a: string, b: string)
    ensures Collate(a, b) == 0 <==> a == b
  {
    if |a| > 0 && |b| > 0 && a[0] == b[0] {
      CollateZeroIffEqual(a[1..], b[1..]);
      if a[1..] == b[1..] {
        assert a == [a[0]] + a[1..];
        assert b == [b[0]] + b[1..];
      }
    }
  }

  lemma {:induction false} CollateTransitive(a: string, b: string, c: string)
    requires Collate(a, b) < 0 && Collate(b, c) < 0
    ensures Collate(a, c) < 0
  {
    if |a| > 0 && |b| > 0 && |c| > 0 && a[0] == b[0] && b[0] == c[0] {
      CollateTransitive(a[1..], b[1..], c[1..]);
    }
  }
}

=== FILE: cuisine_list.dfy ===
/** The cuisine list of the cuisines page: its child elements (cuisine rows
    and the drop indicators placed around them), how `addCuisineRow` inserts
    rows while `loadCuisines` builds the list, the drag-over and drop rules
    that keep the synthetic Favorites row on top, the reorder a drop
    performs, the rank snapshot `saveNewOrder` writes back, and the
    comparator the loaded cuisines are sorted by.

    Every child element carries a `key` standing for its identity as a DOM
    node; rows also carry their `data-id` and whether they are the special
    (Favorites) row. */
module CuisineList {
  import opened Common
  import opened Documents
  import CuisineRefs

  /** A row's `data-id`: the synthetic "FAVORITES", or the id of a cuisine
      document. Document ids are assigned by the store and are twenty
      characters long, so no cuisine document is called "FAVORITES". */
  datatype RowId = FavoritesRow | CuisineRow(id: Id)

  datatype Kind = Indicator | Row(id: RowId, special: bool)

  datatype Node = Node(key: nat, kind: Kind)

  predicate IsIndicator(n: Node) { n.kind.Indicator? }

  predicate IsRow(n: Node) { n.kind.Row? }

  /** A draggable row (`.cuisine-row:not(.cuisine-row-special)`). */
  predicate IsRegular(n: Node) { n.kind.Row? && !n.kind.special }

  /** No element occurs twice among the children. */
  predicate DistinctKeys(dom: seq<Node>)
  {
    forall i, j :: 0 <= i < j < |dom| ==> dom[i].key != dom[j].key
  }

  /** Every element was created before the key `next` was handed out. */
  predicate KeysBelow(dom: seq<Node>, next: nat)
  {
    forall i :: 0 <= i < |dom| ==> dom[i].key < next
  }

  /** No two rows carry the same `data-id`. */
  predicate DistinctRowIds(dom: seq<Node>)
  {
    forall i, j :: 0 <= i < j < |dom| && IsRow(dom[i]) && IsRow(dom[j]) ==> dom[i].kind.id != dom[j].kind.id
  }

  // ---------------------------------------------------------------------
  // Row sequences
  // ---------------------------------------------------------------------

  /** The row is matched by `.cuisine-row`, or by
      `.cuisine-row:not(.cuisine-row-special)` when `regularOnly` holds. */
  predicate Picked(n: Node, regularOnly: bool)
  {
    n.kind.Row? && !(regularOnly && n.kind.special)
  }

  /** The `data-id`s of the picked rows, in document order. */
  function RowIds(dom: seq<Node>, regularOnly: bool): seq<RowId>
  {
    if |dom| == 0 then []
    else (if Picked(dom[0], regularOnly) then [dom[0].kind.id] else []) + RowIds(dom[1..], regularOnly)
  }

  function Rows(dom: seq<Node>): seq<RowId> { RowIds(dom, false) }

  function RegularIds(dom: seq<Node>): seq<RowId> { RowIds(dom, true) }

  /** The position of the child at `k` among the picked rows. */
  function RowIndex(dom: seq<Node>, k: nat, regularOnly: bool): nat
    requires k <= |dom|
  {
    |RowIds(dom[..k], regularOnly)|
  }

  lemma {:induction false} RowIdsAppend(a: seq<Node>, b: seq<Node>, regularOnly: bool)
    ensures RowIds(a + b, regularOnly) == RowIds(a, regularOnly) + RowIds(b, regularOnly)
  {
    if |a| == 0 {
      assert a + b == b;
    } else {
      var head := if Picked(a[0], regularOnly) then [a[0].kind.id] else [];
      assert (a + b)[0] == a[0] && (a + b)[1..] == a[1..] + b;
      assert RowIds(a + b, regularOnly) == head + RowIds(a[1..] + b, regularOnly);
      RowIdsAppend(a[1..], b, regularOnly);
      assert head + (RowIds(a[1..], regularOnly) + RowIds(b, regularOnly))
          == (head + RowIds(a[1..], regularOnly)) + RowIds(b, regularOnly);
    }
  }

  lemma RowIdsOne(n: Node, regularOnly: bool)
    ensures RowIds([n], regularOnly) == if Picked(n, regularOnly) then [n.kind.id] else []
  {
    assert [n][1..] == [];
  }

  /** A stretch holding no picked row contributes no id. */
  lemma {:induction false} RowIdsNonePicked(s: seq<Node>, regularOnly: bool)
    requires forall i :: 0 <= i < |s| ==> !Picked(s[i], regularOnly)
    ensures RowIds(s, regularOnly) == []
  {
    if |s| > 0 {
      RowIdsNonePicked(s[1..], regularOnly);
    }
  }

  /** The picked rows from `k` on: the child at `k`, then the rest. */
  lemma RowIdsFrom(s: seq<Node>, k: nat, regularOnly: bool)
    requires k < |s|
    ensures RowIds(s[k..], regularOnly)
            == (if Picked(s[k], regularOnly) then [s[k].kind.id] else []) + RowIds(s[k + 1..], regularOnly)
  {
    assert s[k..][1..] == s[k + 1..];
  }

  /** Splitting at `k` and at `k + 1` around a child. */
  lemma RowIdsAt(s: seq<Node>, k: nat, regularOnly: bool)
    requires k < |s|
    ensures RowIds(s[..k + 1], regularOnly) == RowIds(s[..k], regularOnly) + RowIds([s[k]], regularOnly)
    ensures RowIds(s, regularOnly) == RowIds(s[..k], regularOnly) + RowIds(s[k..], regularOnly)
  {
    assert s[..k + 1] == s[..k] + [s[k]];
    RowIdsAppend(s[..k], [s[k]], regularOnly);
    assert s == s[..k] + s[k..];
    RowIdsAppend(s[..k], s[k..], regularOnly);
  }

  // ---------------------------------------------------------------------
  // The DOM operations the handlers use
  // ---------------------------------------------------------------------

  /** Where the element `key` sits among the children, if it is one. */
  function Position(dom: seq<Node>, key: nat): (r: Option<nat>)
    ensures r.None? <==> forall i :: 0 <= i < |dom| ==> dom[i].key != key
    ensures r.Some? ==> r.value < |dom| && dom[r.value].key == key
  {
    if |dom| == 0 then None
    else if dom[0].key == key then Some(0)
    else match Position(dom[1..], key)
      case None => None
      case Some(i) => Some(i + 1)
  }

  lemma PositionOf(dom: seq<Node>, i: nat)
    requires DistinctKeys(dom) && i < |dom|
    ensures Position(dom, dom[i].key) == Some(i)
  {
  }

  /** `node.remove()`. */
  function Detach(dom: seq<Node>, key: nat): seq<Node>
  {
    match Position(dom, key)
    case None => dom
    case Some(i) => RemoveAt(dom, i)
  }

  /** `node.previousElementSibling`. */
  function PrevSibling(dom: seq<Node>, key: nat): Option<Node>
  {
    match Position(dom, key)
    case Some(i) => if i > 0 then Some(dom[i - 1]) else None
    case None => None
  }

  /** `ref?.nextElementSibling`. */
  function NextSibling(dom: seq<Node>, ref: Option<Node>): Option<Node>
  {
    match ref
    case None => None
    case Some(n) =>
      match Position(dom, n.key)
      case Some(i) => if i + 1 < |dom| then Some(dom[i + 1]) else None
      case None => None
  }

  /** `list.insertBefore(n, ref)`: `n` leaves its current place and goes
      immediately before `ref`; a null `ref` appends (`appendChild`), and
      inserting an element before itself leaves it where it is. The
      handlers only ever pass a child of the list as `ref`. */
  function InsertBefore(dom: seq<Node>, n: Node, ref: Option<Node>): seq<Node>
  {
    if ref.Some? && ref.value.key == n.key then dom
    else
      var rest := Detach(dom, n.key);
      match ref
      case None => rest + [n]
      case Some(c) =>
        match Position(rest, c.key)
        case Some(i) => InsertAt(rest, i, n)
        case None => rest + [n]
  }

  /** `list.querySelector('[data-id="…"]')`: the first row with that id. */
  function FindRow(dom: seq<Node>, id: RowId): (r: Option<nat>)
    ensures r.None? <==> forall i :: 0 <= i < |dom| && IsRow(dom[i]) ==> dom[i].kind.id != id
    ensures r.Some? ==> r.value < |dom| && IsRow(dom[r.value]) && dom[r.value].kind.id == id
    ensures r.Some? ==> forall i :: 0 <= i < r.value && IsRow(dom[i]) ==> dom[i].kind.id != id
  {
    if |dom| == 0 then None
    else if IsRow(dom[0]) && dom[0].kind.id == id then Some(0)
    else match FindRow(dom[1..], id)
      case None => None
      case Some(i) => Some(i + 1)
  }

  /** `list.querySelector('.cuisine-row:not(.cuisine-row-special)')`. */
  function FirstRegular(dom: seq<Node>): (r: Option<nat>)
    ensures r.None? <==> forall i :: 0 <= i < |dom| ==> !IsRegular(dom[i])
    ensures r.Some? ==> r.value < |dom| && IsRegular(dom[r.value])
    ensures r.Some? ==> forall i :: 0 <= i < r.value ==> !IsRegular(dom[i])
  {
    if |dom| == 0 then None
    else if IsRegular(dom[0]) then Some(0)
    else match FirstRegular(dom[1..])
      case None => None
      case Some(i) => Some(i + 1)
  }

  /** An indicator, a regular row, and the Favorites row as `loadCuisines`
      creates it. */
  function Ind(key: nat): Node { Node(key, Indicator) }

  function Reg(key: nat, id: RowId): Node { Node(key, Row(id, false)) }

  const Fav := Node(1, Row(FavoritesRow, true))

  // ---------------------------------------------------------------------
  // Building the list
  // ---------------------------------------------------------------------

  /** `ensureTrailingIndicator`: appends a fresh indicator (`key`) unless the
      last child already is one. */
  function EnsureTrailingIndicator(dom: seq<Node>, key: nat): (r: seq<Node>)
    ensures |r| > 0 && IsIndicator(r[|r| - 1])
    ensures dom <= r && |r| <= |dom| + 1
    ensures |dom| > 0 && IsIndicator(dom[|dom| - 1]) ==> r == dom
    ensures Rows(r) == Rows(dom) && RegularIds(r) == RegularIds(dom)
  {
    if |dom| == 0 || !IsIndicator(dom[|dom| - 1]) then
      var ind := Node(key, Indicator);
      RowIdsAppend(dom, [ind], false);
      RowIdsAppend(dom, [ind], true);
      RowIdsOne(ind, false);
      RowIdsOne(ind, true);
      dom + [ind]
    else dom
  }

  lemma EnsureTrailingIndicatorIdempotent(dom: seq<Node>, key: nat, key2: nat)
    ensures EnsureTrailingIndicator(EnsureTrailingIndicator(dom, key), key2) == EnsureTrailingIndicator(dom, key)
  {
  }

  /** The Favorites row sits on top, right behind the list's first
      indicator, and is the only special row. */
  predicate FavoritesFirst(dom: seq<Node>)
  {
    |dom| >= 2 && IsIndicator(dom[0]) && dom[1].kind == Row(FavoritesRow, true)
    && forall n :: n in dom[2..] && IsRow(n) ==> !n.kind.special
  }

  /** What inserting an indicator and a row at `at` does to the row ids. */
  lemma {:induction false} PlacedPair(dom: seq<Node>, at: nat, ind: Node, row: Node, regularOnly: bool)
    requires at <= |dom| && IsIndicator(ind)
    ensures RowIds(dom[..at] + [ind, row] + dom[at..], regularOnly)
            == RowIds(dom[..at], regularOnly) + RowIds([row], regularOnly) + RowIds(dom[at..], regularOnly)
    ensures RowIds(dom, regularOnly) == RowIds(dom[..at], regularOnly) + RowIds(dom[at..], regularOnly)
  {
    var ro := regularOnly;
    assert dom[..at] + [ind, row] + dom[at..] == dom[..at] + ([ind] + ([row] + dom[at..]));
    RowIdsAppend(dom[..at], [ind] + ([row] + dom[at..]), ro);
    RowIdsAppend([ind], [row] + dom[at..], ro);
    RowIdsAppend([row], dom[at..], ro);
    RowIdsOne(ind, ro);
    assert dom == dom[..at] + dom[at..];
    RowIdsAppend(dom[..at], dom[at..], ro);
  }

  /** Where `addCuisineRow` puts a new row: at the very top when it is
      special, else right before the first regular row, or at the end. */
  function InsertionPoint(dom: seq<Node>, special: bool): (at: nat)
    ensures at <= |dom|
    ensures special ==> at == 0
    ensures forall i :: 0 <= i < at ==> !IsRegular(dom[i])
    ensures !special && at < |dom| ==> IsRegular(dom[at])
  {
    if special then 0 else match FirstRegular(dom) case Some(j) => j case None => |dom|
  }

  /** The children with an indicator (`next`) and a row (`next + 1`)
      inserted as a pair at `at`. */
  function Placed(dom: seq<Node>, at: nat, next: nat, id: RowId, special: bool): (r: seq<Node>)
    requires at <= |dom|
    ensures |r| == |dom| + 2 && r[at] == Node(next, Indicator) && r[at + 1] == Node(next + 1, Row(id, special))
  {
    dom[..at] + [Node(next, Indicator), Node(next + 1, Row(id, special))] + dom[at..]
  }

  /** `addCuisineRow(list, id, …, isSpecial)`: a new indicator (`next`) and
      row (`next + 1`) go in as a pair at the insertion point, then
      `ensureTrailingIndicator` (`next + 2`). */
  function AddCuisineRow(dom: seq<Node>, next: nat, id: RowId, special: bool): (r: seq<Node>)
    ensures |r| > 0 && IsIndicator(r[|r| - 1])
    ensures special ==> |r| >= 2 && IsIndicator(r[0]) && r[1] == Node(next + 1, Row(id, true))
    ensures special ==> Rows(r) == [id] + Rows(dom) && RegularIds(r) == RegularIds(dom)
    ensures !special ==> RegularIds(r) == [id] + RegularIds(dom)
  {
    var at := InsertionPoint(dom, special);
    var placed := Placed(dom, at, next, id, special);
    if special then
      PlacedSpecial(dom, next, id);
      EnsureTrailingIndicator(placed, next + 2)
    else
      PlacedRegular(dom, at, next, id);
      EnsureTrailingIndicator(placed, next + 2)
  }

  /** A regular row keeps Favorites on top, and fresh keys keep the
      children distinct. */
  lemma AddCuisineRowShape(dom: seq<Node>, next: nat, id: RowId, special: bool)
    ensures var r := AddCuisineRow(dom, next, id, special);
            (!special && FavoritesFirst(dom) ==> FavoritesFirst(r))
            && (KeysBelow(dom, next) ==> KeysBelow(r, next + 3))
            && (KeysBelow(dom, next) && DistinctKeys(dom) ==> DistinctKeys(r))
  {
    var at := InsertionPoint(dom, special);
    var placed := Placed(dom, at, next, id, special);
    assert AddCuisineRow(dom, next, id, special) == EnsureTrailingIndicator(placed, next + 2);
    AddedKeys(dom, at, next, id, special);
    TrailingKeepsShape(placed, next + 2);
    if !special {
      PlacedKeepsFavoritesFirst(dom, at, next, id);
    }
  }

  lemma PlacedSpecial(dom: seq<Node>, next: nat, id: RowId)
    ensures var placed := Placed(dom, 0, next, id, true);
            Rows(placed) == [id] + Rows(dom) && RegularIds(placed) == RegularIds(dom)
  {
    var ind := Node(next, Indicator);
    var row := Node(next + 1, Row(id, true));
    assert Placed(dom, 0, next, id, true) == [ind] + ([row] + dom);
    RowIdsOne(ind, false);
    RowIdsOne(ind, true);
    RowIdsOne(row, false);
    RowIdsOne(row, true);
    RowIdsAppend([ind], [row] + dom, false);
    RowIdsAppend([ind], [row] + dom, true);
    RowIdsAppend([row], dom, false);
    RowIdsAppend([row], dom, true);
  }

  lemma PlacedRegular(dom: seq<Node>, at: nat, next: nat, id: RowId)
    requires at == InsertionPoint(dom, false)
    ensures var placed := Placed(dom, at, next, id, false);
            RegularIds(placed) == [id] + RegularIds(dom)
  {
    var ind := Node(next, Indicator);
    var row := Node(next + 1, Row(id, false));
    PlacedPair(dom, at, ind, row, true);
    RowIdsOne(row, true);
    RowIdsNonePicked(dom[..at], true);
  }

  lemma PlacedKeepsFavoritesFirst(dom: seq<Node>, at: nat, next: nat, id: RowId)
    requires at == InsertionPoint(dom, false)
    ensures FavoritesFirst(dom) ==> FavoritesFirst(Placed(dom, at, next, id, false))
  {
    if !FavoritesFirst(dom) { return; }
    var placed := Placed(dom, at, next, id, false);
    assert at >= 2;
    assert placed[..2] == dom[..2];
    assert placed[2..] == dom[2..at] + [Node(next, Indicator), Node(next + 1, Row(id, false))] + dom[at..];
    assert forall n :: n in dom[2..at] ==> n in dom[2..];
    assert forall n :: n in dom[at..] ==> n in dom[2..];
  }

  lemma AddedKeys(dom: seq<Node>, at: nat, next: nat, id: RowId, special: bool)
    requires at <= |dom|
    ensures var placed := Placed(dom, at, next, id, special);
            KeysBelow(dom, next) ==> KeysBelow(placed, next + 2) && (DistinctKeys(dom) ==> DistinctKeys(placed))
  {
    var placed := Placed(dom, at, next, id, special);
    if KeysBelow(dom, next) {
      assert forall i :: 0 <= i < at ==> placed[i] == dom[i];
      assert forall i :: at + 2 <= i < |placed| ==> placed[i] == dom[i - 2];
    }
  }

  /** `items.forEach(item => addCuisineRow(list, item.id, item, false))`,
      handing out element keys from `next` upward. */
  function AddRows(dom: seq<Node>, next: nat, ids: seq<RowId>): (r: seq<Node>)
    decreases |ids|
    ensures RegularIds(r) == Reverse(ids) + RegularIds(dom)
    ensures |ids| > 0 ==> |r| > 0 && IsIndicator(r[|r| - 1])
  {
    if |ids| == 0 then dom
    else
      var added := AddCuisineRow(dom, next, ids[0], false);
      var r := AddRows(added, next + 3, ids[1..]);
      assert RegularIds(r) == Reverse(ids) + RegularIds(dom) by {
        PrependedReversed(ids, RegularIds(dom), RegularIds(added), RegularIds(r));
      }
      r
  }

  /** Putting the first id on top and then the rest reversed above it gives
      all ids reversed on top. */
  lemma PrependedReversed<T>(ids: seq<T>, before: seq<T>, mid: seq<T>, after: seq<T>)
    requires |ids| > 0 && mid == [ids[0]] + before && after == Reverse(ids[1..]) + mid
    ensures after == Reverse(ids) + before
  {
    assert Reverse(ids) == Reverse(ids[1..]) + [ids[0]];
  }

  lemma {:induction false} AddRowsShape(dom: seq<Node>, next: nat, ids: seq<RowId>)
    decreases |ids|
    ensures var r := AddRows(dom, next, ids);
            (FavoritesFirst(dom) ==> FavoritesFirst(r))
            && (KeysBelow(dom, next) ==> KeysBelow(r, next + 3 * |ids|))
            && (KeysBelow(dom, next) && DistinctKeys(dom) ==> DistinctKeys(r))
  {
    if |ids| > 0 {
      AddCuisineRowShape(dom, next, ids[0], false);
      AddRowsShape(AddCuisineRow(dom, next, ids[0], false), next + 3, ids[1..]);
    }
  }

  /** The list `loadCuisines` builds from the sorted cuisine ids: the
      Favorites row, each cuisine in turn, and a trailing indicator. Each
      regular row goes in above the ones before it, so the list shows the
      ids back to front. */
  function LoadList(ids: seq<RowId>): (r: seq<Node>)
    ensures RegularIds(r) == Reverse(ids)
    ensures Rows(r) == [FavoritesRow] + Reverse(ids)
    ensures IsIndicator(r[|r| - 1])
    ensures FavoritesFirst(r)
  {
    var favorites := AddCuisineRow([], 0, FavoritesRow, true);
    var r := EnsureTrailingIndicator(AddRows(favorites, 3, ids), 3 + 3 * |ids|);
    LoadListShape(ids);
    FavoritesRows(r);
    r
  }

  lemma LoadFavorites()
    ensures AddCuisineRow([], 0, FavoritesRow, true) == [Ind(0), Fav, Ind(2)]
  {
    assert Placed([], 0, 0, FavoritesRow, true) == [Ind(0), Fav];
  }

  /** The loaded list has Favorites on top and no element twice. */
  lemma LoadListShape(ids: seq<RowId>)
    ensures var r := EnsureTrailingIndicator(AddRows(AddCuisineRow([], 0, FavoritesRow, true), 3, ids), 3 + 3 * |ids|);
            FavoritesFirst(r) && DistinctKeys(r)
  {
    LoadFavorites();
    FavoritesListShape();
    AddRowsShape([Ind(0), Fav, Ind(2)], 3, ids);
    TrailingKeepsShape(AddRows([Ind(0), Fav, Ind(2)], 3, ids), 3 + 3 * |ids|);
  }

  lemma FavoritesListShape()
    ensures FavoritesFirst([Ind(0), Fav, Ind(2)]) && KeysBelow([Ind(0), Fav, Ind(2)], 3) && DistinctKeys([Ind(0), Fav, Ind(2)])
  {
    assert [Ind(0), Fav, Ind(2)][2..] == [Ind(2)];
  }

  lemma TrailingKeepsShape(a: seq<Node>, key: nat)
    ensures var r := EnsureTrailingIndicator(a, key);
            (FavoritesFirst(a) ==> FavoritesFirst(r))
            && (KeysBelow(a, key) ==> KeysBelow(r, key + 1) && (DistinctKeys(a) ==> DistinctKeys(r)))
  {
    var r := EnsureTrailingIndicator(a, key);
    if r != a {
      assert r == a + [Ind(key)];
      if FavoritesFirst(a) {
        assert r[2..] == a[2..] + [Ind(key)];
      }
    }
  }

  /** With Favorites on top, the rows are Favorites and then the regular
      rows. */
  lemma FavoritesRows(dom: seq<Node>)
    requires FavoritesFirst(dom)
    ensures Rows(dom) == [FavoritesRow] + RegularIds(dom)
  {
    assert dom[0..] == dom;
    RowIdsFrom(dom, 0, false);
    RowIdsFrom(dom, 0, true);
    RowIdsFrom(dom, 1, false);
    RowIdsFrom(dom, 1, true);
    RegularRowsAll(dom[2..]);
  }

  lemma {:induction false} RegularRowsAll(s: seq<Node>)
    requires forall n :: n in s && IsRow(n) ==> !n.kind.special
    ensures RowIds(s, false) == RowIds(s, true)
  {
    if |s| > 0 {
      assert s[0] in s;
      assert forall n :: n in s[1..] ==> n in s;
      RegularRowsAll(s[1..]);
    }
  }

  // ---------------------------------------------------------------------
  // Drag-over and drop
  // ---------------------------------------------------------------------

  datatype Place = Before | After

  /** `row.dataset.dropPosition || "after"`. */
  function PlaceOf(recorded: Option<Place>): Place
  {
    if recorded.Some? then recorded.value else After
  }

  /** `row.previousElementSibling?.previousElementSibling` is the Favorites
      row. */
  predicate BelowFavorites(dom: seq<Node>, t: nat)
    requires t < |dom|
  {
    t >= 2 && dom[t - 2].kind.Row? && dom[t - 2].kind.id == FavoritesRow
  }

  /** The drop position a drag-over of the row at `t` records while the row
      at `src` is dragged, given whether the pointer is in the row's upper
      half; nothing is recorded over the dragged row itself. The handlers
      are attached to regular rows only. */
  function HoverPlace(dom: seq<Node>, src: nat, t: nat, upperHalf: bool): (r: Option<Place>)
    requires src < |dom| && t < |dom| && IsRegular(dom[t])
    ensures r.None? <==> dom[t].key == dom[src].key
    ensures r == Some(Before) <==>
      dom[t].key != dom[src].key && upperHalf && dom[t].kind.id != FavoritesRow && !BelowFavorites(dom, t)
  {
    if dom[t].key == dom[src].key then None
    else if dom[t].kind.id == FavoritesRow then Some(After)
    else if BelowFavorites(dom, t) && upperHalf then Some(After)
    else if upperHalf then Some(Before)
    else Some(After)
  }

  /** The drop rules: a drop onto the dragged row itself is ignored, and a
      drop "before" the Favorites row or before the row right below it is
      rejected. */
  predicate Accepted(dom: seq<Node>, src: nat, t: nat, recorded: Option<Place>)
    requires src < |dom| && t < |dom| && IsRegular(dom[t])
  {
    dom[t].key != dom[src].key
    && !(dom[t].kind.id == FavoritesRow && PlaceOf(recorded) == Before)
    && !(BelowFavorites(dom, t) && PlaceOf(recorded) == Before)
  }

  /** A position recorded by a drag-over is never one the drop rejects. */
  lemma HoverIsAccepted(dom: seq<Node>, src: nat, t: nat, upperHalf: bool)
    requires src < |dom| && t < |dom| && IsRegular(dom[t])
    requires HoverPlace(dom, src, t, upperHalf).Some?
    ensures Accepted(dom, src, t, HoverPlace(dom, src, t, upperHalf))
  {
  }

  /** The row `drop` handler as written: the dragged row's previous sibling
      is taken for its indicator; it is detached only when it is an
      indicator but put back next to the target whatever it is, and an
      "after" drop lands before the element two places behind the target.
      `None` is a drop that is ignored or rejected. */
  function DropAsWritten(dom: seq<Node>, src: nat, t: nat, recorded: Option<Place>): (r: Option<seq<Node>>)
    requires src < |dom| && t < |dom| && IsRegular(dom[src]) && IsRegular(dom[t])
    ensures r.Some? <==> Accepted(dom, src, t, recorded)
  {
    if !Accepted(dom, src, t, recorded) then None
    else
      var dragged := dom[src];
      var carried := PrevSibling(dom, dragged.key);
      var d1 := if carried.Some? && IsIndicator(carried.value) then Detach(dom, carried.value.key) else dom;
      var d2 := Detach(d1, dragged.key);
      var target := match FindRow(d2, dom[t].kind.id) case Some(i) => Some(d2[i]) case None => None;
      if PlaceOf(recorded) == Before then
        var d3 := if carried.Some? then InsertBefore(d2, carried.value, target) else d2;
        Some(InsertBefore(d3, dragged, target))
      else
        var nextIndicator := NextSibling(d2, target);
        var nextRow := NextSibling(d2, nextIndicator);
        var d3 := if carried.Some? then InsertBefore(d2, carried.value, nextRow) else d2;
        Some(InsertBefore(d3, dragged, nextRow))
  }

  /** Where the carried stretch of a drag starts: at the indicator right
      above the dragged row when there is one, else at the row. */
  function CarryStart(dom: seq<Node>, src: nat): (from: nat)
    requires src < |dom|
    ensures from <= src
    ensures from == src || (from + 1 == src && IsIndicator(dom[from]))
  {
    if src > 0 && IsIndicator(dom[src - 1]) then src - 1 else src
  }

  /** The children with `dom[from..src + 1]` taken out and put back at
      position `at` of what remains. */
  function Reinsert(dom: seq<Node>, from: nat, src: nat, at: nat): seq<Node>
    requires from <= src < |dom| && at <= |dom| - (src + 1 - from)
  {
    var rest := dom[..from] + dom[src + 1..];
    rest[..at] + dom[from..src + 1] + rest[at..]
  }

  /** The position in what remains right before (or right after) the target
      row at `t`. */
  function DropPoint(from: nat, src: nat, t: nat, place: Place): nat
    requires from <= src && (t < from || t > src)
  {
    (if t < src then t else t - (src + 1 - from)) + (if place == After then 1 else 0)
  }

  /** The drop as its rules describe it: the dragged row, with the
      indicator right above it when there is one, is taken out and put back
      immediately before the target row or immediately after it. */
  function Drop(dom: seq<Node>, src: nat, t: nat, recorded: Option<Place>): (r: Option<seq<Node>>)
    requires src < |dom| && t < |dom| && IsRegular(dom[src]) && IsRegular(dom[t])
    ensures r.Some? <==> Accepted(dom, src, t, recorded)
    ensures r.Some? ==> multiset(r.value) == multiset(dom)
  {
    if !Accepted(dom, src, t, recorded) then None
    else
      var from := CarryStart(dom, src);
      var at := DropPoint(from, src, t, PlaceOf(recorded));
      ReinsertPermutes(dom, from, src, at);
      Some(Reinsert(dom, from, src, at))
  }

  lemma ReinsertPermutes(dom: seq<Node>, from: nat, src: nat, at: nat)
    requires from <= src < |dom| && at <= |dom| - (src + 1 - from)
    ensures multiset(Reinsert(dom, from, src, at)) == multiset(dom)
  {
    assert dom == dom[..from] + dom[from..src + 1] + dom[src + 1..];
    SpliceMultiset(dom[..from], dom[from..src + 1], dom[src + 1..], at);
  }

  /** The row ids after a reinsert: the carried row's id, taken out of the
      row ids, goes back in at the number of rows before the insertion
      point. */
  lemma ReinsertRows(dom: seq<Node>, from: nat, src: nat, at: nat, regularOnly: bool)
    requires from <= src < |dom| && at <= |dom| - (src + 1 - from)
    requires Picked(dom[src], regularOnly) && (from == src || (from + 1 == src && IsIndicator(dom[from])))
    ensures var rows := RowIds(dom, regularOnly);
            var si := RowIndex(dom, src, regularOnly);
            var rest := dom[..from] + dom[src + 1..];
            si == |RowIds(dom[..from], regularOnly)| && si < |rows| && rows[si] == dom[src].kind.id
            && |RowIds(rest[..at], regularOnly)| < |rows|
            && RowIds(Reinsert(dom, from, src, at), regularOnly)
               == InsertAt(RemoveAt(rows, si), |RowIds(rest[..at], regularOnly)|, dom[src].kind.id)
  {
    var a, carry, b := dom[..from], dom[from..src + 1], dom[src + 1..];
    CarriedRow(dom, from, src, regularOnly);
    assert dom == a + carry + b;
    ReinsertSplit(a, carry, b, at, dom[src].kind.id, regularOnly);
  }

  /** `ReinsertRows` for a list given as the rows above the carried
      stretch, the stretch, and the rows below it. */
  lemma ReinsertSplit(a: seq<Node>, carry: seq<Node>, b: seq<Node>, at: nat, d: RowId, regularOnly: bool)
    requires at <= |a| + |b| && RowIds(carry, regularOnly) == [d]
    ensures var rows := RowIds(a + carry + b, regularOnly);
            var si := |RowIds(a, regularOnly)|;
            var k := |RowIds((a + b)[..at], regularOnly)|;
            si < |rows| && rows[si] == d && k < |rows|
            && RowIds((a + b)[..at] + carry + (a + b)[at..], regularOnly) == InsertAt(RemoveAt(rows, si), k, d)
  {
    var ro := regularOnly;
    RowIdsAppend(a + carry, b, ro);
    RowIdsAppend(a, carry, ro);
    RowIdsAppend(a, b, ro);
    RowsOfReinsert(a + b, carry, at, d, ro);
    var ra, rb := RowIds(a, ro), RowIds(b, ro);
    assert RowIds(a + carry + b, ro) == ra + [d] + rb;
    assert RemoveAt(ra + [d] + rb, |ra|) == ra + rb;
  }

  /** Putting a stretch with one row `d` back at `at` of `rest`. */
  lemma RowsOfReinsert(rest: seq<Node>, carry: seq<Node>, at: nat, d: RowId, regularOnly: bool)
    requires at <= |rest| && RowIds(carry, regularOnly) == [d]
    ensures var k := |RowIds(rest[..at], regularOnly)|;
            k <= |RowIds(rest, regularOnly)|
            && RowIds(rest[..at] + carry + rest[at..], regularOnly) == InsertAt(RowIds(rest, regularOnly), k, d)
  {
    var x, y := rest[..at], rest[at..];
    assert rest == x + y;
    RowIdsAppend(x, y, regularOnly);
    RowIdsAppend(x + carry, y, regularOnly);
    RowIdsAppend(x, carry, regularOnly);
    var rx, ry := RowIds(x, regularOnly), RowIds(y, regularOnly);
    assert InsertAt(rx + ry, |rx|, d) == rx + [d] + ry;
  }

  /** The carried stretch holds exactly the dragged row, and the rows above
      it are the rows above the stretch. */
  lemma CarriedRow(dom: seq<Node>, from: nat, src: nat, regularOnly: bool)
    requires from <= src < |dom|
    requires Picked(dom[src], regularOnly) && (from == src || (from + 1 == src && IsIndicator(dom[from])))
    ensures RowIds(dom[from..src + 1], regularOnly) == [dom[src].kind.id]
    ensures RowIndex(dom, src, regularOnly) == |RowIds(dom[..from], regularOnly)|
  {
    var ro := regularOnly;
    RowIdsOne(dom[src], ro);
    if from < src {
      assert dom[from..src + 1] == [dom[from]] + [dom[src]];
      RowIdsAppend([dom[from]], [dom[src]], ro);
      RowIdsOne(dom[from], ro);
      assert dom[..src] == dom[..from] + [dom[from]];
      RowIdsAppend(dom[..from], [dom[from]], ro);
    } else {
      assert dom[from..src + 1] == [dom[src]];
    }
  }

  /** The number of rows before the drop point is where `MoveBeside` puts
      the dragged row. */
  lemma DropPointRows(dom: seq<Node>, from: nat, src: nat, t: nat, place: Place, regularOnly: bool)
    requires from <= src < |dom| && t < |dom| && (t < from || t > src)
    requires Picked(dom[src], regularOnly) && Picked(dom[t], regularOnly)
    requires from == src || (from + 1 == src && IsIndicator(dom[from]))
    ensures var si := |RowIds(dom[..from], regularOnly)|;
            var ti := RowIndex(dom, t, regularOnly);
            var rest := dom[..from] + dom[src + 1..];
            var at := DropPoint(from, src, t, place);
            at <= |rest| && si != ti
            && |RowIds(rest[..at], regularOnly)| == MovedIndex(si, ti, place == After)
  {
    if t < from {
      DropPointAbove(dom, from, src, t, place, regularOnly);
    } else {
      DropPointBelow(dom, from, src, t, place, regularOnly);
    }
  }

  lemma DropPointAbove(dom: seq<Node>, from: nat, src: nat, t: nat, place: Place, regularOnly: bool)
    requires from <= src < |dom| && t < from
    requires Picked(dom[t], regularOnly)
    ensures var si := |RowIds(dom[..from], regularOnly)|;
            var ti := RowIndex(dom, t, regularOnly);
            var rest := dom[..from] + dom[src + 1..];
            var at := DropPoint(from, src, t, place);
            at <= |rest| && ti < si
            && |RowIds(rest[..at], regularOnly)| == ti + (if place == After then 1 else 0)
  {
    var ro := regularOnly;
    var at := DropPoint(from, src, t, place);
    var rest := dom[..from] + dom[src + 1..];
    RowIdsAt(dom[..from], t, ro);
    RowIdsOne(dom[t], ro);
    assert dom[..from][..t] == dom[..t];
    assert dom[..from][..t + 1] == dom[..t + 1];
    assert rest[..at] == dom[..at];
    assert dom[..from] == dom[..t + 1] + dom[t + 1..from];
    RowIdsAppend(dom[..t + 1], dom[t + 1..from], ro);
  }

  lemma DropPointBelow(dom: seq<Node>, from: nat, src: nat, t: nat, place: Place, regularOnly: bool)
    requires from <= src < t < |dom|
    requires Picked(dom[src], regularOnly) && Picked(dom[t], regularOnly)
    requires from == src || (from + 1 == src && IsIndicator(dom[from]))
    ensures var si := |RowIds(dom[..from], regularOnly)|;
            var ti := RowIndex(dom, t, regularOnly);
            var rest := dom[..from] + dom[src + 1..];
            var at := DropPoint(from, src, t, place);
            at <= |rest| && si < ti
            && |RowIds(rest[..at], regularOnly)| == ti - 1 + (if place == After then 1 else 0)
  {
    var ro := regularOnly;
    var a, tail := dom[..from], dom[src + 1..t];
    BelowPrefixRows(dom, from, src, t, ro);
    RestPrefix(dom, from, src, t, place);
    var rest := a + dom[src + 1..];
    var at := DropPoint(from, src, t, place);
    RowIdsAppend(a, tail, ro);
    if place == After {
      assert rest[..at] == (a + tail) + [dom[t]];
      RowIdsOne(dom[t], ro);
      RowIdsAppend(a + tail, [dom[t]], ro);
    } else {
      assert rest[..at] == a + tail;
    }
  }

  /** The rows above a target below the carried stretch: those above the
      stretch, the dragged row, and those between. */
  lemma BelowPrefixRows(dom: seq<Node>, from: nat, src: nat, t: nat, regularOnly: bool)
    requires from <= src < t <= |dom|
    requires Picked(dom[src], regularOnly) && (from == src || (from + 1 == src && IsIndicator(dom[from])))
    ensures RowIds(dom[..t], regularOnly)
            == RowIds(dom[..from], regularOnly) + [dom[src].kind.id] + RowIds(dom[src + 1..t], regularOnly)
  {
    var a, carry, tail := dom[..from], dom[from..src + 1], dom[src + 1..t];
    CarriedRow(dom, from, src, regularOnly);
    assert dom[..t] == a + carry + tail;
    RowIdsAppend(a + carry, tail, regularOnly);
    RowIdsAppend(a, carry, regularOnly);
  }

  /** What remains of the children up to the drop point below the
      carried stretch. */
  lemma RestPrefix(dom: seq<Node>, from: nat, src: nat, t: nat, place: Place)
    requires from <= src < t < |dom|
    ensures var rest := dom[..from] + dom[src + 1..];
            var at := DropPoint(from, src, t, place);
            at <= |rest|
            && rest[..at] == dom[..from] + dom[src + 1..t] + (if place == After then [dom[t]] else [])
  {
    var at := DropPoint(from, src, t, place);
    PrefixOfJoin(dom[..from], dom[src + 1..], at);
    if place == After {
      assert dom[src + 1..][..at - from] == dom[src + 1..t + 1] == dom[src + 1..t] + [dom[t]];
    } else {
      assert dom[src + 1..][..at - from] == dom[src + 1..t];
    }
  }

  /** An accepted drop moves the dragged row next to the target, before or
      after it as recorded, and keeps every other row in its relative
      order; the same holds of the regular rows alone. */
  lemma DropMovesRow(dom: seq<Node>, src: nat, t: nat, recorded: Option<Place>, regularOnly: bool)
    requires src < |dom| && t < |dom| && IsRegular(dom[src]) && IsRegular(dom[t])
    requires Accepted(dom, src, t, recorded)
    ensures var rows := RowIds(dom, regularOnly);
            var si := RowIndex(dom, src, regularOnly);
            var ti := RowIndex(dom, t, regularOnly);
            si < |rows| && ti < |rows| && si != ti && rows[si] == dom[src].kind.id
            && RowIds(Drop(dom, src, t, recorded).value, regularOnly) == MoveBeside(rows, si, ti, PlaceOf(recorded) == After)
  {
    var from := CarryStart(dom, src);
    var at := DropPoint(from, src, t, PlaceOf(recorded));
    ReinsertRows(dom, from, src, at, regularOnly);
    DropPointRows(dom, from, src, t, PlaceOf(recorded), regularOnly);
    RowIdsAt(dom, t, regularOnly);
    RowIdsOne(dom[t], regularOnly);
  }

  /** An accepted drop keeps the Favorites row on top. */
  lemma DropKeepsFavoritesFirst(dom: seq<Node>, src: nat, t: nat, recorded: Option<Place>)
    requires src < |dom| && t < |dom| && IsRegular(dom[src]) && IsRegular(dom[t])
    requires Accepted(dom, src, t, recorded) && FavoritesFirst(dom)
    ensures FavoritesFirst(Drop(dom, src, t, recorded).value)
  {
    var from := CarryStart(dom, src);
    var at := DropPoint(from, src, t, PlaceOf(recorded));
    var r := Drop(dom, src, t, recorded).value;
    assert r == Reinsert(dom, from, src, at);
    assert 2 <= from && 2 <= at;
    ReinsertKeepsHead(dom, from, src, at, 2);
    assert r[0] == r[..2][0] && r[1] == r[..2][1];
  }

  /** Taking out and putting back a stretch below `k` leaves the first `k`
      children alone and draws the others from below `k`. */
  lemma ReinsertKeepsHead(dom: seq<Node>, from: nat, src: nat, at: nat, k: nat)
    requires from <= src < |dom| && at <= |dom| - (src + 1 - from) && k <= from && k <= at
    ensures var r := Reinsert(dom, from, src, at);
            k <= |r| && r[..k] == dom[..k] && forall n :: n in r[k..] ==> n in dom[k..]
  {
    var rest := dom[..from] + dom[src + 1..];
    var r := Reinsert(dom, from, src, at);
    assert r[..k] == rest[..k] == dom[..k];
    assert r[k..] == rest[k..at] + dom[from..src + 1] + rest[at..];
    assert rest[k..] == dom[k..from] + dom[src + 1..];
    forall n | n in r[k..] ensures n in dom[k..] {
      assert n in rest[k..] || n in dom[from..src + 1];
    }
  }

  /** Dragging a row to just before the topmost regular row makes it the
      first regular row, which the next `saveNewOrder` ranks 0. */
  lemma DragToTopComesFirst(dom: seq<Node>, src: nat, t: nat)
    requires src < |dom| && t < |dom| && IsRegular(dom[src]) && IsRegular(dom[t])
    requires Accepted(dom, src, t, Some(Before)) && RowIndex(dom, t, true) == 0
    ensures var r := RegularIds(Drop(dom, src, t, Some(Before)).value);
            |r| > 0 && r[0] == dom[src].kind.id
  {
    DropMovesRow(dom, src, t, Some(Before), true);
  }

  // ---------------------------------------------------------------------
  // The drop as written, on a freshly loaded list
  // ---------------------------------------------------------------------

  /** The list after loading three cuisines x, y, z: indicator, Favorites,
      indicator, three indicators, then z, y, x and a trailing indicator;
      the regular rows have no indicator between them. */
  function Loaded3(x: RowId, y: RowId, z: RowId): seq<Node>
  {
    [Ind(0), Fav, Ind(2), Ind(3), Ind(6), Ind(9), Reg(10, z), Reg(7, y), Reg(4, x), Ind(5)]
  }

  /** `FirstRegular` finds the regular row at `k` when none comes before
      it. */
  lemma FirstRegularAt(dom: seq<Node>, k: nat)
    requires k < |dom| && IsRegular(dom[k])
    requires forall i :: 0 <= i < k ==> !IsRegular(dom[i])
    ensures FirstRegular(dom) == Some(k)
  {
  }

  /** `FindRow` finds the row at `k` when no row before it has that id. */
  lemma FindRowAt(dom: seq<Node>, k: nat, id: RowId)
    requires k < |dom| && IsRow(dom[k]) && dom[k].kind.id == id
    requires forall i :: 0 <= i < k && IsRow(dom[i]) ==> dom[i].kind.id != id
    ensures FindRow(dom, id) == Some(k)
  {
  }

  lemma AddRowsStep(dom: seq<Node>, next: nat, id: RowId, ids: seq<RowId>)
    ensures AddRows(dom, next, [id] + ids) == AddRows(AddCuisineRow(dom, next, id, false), next + 3, ids)
  {
    assert ([id] + ids)[1..] == ids;
  }

  lemma LoadFirst(x: RowId)
    ensures AddCuisineRow([Ind(0), Fav, Ind(2)], 3, x, false) == [Ind(0), Fav, Ind(2), Ind(3), Reg(4, x), Ind(5)]
  {
    var dom := [Ind(0), Fav, Ind(2)];
    assert FirstRegular(dom) == None by {
      assert forall i :: 0 <= i < |dom| ==> !IsRegular(dom[i]);
    }
    assert Placed(dom, 3, 3, x, false) == [Ind(0), Fav, Ind(2), Ind(3), Reg(4, x)] by {
      assert dom[..3] == dom && dom[3..] == [];
    }
  }

  lemma LoadSecond(x: RowId, y: RowId)
    ensures AddCuisineRow([Ind(0), Fav, Ind(2), Ind(3), Reg(4, x), Ind(5)], 6, y, false)
         == [Ind(0), Fav, Ind(2), Ind(3), Ind(6), Reg(7, y), Reg(4, x), Ind(5)]
  {
    var a, b := [Ind(0), Fav, Ind(2), Ind(3)], [Reg(4, x), Ind(5)];
    SecondSplit(x, y);
    FirstRegularJoin(a, b);
    AddBeforeFirstRegular(a, b, 6, y);
  }

  lemma SecondSplit(x: RowId, y: RowId)
    ensures [Ind(0), Fav, Ind(2), Ind(3), Reg(4, x), Ind(5)] == [Ind(0), Fav, Ind(2), Ind(3)] + [Reg(4, x), Ind(5)]
    ensures [Ind(0), Fav, Ind(2), Ind(3)] + [Ind(6), Reg(7, y)] + [Reg(4, x), Ind(5)]
         == [Ind(0), Fav, Ind(2), Ind(3), Ind(6), Reg(7, y), Reg(4, x), Ind(5)]
  {
  }

  lemma LoadThird(x: RowId, y: RowId, z: RowId)
    ensures AddCuisineRow([Ind(0), Fav, Ind(2), Ind(3), Ind(6), Reg(7, y), Reg(4, x), Ind(5)], 9, z, false)
         == Loaded3(x, y, z)
  {
    var a, b := [Ind(0), Fav, Ind(2), Ind(3), Ind(6)], [Reg(7, y), Reg(4, x), Ind(5)];
    ThirdSplit(x, y, z);
    FirstRegularJoin(a, b);
    AddBeforeFirstRegular(a, b, 9, z);
  }

  lemma ThirdSplit(x: RowId, y: RowId, z: RowId)
    ensures [Ind(0), Fav, Ind(2), Ind(3), Ind(6), Reg(7, y), Reg(4, x), Ind(5)]
         == [Ind(0), Fav, Ind(2), Ind(3), Ind(6)] + [Reg(7, y), Reg(4, x), Ind(5)]
    ensures [Ind(0), Fav, Ind(2), Ind(3), Ind(6)] + [Ind(9), Reg(10, z)] + [Reg(7, y), Reg(4, x), Ind(5)]
         == Loaded3(x, y, z)
  {
  }

  /** The first regular row of a join whose first part has none. */
  lemma FirstRegularJoin(a: seq<Node>, b: seq<Node>)
    requires forall i :: 0 <= i < |a| ==> !IsRegular(a[i])
    requires |b| > 0 && IsRegular(b[0])
    ensures FirstRegular(a + b) == Some(|a|)
  {
    FirstRegularAt(a + b, |a|);
  }

  /** A regular row goes in, with its indicator, just before the first
      regular row; the trailing indicator is already there. */
  lemma AddBeforeFirstRegular(a: seq<Node>, b: seq<Node>, next: nat, id: RowId)
    requires |b| > 0 && IsIndicator(b[|b| - 1]) && FirstRegular(a + b) == Some(|a|)
    ensures AddCuisineRow(a + b, next, id, false) == a + [Node(next, Indicator), Node(next + 1, Row(id, false))] + b
  {
    var dom := a + b;
    assert dom[..|a|] == a && dom[|a|..] == b;
    var placed := Placed(dom, |a|, next, id, false);
    assert placed[|placed| - 1] == b[|b| - 1];
  }

  lemma AddLast(x: RowId, y: RowId, z: RowId)
    ensures AddRows([Ind(0), Fav, Ind(2), Ind(3), Ind(6), Reg(7, y), Reg(4, x), Ind(5)], 9, [z]) == Loaded3(x, y, z)
  {
    LoadThird(x, y, z);
    AddRowsStep([Ind(0), Fav, Ind(2), Ind(3), Ind(6), Reg(7, y), Reg(4, x), Ind(5)], 9, z, []);
    assert [z] == [z] + [];
  }

  lemma AddLastTwo(x: RowId, y: RowId, z: RowId)
    ensures AddRows([Ind(0), Fav, Ind(2), Ind(3), Reg(4, x), Ind(5)], 6, [y, z]) == Loaded3(x, y, z)
  {
    LoadSecond(x, y);
    AddLast(x, y, z);
    AddRowsStep([Ind(0), Fav, Ind(2), Ind(3), Reg(4, x), Ind(5)], 6, y, [z]);
    assert [y, z] == [y] + [z];
  }

  lemma AddAllThree(x: RowId, y: RowId, z: RowId)
    ensures AddRows([Ind(0), Fav, Ind(2)], 3, [x, y, z]) == Loaded3(x, y, z)
  {
    LoadFirst(x);
    AddLastTwo(x, y, z);
    AddRowsStep([Ind(0), Fav, Ind(2)], 3, x, [y, z]);
    assert [x, y, z] == [x] + [y, z];
  }

  lemma LoadedRowsAreAdjacent(x: RowId, y: RowId, z: RowId)
    ensures LoadList([x, y, z]) == Loaded3(x, y, z)
  {
    LoadFavorites();
    AddAllThree(x, y, z);
  }

  /** The DOM calls of dropping x before z in that list, one by one. */
  lemma AsWrittenTakesRowAbove(x: RowId, y: RowId, z: RowId)
    ensures PrevSibling(Loaded3(x, y, z), 4) == Some(Reg(7, y))
    ensures Detach(Loaded3(x, y, z), 4) == [Ind(0), Fav, Ind(2), Ind(3), Ind(6), Ind(9), Reg(10, z), Reg(7, y), Ind(5)]
  {
    PositionOf(Loaded3(x, y, z), 8);
  }

  lemma AsWrittenFindsTarget(y: RowId, z: RowId)
    requires z.CuisineRow?
    ensures FindRow([Ind(0), Fav, Ind(2), Ind(3), Ind(6), Ind(9), Reg(10, z), Reg(7, y), Ind(5)], z) == Some(6)
  {
    var d2 := [Ind(0), Fav, Ind(2), Ind(3), Ind(6), Ind(9), Reg(10, z), Reg(7, y), Ind(5)];
    FindRowAt(d2, 6, z);
  }

  lemma AsWrittenMovesNeighbour(y: RowId, z: RowId)
    ensures InsertBefore([Ind(0), Fav, Ind(2), Ind(3), Ind(6), Ind(9), Reg(10, z), Reg(7, y), Ind(5)], Reg(7, y), Some(Reg(10, z)))
         == [Ind(0), Fav, Ind(2), Ind(3), Ind(6), Ind(9), Reg(7, y), Reg(10, z), Ind(5)]
  {
    var a, b := [Ind(0), Fav, Ind(2), Ind(3), Ind(6), Ind(9)], [Reg(10, z), Ind(5)];
    MovesSplit(y, z);
    PositionJoin(a + [Reg(10, z)], [Reg(7, y), Ind(5)], 7);
    RemoveAtJoin(a + [Reg(10, z)], Reg(7, y), [Ind(5)]);
    PositionJoin(a, b, 10);
    InsertBeforeMoves(a + [Reg(10, z)] + [Reg(7, y), Ind(5)], Reg(7, y), Reg(10, z), 7, 6);
    JoinAt(a, b, Reg(7, y));
  }

  lemma MovesSplit(y: RowId, z: RowId)
    ensures [Ind(0), Fav, Ind(2), Ind(3), Ind(6), Ind(9), Reg(10, z), Reg(7, y), Ind(5)]
         == [Ind(0), Fav, Ind(2), Ind(3), Ind(6), Ind(9)] + [Reg(10, z)] + [Reg(7, y), Ind(5)]
    ensures [Ind(0), Fav, Ind(2), Ind(3), Ind(6), Ind(9)] + [Reg(10, z)] + [Ind(5)]
         == [Ind(0), Fav, Ind(2), Ind(3), Ind(6), Ind(9)] + [Reg(10, z), Ind(5)]
    ensures [Ind(0), Fav, Ind(2), Ind(3), Ind(6), Ind(9)] + [Reg(7, y)] + [Reg(10, z), Ind(5)]
         == [Ind(0), Fav, Ind(2), Ind(3), Ind(6), Ind(9), Reg(7, y), Reg(10, z), Ind(5)]
  {
  }

  lemma AsWrittenPlacesRow(x: RowId, y: RowId, z: RowId)
    ensures InsertBefore([Ind(0), Fav, Ind(2), Ind(3), Ind(6), Ind(9), Reg(7, y), Reg(10, z), Ind(5)], Reg(4, x), Some(Reg(10, z)))
         == [Ind(0), Fav, Ind(2), Ind(3), Ind(6), Ind(9), Reg(7, y), Reg(4, x), Reg(10, z), Ind(5)]
  {
    var a, b := [Ind(0), Fav, Ind(2), Ind(3), Ind(6), Ind(9), Reg(7, y)], [Reg(10, z), Ind(5)];
    PlacesSplit(x, y, z);
    PositionJoin(a, b, 10);
    InsertBeforeNew(a + b, Reg(4, x), Reg(10, z), 7);
    JoinAt(a, b, Reg(4, x));
  }

  lemma PlacesSplit(x: RowId, y: RowId, z: RowId)
    ensures [Ind(0), Fav, Ind(2), Ind(3), Ind(6), Ind(9), Reg(7, y), Reg(10, z), Ind(5)]
         == [Ind(0), Fav, Ind(2), Ind(3), Ind(6), Ind(9), Reg(7, y)] + [Reg(10, z), Ind(5)]
    ensures Position([Ind(0), Fav, Ind(2), Ind(3), Ind(6), Ind(9), Reg(7, y), Reg(10, z), Ind(5)], 4) == None
    ensures [Ind(0), Fav, Ind(2), Ind(3), Ind(6), Ind(9), Reg(7, y)] + [Reg(4, x)] + [Reg(10, z), Ind(5)]
         == [Ind(0), Fav, Ind(2), Ind(3), Ind(6), Ind(9), Reg(7, y), Reg(4, x), Reg(10, z), Ind(5)]
  {
  }

  /** The position of a key that first occurs at the seam of a join. */
  lemma {:induction false} PositionJoin(a: seq<Node>, b: seq<Node>, key: nat)
    requires forall i :: 0 <= i < |a| ==> a[i].key != key
    requires |b| > 0 && b[0].key == key
    ensures Position(a + b, key) == Some(|a|)
  {
    if |a| > 0 {
      assert (a + b)[1..] == a[1..] + b;
      PositionJoin(a[1..], b, key);
    }
  }

  /** `insertBefore` of a child that is elsewhere in the list. */
  lemma InsertBeforeMoves(dom: seq<Node>, n: Node, c: Node, j: nat, i: nat)
    requires n.key != c.key && Position(dom, n.key) == Some(j)
    requires Position(RemoveAt(dom, j), c.key) == Some(i)
    ensures InsertBefore(dom, n, Some(c)) == InsertAt(RemoveAt(dom, j), i, n)
  {
  }

  /** `insertBefore` of an element that is not yet in the list. */
  lemma InsertBeforeNew(dom: seq<Node>, n: Node, c: Node, i: nat)
    requires n.key != c.key && Position(dom, n.key) == None && Position(dom, c.key) == Some(i)
    ensures InsertBefore(dom, n, Some(c)) == InsertAt(dom, i, n)
  {
  }

  /** The regular rows of a list whose first six children hold no regular
      row, followed by three regular rows and an indicator. */
  lemma ThreeRows(s: seq<Node>, p: RowId, q: RowId, r: RowId)
    requires |s| == 10 && s[9] == Ind(5)
    requires forall i :: 0 <= i < 6 ==> !IsRegular(s[i])
    requires s[6].kind == Row(p, false) && s[7].kind == Row(q, false) && s[8].kind == Row(r, false)
    ensures RegularIds(s) == [p, q, r]
  {
    RowsFromSix(s, p, q, r);
    RowIdsAt(s, 6, true);
    RowIdsNonePicked(s[..6], true);
  }

  lemma RowsFromSix(s: seq<Node>, p: RowId, q: RowId, r: RowId)
    requires |s| == 10 && s[9] == Ind(5)
    requires s[6].kind == Row(p, false) && s[7].kind == Row(q, false) && s[8].kind == Row(r, false)
    ensures RowIds(s[6..], true) == [p, q, r]
  {
    RowsFromEight(s, r);
    RowIdsFrom(s, 7, true);
    assert RowIds(s[7..], true) == [q, r];
    RowIdsFrom(s, 6, true);
  }

  lemma RowsFromEight(s: seq<Node>, r: RowId)
    requires |s| == 10 && s[9] == Ind(5) && s[8].kind == Row(r, false)
    ensures RowIds(s[8..], true) == [r]
  {
    RowIdsFrom(s, 9, true);
    assert s[10..] == [];
    RowIdsFrom(s, 8, true);
  }

  /** As written, a drop carries along a row that sits directly above the
      dragged row: in the loaded list z, y, x, dropping x before z moves y
      as well and leaves y, x, z. */
  lemma AsWrittenDropCarriesNeighbour(x: RowId, y: RowId, z: RowId)
    requires x.CuisineRow? && y.CuisineRow? && z.CuisineRow?
    ensures var dom := Loaded3(x, y, z);
            IsRegular(dom[8]) && IsRegular(dom[6])
            && RegularIds(dom) == [z, y, x]
            && DropAsWritten(dom, 8, 6, Some(Before)).Some?
            && RegularIds(DropAsWritten(dom, 8, 6, Some(Before)).value) == [y, x, z]
  {
    AsWrittenResult(x, y, z);
    WrittenRows(x, y, z);
    LoadedRows(x, y, z);
  }

  /** The list the as-written drop leaves behind in the example. */
  function Written3(x: RowId, y: RowId, z: RowId): seq<Node>
  {
    [Ind(0), Fav, Ind(2), Ind(3), Ind(6), Ind(9), Reg(7, y), Reg(4, x), Reg(10, z), Ind(5)]
  }

  lemma WrittenRows(x: RowId, y: RowId, z: RowId)
    ensures RegularIds(Written3(x, y, z)) == [y, x, z]
  {
    ThreeRows(Written3(x, y, z), y, x, z);
  }

  lemma LoadedRows(x: RowId, y: RowId, z: RowId)
    ensures var dom := Loaded3(x, y, z);
            IsRegular(dom[8]) && IsRegular(dom[6]) && RegularIds(dom) == [z, y, x]
  {
    ThreeRows(Loaded3(x, y, z), z, y, x);
  }

  lemma AsWrittenResult(x: RowId, y: RowId, z: RowId)
    requires z.CuisineRow?
    ensures DropAsWritten(Loaded3(x, y, z), 8, 6, Some(Before)) == Some(Written3(x, y, z))
  {
    var dom := Loaded3(x, y, z);
    var d2 := [Ind(0), Fav, Ind(2), Ind(3), Ind(6), Ind(9), Reg(10, z), Reg(7, y), Ind(5)];
    var d3 := [Ind(0), Fav, Ind(2), Ind(3), Ind(6), Ind(9), Reg(7, y), Reg(10, z), Ind(5)];
    assert dom[8] == Reg(4, x) && dom[6] == Reg(10, z) && dom[4] == Ind(6);
    assert Accepted(dom, 8, 6, Some(Before));
    AsWrittenTakesRowAbove(x, y, z);
    AsWrittenFindsTarget(y, z);
    assert d2[6] == Reg(10, z);
    AsWrittenBeforeSteps(dom, 8, 6, Reg(7, y), d2, 6);
    AsWrittenMovesNeighbour(y, z);
    AsWrittenPlacesRow(x, y, z);
  }

  /** A "before" drop as written, when the dragged row's previous sibling
      is not an indicator: that sibling and then the row go in before the
      target. */
  lemma AsWrittenBeforeSteps(dom: seq<Node>, src: nat, t: nat, carried: Node, d2: seq<Node>, i: nat)
    requires src < |dom| && t < |dom| && IsRegular(dom[src]) && IsRegular(dom[t])
    requires Accepted(dom, src, t, Some(Before))
    requires PrevSibling(dom, dom[src].key) == Some(carried) && !IsIndicator(carried)
    requires Detach(dom, dom[src].key) == d2
    requires FindRow(d2, dom[t].kind.id) == Some(i)
    ensures DropAsWritten(dom, src, t, Some(Before))
            == Some(InsertBefore(InsertBefore(d2, carried, Some(d2[i])), dom[src], Some(d2[i])))
  {
  }

  /** The same drop as its rules describe it leaves x, z, y. */
  lemma DropOfExampleMovesOneRow(x: RowId, y: RowId, z: RowId)
    requires z.CuisineRow?
    ensures var dom := Loaded3(x, y, z);
            IsRegular(dom[8]) && IsRegular(dom[6])
            && Accepted(dom, 8, 6, Some(Before))
            && RegularIds(Drop(dom, 8, 6, Some(Before)).value) == [x, z, y]
  {
    LoadedRows(x, y, z);
    ExampleDrop(x, y, z);
    MovedRows(x, y, z);
  }

  lemma MovedRows(x: RowId, y: RowId, z: RowId)
    ensures RegularIds(Moved3(x, y, z)) == [x, z, y]
  {
    ThreeRows(Moved3(x, y, z), x, z, y);
  }

  /** The list the drop as its rules describe it leaves in the example. */
  function Moved3(x: RowId, y: RowId, z: RowId): seq<Node>
  {
    [Ind(0), Fav, Ind(2), Ind(3), Ind(6), Ind(9), Reg(4, x), Reg(10, z), Reg(7, y), Ind(5)]
  }

  lemma ExampleDrop(x: RowId, y: RowId, z: RowId)
    requires z.CuisineRow?
    ensures Drop(Loaded3(x, y, z), 8, 6, Some(Before)) == Some(Moved3(x, y, z))
  {
    var dom := Loaded3(x, y, z);
    assert dom[8] == Reg(4, x) && dom[6] == Reg(10, z) && dom[7] == Reg(7, y);
    assert Accepted(dom, 8, 6, Some(Before));
    assert CarryStart(dom, 8) == 8;
    assert DropPoint(8, 8, 6, Before) == 6;
    ExampleReinsert(x, y, z);
  }

  lemma ExampleReinsert(x: RowId, y: RowId, z: RowId)
    ensures Reinsert(Loaded3(x, y, z), 8, 8, 6) == Moved3(x, y, z)
  {
    var dom := Loaded3(x, y, z);
    var rest := [Ind(0), Fav, Ind(2), Ind(3), Ind(6), Ind(9), Reg(10, z), Reg(7, y), Ind(5)];
    assert dom[..8] + dom[9..] == rest;
    assert rest[..6] + [Reg(4, x)] + rest[6..] == Moved3(x, y, z);
  }

  // ---------------------------------------------------------------------
  // saveNewOrder
  // ---------------------------------------------------------------------

  /** The batch of `saveNewOrder` for the regular row ids from rank `index`
      on: every cuisine id gets `order` set to its rank, "FAVORITES" is
      skipped but still takes up its rank, and the commit fails as a whole
      when one of the documents is missing. */
  function WriteRanks(c: Collection, ids: seq<RowId>, index: nat): Option<Collection>
    decreases |ids|
  {
    if |ids| == 0 then Some(c)
    else
      match ids[0]
      case FavoritesRow => WriteRanks(c, ids[1..], index + 1)
      case CuisineRow(id) =>
        if id !in c then None
        else WriteRanks(c[id := c[id][Order := Num(index)]], ids[1..], index + 1)
  }

  /** The batch fails exactly when one of the listed cuisines has no
      document. */
  lemma {:induction false} WriteRanksFails(c: Collection, ids: seq<RowId>, index: nat)
    decreases |ids|
    ensures WriteRanks(c, ids, index).None? <==> exists i :: 0 <= i < |ids| && ids[i].CuisineRow? && ids[i].id !in c
  {
    if |ids| > 0 {
      var c' := if ids[0].CuisineRow? && ids[0].id in c then c[ids[0].id := c[ids[0].id][Order := Num(index)]] else c;
      WriteRanksFails(c', ids[1..], index + 1);
      assert c'.Keys == c.Keys;
      assert forall i :: 1 <= i < |ids| ==> ids[i] == ids[1..][i - 1];
      if exists i :: 0 <= i < |ids| && ids[i].CuisineRow? && ids[i].id !in c {
        var i :| 0 <= i < |ids| && ids[i].CuisineRow? && ids[i].id !in c;
        if i > 0 {
          assert ids[1..][i - 1].CuisineRow? && ids[1..][i - 1].id !in c';
        }
      }
    }
  }

  /** A committed batch keeps the set of documents, leaves the unlisted
      ones alone, and, when no id is listed twice, gives each listed
      cuisine its rank. */
  lemma {:induction false} WriteRanksWrites(c: Collection, ids: seq<RowId>, index: nat)
    decreases |ids|
    requires WriteRanks(c, ids, index).Some?
    ensures var r := WriteRanks(c, ids, index).value;
            r.Keys == c.Keys
            && (forall id :: id in c && CuisineRow(id) !in ids ==> r[id] == c[id])
            && (NoDuplicates(ids) ==>
                  forall i :: 0 <= i < |ids| && ids[i].CuisineRow? ==> ids[i].id in c && r[ids[i].id] == c[ids[i].id][Order := Num(index + i)])
  {
    if |ids| > 0 {
      var tail := ids[1..];
      var c' := if ids[0].CuisineRow? then c[ids[0].id := c[ids[0].id][Order := Num(index)]] else c;
      assert WriteRanks(c, ids, index) == WriteRanks(c', tail, index + 1);
      WriteRanksWrites(c', tail, index + 1);
      var r := WriteRanks(c, ids, index).value;
      forall id | id in c && CuisineRow(id) !in ids
        ensures r[id] == c[id]
      {
        assert CuisineRow(id) !in tail && (ids[0].CuisineRow? ==> ids[0].id != id);
      }
      if NoDuplicates(ids) {
        RankedTail(c, c', ids, index, r);
      }
    }
  }

  lemma RankedTail(c: Collection, c': Collection, ids: seq<RowId>, index: nat, r: Collection)
    requires |ids| > 0 && NoDuplicates(ids)
    requires ids[0].CuisineRow? ==> ids[0].id in c && c' == c[ids[0].id := c[ids[0].id][Order := Num(index)]]
    requires !ids[0].CuisineRow? ==> c' == c
    requires c'.Keys == c.Keys && r.Keys == c.Keys
    requires forall id :: id in c' && CuisineRow(id) !in ids[1..] ==> r[id] == c'[id]
    requires forall i :: 0 <= i < |ids[1..]| && ids[1..][i].CuisineRow? ==>
               ids[1..][i].id in c' && r[ids[1..][i].id] == c'[ids[1..][i].id][Order := Num(index + 1 + i)]
    ensures forall i :: 0 <= i < |ids| && ids[i].CuisineRow? ==> ids[i].id in c && r[ids[i].id] == c[ids[i].id][Order := Num(index + i)]
  {
    forall i | 0 <= i < |ids| && ids[i].CuisineRow?
      ensures ids[i].id in c && r[ids[i].id] == c[ids[i].id][Order := Num(index + i)]
    {
      if i == 0 {
        assert ids[0] !in ids[1..] by {
          assert forall j :: 0 <= j < |ids[1..]| ==> ids[1..][j] == ids[j + 1];
        }
        assert r[ids[0].id] == c'[ids[0].id];
      } else {
        assert ids[i] == ids[1..][i - 1];
        assert ids[i] != ids[0];
      }
    }
  }

  /** `saveNewOrder` on the current list: the regular rows ranked 0, 1, …
      in the order they show. */
  function SaveNewOrder(c: Collection, dom: seq<Node>): (r: Option<Collection>)
    ensures r.None? <==> exists i :: 0 <= i < |RegularIds(dom)| && RegularIds(dom)[i].CuisineRow? && RegularIds(dom)[i].id !in c
    ensures r.Some? ==> r.value.Keys == c.Keys
    ensures r.Some? ==> forall id :: id in c && CuisineRow(id) !in RegularIds(dom) ==> r.value[id] == c[id]
    ensures r.Some? && NoDuplicates(RegularIds(dom)) ==>
      forall i :: 0 <= i < |RegularIds(dom)| && RegularIds(dom)[i].CuisineRow? ==>
        var id := RegularIds(dom)[i].id; id in c && r.value[id] == c[id][Order := Num(i)]
  {
    WriteRanksFails(c, RegularIds(dom), 0);
    if WriteRanks(c, RegularIds(dom), 0).Some? then
      WriteRanksWrites(c, RegularIds(dom), 0);
      WriteRanks(c, RegularIds(dom), 0)
    else None
  }

  /** The snapshot is complete: saving the same list twice writes the same
      ranks as saving it once. */
  lemma SaveNewOrderIdempotent(c: Collection, dom: seq<Node>)
    requires NoDuplicates(RegularIds(dom)) && SaveNewOrder(c, dom).Some?
    ensures SaveNewOrder(SaveNewOrder(c, dom).value, dom) == SaveNewOrder(c, dom)
  {
    var ids := RegularIds(dom);
    var once := SaveNewOrder(c, dom).value;
    var twice := SaveNewOrder(once, dom);
    assert twice.Some?;
    forall id | id in once ensures twice.value[id] == once[id] {
      if CuisineRow(id) in ids {
        var i :| 0 <= i < |ids| && ids[i] == CuisineRow(id);
        assert once[id] == c[id][Order := Num(i)];
      }
    }
    assert twice.value == once;
  }

  // ---------------------------------------------------------------------
  // loadCuisines
  // ---------------------------------------------------------------------

  /** The sort key of the cuisine menu; `OtherSort` stands for any value the
      comparator does not know. */
  datatype CuisineSort = ByName | ByDate | ByCount | OtherSort

  /** A loaded cuisine: its document id, its document, and the recipe count
      attached to it (0 unless the list is sorted by count). */
  datatype CuisineItem = CuisineItem(id: Id, doc: Doc, count: int)

  function ShownName(a: CuisineItem): string
  {
    TextOr(a.doc, Name, "Untitled")
  }

  /** The comparator of `loadCuisines`: by name, by creation time (newest
      first) or by count (highest first, equal counts by name). Date and
      count keep that direction unless the order is "asc"; name and any
      other key unless it is "desc". */
  function CompareCuisines(sort: CuisineSort, order: SortOrder, a: CuisineItem, b: CuisineItem): int
  {
    var byName := Collate(ShownName(a), ShownName(b));
    var base :=
      match sort
      case ByName => byName
      case ByDate => MillisOrZero(b.doc, CreatedAt) - MillisOrZero(a.doc, CreatedAt)
      case ByCount => if b.count - a.count != 0 then b.count - a.count else byName
      case OtherSort => 0;
    if sort == ByDate || sort == ByCount then
      (if order == Asc then -base else base)
    else
      (if order == Desc then -base else base)
  }

  lemma CompareCuisinesAntisymmetric(sort: CuisineSort, order: SortOrder, a: CuisineItem, b: CuisineItem)
    ensures CompareCuisines(sort, order, a, b) == -CompareCuisines(sort, order, b, a)
  {
    CollateAntisymmetric(ShownName(a), ShownName(b));
  }

  /** "asc" and "desc" give opposite orders for every sort key. */
  lemma CuisineOrderFlagReverses(sort: CuisineSort, a: CuisineItem, b: CuisineItem)
    ensures CompareCuisines(sort, Asc, a, b) == -CompareCuisines(sort, Desc, a, b)
  {
  }

  /** The comparator handed to `sort`. */
  function CuisineOrder(sort: CuisineSort, order: SortOrder): (CuisineItem, CuisineItem) -> int
  {
    (a: CuisineItem, b: CuisineItem) => CompareCuisines(sort, order, a, b)
  }

  lemma CuisineOrderAntisymmetric(sort: CuisineSort, order: SortOrder)
    ensures Antisymmetric(CuisineOrder(sort, order))
  {
    forall a: CuisineItem, b: CuisineItem
      ensures CuisineOrder(sort, order)(a, b) == -CuisineOrder(sort, order)(b, a)
    {
      CompareCuisinesAntisymmetric(sort, order, a, b);
    }
  }

  /** Two cuisines the comparator ties are equal in the sort key (for a
      count sort: equal in count and in name). */
  lemma CuisineTiesTransitive(sort: CuisineSort, order: SortOrder)
    ensures TiesTransitive(CuisineOrder(sort, order))
  {
    var cmp := CuisineOrder(sort, order);
    forall a: CuisineItem, b: CuisineItem, c: CuisineItem | cmp(a, b) == 0 && cmp(b, c) == 0
      ensures cmp(a, c) == 0
    {
      CollateZeroIffEqual(ShownName(a), ShownName(b));
      CollateZeroIffEqual(ShownName(b), ShownName(c));
      CollateZeroIffEqual(ShownName(a), ShownName(c));
    }
  }

  /** `items.sort(...)`: a permutation of the items in which each compares
      at most equal to the next. */
  function SortCuisines(items: seq<CuisineItem>, sort: CuisineSort, order: SortOrder): (r: seq<CuisineItem>)
    ensures multiset(r) == multiset(items) && |r| == |items|
    ensures forall i :: 0 <= i < |r| - 1 ==> CompareCuisines(sort, order, r[i], r[i + 1]) <= 0
  {
    var cmp := CuisineOrder(sort, order);
    CuisineOrderAntisymmetric(sort, order);
    var r := SortBy(items, cmp);
    assert SortedBy(r, cmp);
    assert |multiset(r)| == |multiset(items)|;
    r
  }

  /** The sort is stable: cuisines that tie with `k` keep the order the
      store listed them in. */
  lemma SortCuisinesStable(items: seq<CuisineItem>, sort: CuisineSort, order: SortOrder, k: CuisineItem)
    ensures TiedWith(SortCuisines(items, sort, order), CuisineOrder(sort, order), k)
         == TiedWith(items, CuisineOrder(sort, order), k)
  {
    CuisineOrderAntisymmetric(sort, order);
    CuisineTiesTransitive(sort, order);
    SortByStable(items, CuisineOrder(sort, order), k);
  }

  /** The directions each order flag gives. Under "asc", the menu's
      default, names sort alphabetically, dates oldest first and counts
      lowest first with equal counts in reverse alphabetical order; "desc"
      gives the opposite of each. A missing flag is read like "asc" for
      names and like "desc" for dates and counts. */
  lemma CuisineDirections(items: seq<CuisineItem>, sort: CuisineSort, order: SortOrder, i: nat)
    requires i + 1 < |items|
    ensures var r := SortCuisines(items, sort, order);
      (sort == ByName ==>
        if order == Desc then Collate(ShownName(r[i]), ShownName(r[i + 1])) >= 0
        else Collate(ShownName(r[i]), ShownName(r[i + 1])) <= 0)
      && (sort == ByDate ==>
        if order == Asc then MillisOrZero(r[i].doc, CreatedAt) <= MillisOrZero(r[i + 1].doc, CreatedAt)
        else MillisOrZero(r[i].doc, CreatedAt) >= MillisOrZero(r[i + 1].doc, CreatedAt))
      && (sort == ByCount ==>
        if order == Asc then r[i].count <= r[i + 1].count else r[i].count >= r[i + 1].count)
      && (sort == ByCount && r[i].count == r[i + 1].count ==>
        if order == Asc then Collate(ShownName(r[i]), ShownName(r[i + 1])) >= 0
        else Collate(ShownName(r[i]), ShownName(r[i + 1])) <= 0)
  {
    var r := SortCuisines(items, sort, order);
    assert CompareCuisines(sort, order, r[i], r[i + 1]) <= 0;
  }

  /** The comparator's initial setting (name, "asc") sorts the cuisines
      alphabetically. What the menu shows is stated by
      `MenuStartsReverseAlphabetical` and `CorrectedMenuStartsAlphabetical`. */
  lemma InitialSortIsAlphabetical(items: seq<CuisineItem>, i: nat)
    requires i + 1 < |items|
    ensures var r := SortCuisines(items, ByName, Asc);
      Collate(ShownName(r[i]), ShownName(r[i + 1])) <= 0
  {
    CuisineDirections(items, ByName, Asc, i);
  }

  /** The counts attached before a count sort: each cuisine's row count from
      the tally of all recipe entries (an absent name is looked up as ""). */
  function WithCounts(items: seq<CuisineItem>, recipes: seq<Doc>): (r: seq<CuisineItem>)
    ensures |r| == |items|
    ensures forall i :: 0 <= i < |items| ==>
      r[i].id == items[i].id && r[i].doc == items[i].doc
      && r[i].count == CuisineRefs.RowCount(CuisineRefs.TallyOf(CuisineRefs.AllEntries(recipes)), items[i].id, TextOr(items[i].doc, Name, ""))
  {
    var t := CuisineRefs.TallyOf(CuisineRefs.AllEntries(recipes));
    seq(|items|, i requires 0 <= i < |items| =>
      items[i].(count := CuisineRefs.RowCount(t, items[i].id, TextOr(items[i].doc, Name, ""))))
  }

  /** A counted cuisine shows the number of entries referencing its id, or
      when there are none the number naming it. */
  lemma WithCountsMeaning(items: seq<CuisineItem>, recipes: seq<Doc>, i: nat)
    requires i < |items|
    ensures var es := CuisineRefs.AllEntries(recipes);
            var name := TextOr(items[i].doc, Name, "");
            WithCounts(items, recipes)[i].count
              == if CuisineRefs.IdHits(es, items[i].id) > 0 then CuisineRefs.IdHits(es, items[i].id)
                 else CuisineRefs.NameHits(es, name)
  {
    CuisineRefs.RowCountMeaning(recipes, items[i].id, TextOr(items[i].doc, Name, ""));
  }

  /** The row ids of the given items, in order. */
  function ItemIds(items: seq<CuisineItem>): (r: seq<RowId>)
    ensures |r| == |items|
    ensures forall i :: 0 <= i < |items| ==> r[i] == CuisineRow(items[i].id)
  {
    seq(|items|, i requires 0 <= i < |items| => CuisineRow(items[i].id))
  }

  lemma ItemIdsReverse(items: seq<CuisineItem>)
    ensures Reverse(ItemIds(items)) == ItemIds(Reverse(items))
  {
    assert forall i :: 0 <= i < |items| ==> Reverse(ItemIds(items))[i] == ItemIds(Reverse(items))[i];
  }

  /** The cuisines `loadCuisines` sorts: counted when sorting by count. */
  function Prepared(items: seq<CuisineItem>, recipes: seq<Doc>, sort: CuisineSort, order: SortOrder): seq<CuisineItem>
  {
    SortCuisines(if sort == ByCount then WithCounts(items, recipes) else items, sort, order)
  }

  /** `loadCuisines` as written: the Favorites row, then each sorted cuisine
      added with `addCuisineRow`, each above the ones before it. */
  function LoadCuisines(items: seq<CuisineItem>, recipes: seq<Doc>, sort: CuisineSort, order: SortOrder): (r: seq<Node>)
    ensures FavoritesFirst(r)
    ensures RegularIds(r) == Reverse(ItemIds(Prepared(items, recipes, sort, order)))
    ensures Rows(r) == [FavoritesRow] + RegularIds(r)
  {
    LoadList(ItemIds(Prepared(items, recipes, sort, order)))
  }

  /** Read back to front, a sorted sequence compares at least equal at each
      step. */
  lemma {:induction false} ReverseOfSorted(s: seq<CuisineItem>, sort: CuisineSort, order: SortOrder)
    requires forall i :: 0 <= i < |s| - 1 ==> CompareCuisines(sort, order, s[i], s[i + 1]) <= 0
    ensures forall i :: 0 <= i < |s| - 1 ==> CompareCuisines(sort, order, Reverse(s)[i], Reverse(s)[i + 1]) >= 0
  {
    var b := Reverse(s);
    forall i | 0 <= i < |s| - 1
      ensures CompareCuisines(sort, order, b[i], b[i + 1]) >= 0
    {
      var j := |s| - 2 - i;
      assert b[i] == s[j + 1] && b[i + 1] == s[j];
      assert CompareCuisines(sort, order, s[j], s[j + 1]) <= 0;
      CompareCuisinesAntisymmetric(sort, order, s[j], s[j + 1]);
    }
  }

  /** As written, the list shows the sorted cuisines back to front: each
      row compares at least equal to the row below it. */
  lemma LoadShowsSortReversed(items: seq<CuisineItem>, recipes: seq<Doc>, sort: CuisineSort, order: SortOrder)
    ensures var shownItems := Reverse(Prepared(items, recipes, sort, order));
            RegularIds(LoadCuisines(items, recipes, sort, order)) == ItemIds(shownItems)
            && forall i :: 0 <= i < |shownItems| - 1 ==> CompareCuisines(sort, order, shownItems[i], shownItems[i + 1]) >= 0
  {
    var sorted := Prepared(items, recipes, sort, order);
    ItemIdsReverse(sorted);
    ReverseOfSorted(sorted, sort, order);
  }

  /** Two items sort in the order the comparator puts them in. */
  lemma SortTwo(a: CuisineItem, b: CuisineItem, sort: CuisineSort, order: SortOrder)
    requires CompareCuisines(sort, order, a, b) < 0
    ensures SortCuisines([a, b], sort, order) == [a, b]
  {
    var r := SortCuisines([a, b], sort, order);
    SortedPair(r, a, b, sort, order);
  }

  /** The only ordering of two items that sorts them. */
  lemma SortedPair(r: seq<CuisineItem>, a: CuisineItem, b: CuisineItem, sort: CuisineSort, order: SortOrder)
    requires |r| == 2 && multiset(r) == multiset([a, b])
    requires CompareCuisines(sort, order, r[0], r[1]) <= 0
    requires CompareCuisines(sort, order, a, b) < 0
    ensures r == [a, b]
  {
    CompareCuisinesAntisymmetric(sort, order, a, b);
    PairOfMultiset(r, a, b);
  }

  lemma PairOfMultiset<T>(r: seq<T>, a: T, b: T)
    requires |r| == 2 && multiset(r) == multiset([a, b])
    ensures r == [a, b] || r == [b, a]
  {
    assert r == [r[0], r[1]];
    assert multiset(r) == multiset{r[0]} + multiset{r[1]};
    assert multiset([a, b]) == multiset{a} + multiset{b};
    assert r[0] in multiset(r) && r[1] in multiset(r);
  }

  /** Two cuisines "a" and "b" loaded by name, ascending: the list shows
      "b" above "a". */
  lemma LoadByNameShowsDescending(a: CuisineItem, b: CuisineItem)
    requires a.doc == map[Name := Text("a")] && b.doc == map[Name := Text("b")]
    ensures RegularIds(LoadCuisines([a, b], [], ByName, Asc)) == [CuisineRow(b.id), CuisineRow(a.id)]
  {
    NamesAB(a, b);
    LoadOfOrderedPair(a, b);
  }

  lemma NamesAB(a: CuisineItem, b: CuisineItem)
    requires a.doc == map[Name := Text("a")] && b.doc == map[Name := Text("b")]
    ensures CompareCuisines(ByName, Asc, a, b) < 0
  {
    assert ShownName(a) == "a" && ShownName(b) == "b";
    assert Collate("a", "b") < 0;
  }

  lemma LoadOfOrderedPair(a: CuisineItem, b: CuisineItem)
    requires CompareCuisines(ByName, Asc, a, b) < 0
    ensures RegularIds(LoadCuisines([a, b], [], ByName, Asc)) == [CuisineRow(b.id), CuisineRow(a.id)]
  {
    SortTwo(a, b, ByName, Asc);
    PairIds(a, b);
  }

  lemma PairIds(a: CuisineItem, b: CuisineItem)
    ensures Reverse(ItemIds([a, b])) == [CuisineRow(b.id), CuisineRow(a.id)]
  {
    assert ItemIds([a, b]) == [CuisineRow(a.id), CuisineRow(b.id)];
    ReverseOfTwo(CuisineRow(a.id), CuisineRow(b.id));
  }




  lemma ReverseOfTwo<T>(x: T, y: T)
    ensures Reverse([x, y]) == [y, x]
  {
  }

  /** As written, the menu as first shown (name, "asc") lists the cuisines
      in reverse alphabetical order under Favorites. */
  lemma MenuStartsReverseAlphabetical(items: seq<CuisineItem>, recipes: seq<Doc>)
    ensures var shownItems := Reverse(SortCuisines(items, ByName, Asc));
            RegularIds(LoadCuisines(items, recipes, ByName, Asc)) == ItemIds(shownItems)
            && forall i :: 0 <= i < |shownItems| - 1 ==> Collate(ShownName(shownItems[i]), ShownName(shownItems[i + 1])) >= 0
  {
    var sorted := SortCuisines(items, ByName, Asc);
    var r := LoadCuisines(items, recipes, ByName, Asc);
    PreparedByName(items, recipes, Asc);
    ShownBackToFront(r, sorted);
    ReverseOfSorted(sorted, ByName, Asc);
    NameOrderIsCollation(Reverse(sorted));
  }

  /** A list showing the ids of `sorted` back to front shows the ids of
      `sorted` reversed. */
  lemma ShownBackToFront(r: seq<Node>, sorted: seq<CuisineItem>)
    requires RegularIds(r) == Reverse(ItemIds(sorted))
    ensures RegularIds(r) == ItemIds(Reverse(sorted))
  {
    ItemIdsReverse(sorted);
  }

  /** Under name and "asc" the comparator is the collation of the shown
      names. */
  lemma NameOrderIsCollation(s: seq<CuisineItem>)
    requires forall i :: 0 <= i < |s| - 1 ==> CompareCuisines(ByName, Asc, s[i], s[i + 1]) >= 0
    ensures forall i :: 0 <= i < |s| - 1 ==> Collate(ShownName(s[i]), ShownName(s[i + 1])) >= 0
  {
  }

  /** Only a count sort attaches counts first. */
  lemma PreparedByName(items: seq<CuisineItem>, recipes: seq<Doc>, order: SortOrder)
    ensures Prepared(items, recipes, ByName, order) == SortCuisines(items, ByName, order)
  {
  }

  /** The load with the sorted cuisines shown top to bottom: the rows are
      added in reverse sorted order, each going in above the ones that
      follow it in the sort. */
  function LoadCuisinesInOrder(items: seq<CuisineItem>, recipes: seq<Doc>, sort: CuisineSort, order: SortOrder): (r: seq<Node>)
    ensures FavoritesFirst(r)
    ensures RegularIds(r) == ItemIds(Prepared(items, recipes, sort, order))
    ensures Rows(r) == [FavoritesRow] + RegularIds(r)
  {
    var ids := ItemIds(Prepared(items, recipes, sort, order));
    ReverseInvolution(ids);
    LoadList(Reverse(ids))
  }

  /** The corrected load shows each cuisine above every one it sorts
      before. */
  lemma InOrderShowsSorted(items: seq<CuisineItem>, recipes: seq<Doc>, sort: CuisineSort, order: SortOrder, i: nat)
    requires i + 1 < |items|
    ensures var sorted := Prepared(items, recipes, sort, order);
            var shown := RegularIds(LoadCuisinesInOrder(items, recipes, sort, order));
            i + 1 < |shown| && shown[i] == CuisineRow(sorted[i].id) && shown[i + 1] == CuisineRow(sorted[i + 1].id)
            && CompareCuisines(sort, order, sorted[i], sorted[i + 1]) <= 0
  {
    var sorted := Prepared(items, recipes, sort, order);
    PreparedSorted(items, recipes, sort, order);
    var shown := RegularIds(LoadCuisinesInOrder(items, recipes, sort, order));
    assert shown == ItemIds(sorted);
    assert CompareCuisines(sort, order, sorted[i], sorted[i + 1]) <= 0;
  }
  /** In the corrected load, the menu as first shown (name, "asc") lists
      the cuisines alphabetically, top to bottom. */
  lemma CorrectedMenuStartsAlphabetical(items: seq<CuisineItem>, recipes: seq<Doc>, i: nat)
    requires i + 1 < |items|
    ensures var sorted := SortCuisines(items, ByName, Asc);
            var shown := RegularIds(LoadCuisinesInOrder(items, recipes, ByName, Asc));
            i + 1 < |shown| && shown[i] == CuisineRow(sorted[i].id) && shown[i + 1] == CuisineRow(sorted[i + 1].id)
            && Collate(ShownName(sorted[i]), ShownName(sorted[i + 1])) <= 0
  {
    InOrderShowsSorted(items, recipes, ByName, Asc, i);
  }


  /** The prepared cuisines are as many as those loaded, and sorted. */
  lemma PreparedSorted(items: seq<CuisineItem>, recipes: seq<Doc>, sort: CuisineSort, order: SortOrder)
    ensures var sorted := Prepared(items, recipes, sort, order);
            |sorted| == |items|
            && forall i :: 0 <= i < |sorted| - 1 ==> CompareCuisines(sort, order, sorted[i], sorted[i + 1]) <= 0
  {
    if sort == ByCount {
      assert |WithCounts(items, recipes)| == |items|;
    }
  }
}

=== FILE: cuisine_refs.dfy ===
/** A recipe's cuisine entries in their two stored formats, the synthetic
    "Favorites" membership, and the per-cuisine recipe counts recomputed
    from all recipes (public/recipes.js). */
module CuisineRefs {
  import opened Common
  import opened Documents

  const FavoritesName := "Favorites"

  /** `typeof c === 'string' ? c : c.name` */
  function NameOf(e: CuisineRef): string
  {
    match e
    case Bare(n) => n
    case Obj(_, n) => n
  }

  /** An entry marks the recipe as a favorite, in either format. */
  predicate IsFavorites(e: CuisineRef)
  {
    NameOf(e) == FavoritesName
  }

  predicate HasFavorites(refs: seq<CuisineRef>)
  {
    exists i :: 0 <= i < |refs| && IsFavorites(refs[i])
  }

  /** `data.cuisines || (data.cuisine ? [data.cuisine] : [])`: a stored list
      (even an empty one) wins; otherwise a non-empty legacy single name is
      wrapped into a one-element list. */
  function EntriesOf(d: Doc): (r: seq<CuisineRef>)
    ensures Cuisines in d && d[Cuisines].Entries? ==> r == d[Cuisines].refs
    ensures !(Cuisines in d && d[Cuisines].Entries?) ==>
              r == (if TextOr(d, Cuisine, "") != "" then [Bare(d[Cuisine].s)] else [])
  {
    if Cuisines in d && d[Cuisines].Entries? then d[Cuisines].refs
    else if TextOr(d, Cuisine, "") != "" then [Bare(d[Cuisine].s)]
    else []
  }

  /** The legacy single `cuisine` field kept beside the list: the first
      entry's name, or "" for an empty list. */
  function LegacyName(refs: seq<CuisineRef>): string
  {
    if |refs| == 0 then "" else NameOf(refs[0])
  }

  /** The list after "Add to Favorites": the bare name "Favorites" is
      appended unless some entry already is a favorite. */
  function WithFavorites(refs: seq<CuisineRef>): (r: seq<CuisineRef>)
    ensures HasFavorites(r)
    ensures |refs| <= |r| <= |refs| + 1 && r[..|refs|] == refs
    ensures |r| == |refs| <==> HasFavorites(refs)
    ensures |r| == |refs| + 1 ==> r[|refs|] == Bare(FavoritesName)
  {
    if HasFavorites(refs) then refs
    else
      var r := refs + [Bare(FavoritesName)];
      assert IsFavorites(r[|refs|]);
      r
  }

  /** The list after "Remove from Favorites": every favorite entry, in
      either format, is dropped. */
  function WithoutFavorites(refs: seq<CuisineRef>): (r: seq<CuisineRef>)
    ensures !HasFavorites(r)
    ensures forall e :: e in r <==> e in refs && !IsFavorites(e)
  {
    if |refs| == 0 then []
    else if IsFavorites(refs[0]) then WithoutFavorites(refs[1..])
    else [refs[0]] + WithoutFavorites(refs[1..])
  }

  /** Removal works piecewise, so the entries that stay keep their order. */
  lemma {:induction false} WithoutFavoritesConcat(a: seq<CuisineRef>, b: seq<CuisineRef>)
    ensures WithoutFavorites(a + b) == WithoutFavorites(a) + WithoutFavorites(b)
  {
    if |a| == 0 {
      assert a + b == b;
    } else {
      assert (a + b)[0] == a[0];
      assert (a + b)[1..] == a[1..] + b;
      WithoutFavoritesConcat(a[1..], b);
    }
  }

  lemma {:induction false} WithoutFavoritesKeepsNonFavorites(refs: seq<CuisineRef>)
    requires !HasFavorites(refs)
    ensures WithoutFavorites(refs) == refs
  {
    if |refs| > 0 {
      assert !IsFavorites(refs[0]);
      assert !HasFavorites(refs[1..]) by {
        forall i | 0 <= i < |refs[1..]| ensures !IsFavorites(refs[1..][i]) {
          assert refs[1..][i] == refs[i + 1];
        }
      }
      WithoutFavoritesKeepsNonFavorites(refs[1..]);
    }
  }

  /** Adding twice is adding once. */
  lemma WithFavoritesIdempotent(refs: seq<CuisineRef>)
    ensures WithFavorites(WithFavorites(refs)) == WithFavorites(refs)
  {
  }

  /** Removing undoes adding. */
  lemma RemoveAfterAdd(refs: seq<CuisineRef>)
    ensures WithoutFavorites(WithFavorites(refs)) == WithoutFavorites(refs)
  {
    if !HasFavorites(refs) {
      WithoutFavoritesConcat(refs, [Bare(FavoritesName)]);
      assert WithoutFavorites([Bare(FavoritesName)]) == [];
    }
  }

  /** Adding after removing appends exactly one bare "Favorites". */
  lemma AddAfterRemove(refs: seq<CuisineRef>)
    ensures WithFavorites(WithoutFavorites(refs)) == WithoutFavorites(refs) + [Bare(FavoritesName)]
  {
  }

  // ---------------------------------------------------------------------
  // addToFavorites / removeFromFavorites on the recipes collection
  // ---------------------------------------------------------------------

  datatype FavoritesResult =
    | NotSignedIn             // no current user: nothing is read or written
    | Failed                  // the recipe is missing: the error is caught and alerted
    | Saved(recipes: Collection)

  /** The fields both operations write: the new list, the legacy name
      recomputed from its first entry, and a fresh update time. */
  function FavoritesFields(refs: seq<CuisineRef>): Doc
  {
    map[Cuisines := Entries(refs), Cuisine := Text(LegacyName(refs)), UpdatedAt := ServerTime]
  }

  function ChangeFavorites(recipes: Collection, signedIn: bool, id: Id, add: bool): (r: FavoritesResult)
    ensures r.NotSignedIn? <==> !signedIn
    ensures r.Failed? <==> signedIn && id !in recipes
    ensures r.Saved? ==> r.recipes.Keys == recipes.Keys
    ensures r.Saved? ==> forall other :: other in recipes && other != id ==> r.recipes[other] == recipes[other]
    ensures r.Saved? ==> r.recipes[id].Keys == recipes[id].Keys + {Cuisines, Cuisine, UpdatedAt}
    ensures r.Saved? ==>
              var refs := if add then WithFavorites(EntriesOf(recipes[id])) else WithoutFavorites(EntriesOf(recipes[id]));
              && Cuisines in r.recipes[id] && Cuisine in r.recipes[id] && UpdatedAt in r.recipes[id]
              && r.recipes[id][Cuisines] == Entries(refs)
              && r.recipes[id][Cuisine] == Text(LegacyName(refs))
              && r.recipes[id][UpdatedAt] == ServerTime
              && forall k :: k in recipes[id] && k !in FavoritesFields(refs) ==> k in r.recipes[id] && r.recipes[id][k] == recipes[id][k]
  {
    if !signedIn then NotSignedIn
    else if id !in recipes then Failed
    else
      var current := EntriesOf(recipes[id]);
      var refs := if add then WithFavorites(current) else WithoutFavorites(current);
      Saved(Update(recipes, id, FavoritesFields(refs)).value)
  }

  /** `addToFavorites(recipeId)` */
  function AddToFavorites(recipes: Collection, signedIn: bool, id: Id): FavoritesResult
  {
    ChangeFavorites(recipes, signedIn, id, true)
  }

  /** `removeFromFavorites(recipeId)` */
  function RemoveFromFavorites(recipes: Collection, signedIn: bool, id: Id): FavoritesResult
  {
    ChangeFavorites(recipes, signedIn, id, false)
  }

  /** A second "Add to Favorites" on the same recipe leaves its list as the
      first one did. */
  lemma AddToFavoritesIdempotent(recipes: Collection, id: Id)
    requires id in recipes
    ensures AddToFavorites(recipes, true, id).Saved?
    ensures var once := AddToFavorites(recipes, true, id).recipes;
            AddToFavorites(once, true, id).Saved? &&
            AddToFavorites(once, true, id).recipes[id][Cuisines] == once[id][Cuisines]
  {
    var once := AddToFavorites(recipes, true, id).recipes;
    assert EntriesOf(once[id]) == WithFavorites(EntriesOf(recipes[id]));
  }

  // ---------------------------------------------------------------------
  // Per-cuisine counts (updateAllCuisineCounts)
  // ---------------------------------------------------------------------

  /** All entries of all recipes of a snapshot, in snapshot order. */
  function AllEntries(recipes: seq<Doc>): seq<CuisineRef>
  {
    if |recipes| == 0 then [] else EntriesOf(recipes[0]) + AllEntries(recipes[1..])
  }

  /** The entry is tallied under this cuisine id: an object with an id. */
  predicate CountsTowardId(e: CuisineRef, id: string)
  {
    e.Obj? && e.id != "" && e.id == id
  }

  /** The entry is tallied under this name: a non-empty bare name, or an
      object without an id but with a name. */
  predicate CountsTowardName(e: CuisineRef, name: string)
  {
    match e
    case Bare(n) => n != "" && n == name
    case Obj(i, n) => i == "" && n != "" && n == name
  }

  /** Reference counts, defined entry by entry. */
  function IdHits(es: seq<CuisineRef>, id: string): nat
  {
    if |es| == 0 then 0
    else IdHits(es[..|es| - 1], id) + (if CountsTowardId(es[|es| - 1], id) then 1 else 0)
  }

  function NameHits(es: seq<CuisineRef>, name: string): nat
  {
    if |es| == 0 then 0
    else NameHits(es[..|es| - 1], name) + (if CountsTowardName(es[|es| - 1], name) then 1 else 0)
  }

  /** The two JavaScript objects `cuisineCountsById` and `cuisineCountsByName`. */
  datatype Tally = Tally(byId: map<string, nat>, byName: map<string, nat>)

  function Bump(m: map<string, nat>, k: string): map<string, nat>
  {
    m[k := (if k in m then m[k] else 0) + 1]
  }

  /** One step of the `forEach` over a recipe's entries. */
  function TallyEntry(t: Tally, e: CuisineRef): Tally
  {
    match e
    case Bare(n) => if n != "" then t.(byName := Bump(t.byName, n)) else t
    case Obj(i, n) =>
      if i != "" then t.(byId := Bump(t.byId, i))
      else if n != "" then t.(byName := Bump(t.byName, n))
      else t
  }

  function TallyOf(es: seq<CuisineRef>): Tally
  {
    if |es| == 0 then Tally(map[], map[])
    else TallyEntry(TallyOf(es[..|es| - 1]), es[|es| - 1])
  }

  /** The maps hold exactly the reference counts, and a key is present
      exactly when its count is positive. */
  lemma {:induction false} TallyMatchesHits(es: seq<CuisineRef>)
    ensures forall k :: (k in TallyOf(es).byId <==> IdHits(es, k) > 0)
    ensures forall k :: k in TallyOf(es).byId ==> TallyOf(es).byId[k] == IdHits(es, k)
    ensures forall k :: (k in TallyOf(es).byName <==> NameHits(es, k) > 0)
    ensures forall k :: k in TallyOf(es).byName ==> TallyOf(es).byName[k] == NameHits(es, k)
  {
    if |es| > 0 {
      TallyMatchesHits(es[..|es| - 1]);
    }
  }

  /** The count a regular cuisine row shows: its id count when that id was
      tallied at all, else the count of its name, else 0. */
  function RowCount(t: Tally, id: string, name: string): nat
  {
    if id in t.byId then t.byId[id]
    else if name in t.byName then t.byName[name]
    else 0
  }

  /** The count the synthetic Favorites row shows. */
  function FavoritesCount(t: Tally): nat
  {
    if FavoritesName in t.byName then t.byName[FavoritesName] else 0
  }

  /** A row counts its id references, and falls back to its name only when
      no entry references its id. */
  lemma RowCountMeaning(recipes: seq<Doc>, id: string, name: string)
    ensures var es := AllEntries(recipes);
            RowCount(TallyOf(es), id, name) == if IdHits(es, id) > 0 then IdHits(es, id) else NameHits(es, name)
  {
    TallyMatchesHits(AllEntries(recipes));
  }

  /** The Favorites row counts bare "Favorites" names and id-less
      "Favorites" objects only. */
  lemma FavoritesCountMeaning(recipes: seq<Doc>)
    ensures FavoritesCount(TallyOf(AllEntries(recipes))) == NameHits(AllEntries(recipes), FavoritesName)
  {
    TallyMatchesHits(AllEntries(recipes));
  }
}

=== FILE: cuisine_tags.dfy ===
/** The cuisine tags of the recipe panel (public/app.js): entries are
    rendered as tags carrying an optional `data-cuisine-id`, read back by
    `getCurrentCuisines`, and edited by `addCuisineTag` and
    `removeCuisineTag`. */
module CuisineTags {
  import opened Common
  import opened Documents
  import opened CuisineRefs

  /** A rendered tag: its `data-cuisine-id` ("" when absent) and the text of
      its label. */
  datatype Tag = Tag(cuisineId: string, text: string)

  /** How `renderCuisineTags` shows one entry; `names` maps the user's
      cuisine ids to their names, for objects stored without a name. The
      label is the name as text: the source builds it with `innerHTML`,
      which shows a name this way only when it is `PlainText`. */
  function RenderTag(e: CuisineRef, names: map<Id, string>): Tag
  {
    match e
    case Bare(n) => Tag("", n)
    case Obj(i, n) =>
      var shown := if n != "" then n else if i in names && names[i] != "" then names[i] else "Unknown";
      Tag(i, shown)
  }

  function RenderTags(es: seq<CuisineRef>, names: map<Id, string>): (r: seq<Tag>)
    ensures |r| == |es|
    ensures forall i :: 0 <= i < |es| ==> r[i] == RenderTag(es[i], names)
  {
    seq(|es|, i requires 0 <= i < |es| => RenderTag(es[i], names))
  }

  /** How `getCurrentCuisines` reads one tag back: an object when the tag
      has an id, else the bare name; the label is trimmed. */
  function ReadTag(t: Tag): CuisineRef
  {
    if t.cuisineId != "" then Obj(t.cuisineId, Trim(t.text)) else Bare(Trim(t.text))
  }

  function CurrentCuisines(tags: seq<Tag>): (r: seq<CuisineRef>)
    ensures |r| == |tags|
    ensures forall i :: 0 <= i < |tags| ==> r[i] == ReadTag(tags[i])
  {
    seq(|tags|, i requires 0 <= i < |tags| => ReadTag(tags[i]))
  }

  /** Entries as the panel itself writes them: a trimmed, non-empty name in
      plain text, and a non-empty id on every object. */
  predicate WellFormed(e: CuisineRef)
  {
    NameOf(e) != "" && IsTrimmed(NameOf(e)) && PlainText(NameOf(e)) && (e.Obj? ==> e.id != "")
  }

  /** Showing well-formed entries as tags and reading the tags back gives
      the same entries. Names with markup are outside this promise (see
      `PlainText`). */
  lemma TagsRoundTrip(es: seq<CuisineRef>, names: map<Id, string>)
    requires forall i :: 0 <= i < |es| ==> WellFormed(es[i])
    ensures CurrentCuisines(RenderTags(es, names)) == es
  {
    var back := CurrentCuisines(RenderTags(es, names));
    forall i | 0 <= i < |es| ensures back[i] == es[i] {
      TrimOfTrimmed(NameOf(es[i]));
    }
  }

  /** An object stored without an id comes back as a bare name. */
  lemma IdlessObjectReadsBackBare(n: string, names: map<Id, string>)
    requires n != ""
    ensures ReadTag(RenderTag(Obj("", n), names)) == Bare(Trim(n))
  {
  }

  function Names(refs: seq<CuisineRef>): (r: seq<string>)
    ensures |r| == |refs|
    ensures forall i :: 0 <= i < |refs| ==> r[i] == NameOf(refs[i])
  {
    seq(|refs|, i requires 0 <= i < |refs| => NameOf(refs[i]))
  }

  /** `addCuisineTag(cuisineData)`: `None` when an entry with the same name
      is already present (nothing is rendered or saved); otherwise the list
      with the picked cuisine appended, as an `{id, name}` object when the
      pick carries an id and as the bare name otherwise. */
  function AddCuisineTag(current: seq<CuisineRef>, picked: CuisineRef): (r: Option<seq<CuisineRef>>)
    ensures r.None? <==> NameOf(picked) in Names(current)
    ensures r.Some? ==> |r.value| == |current| + 1 && r.value[..|current|] == current
    ensures r.Some? ==> NameOf(r.value[|current|]) == NameOf(picked)
    ensures r.Some? ==> (r.value[|current|].Obj? <==> picked.Obj? && picked.id != "")
    ensures r.Some? && r.value[|current|].Obj? ==> r.value[|current|].id == picked.id
  {
    var name := NameOf(picked);
    var id := if picked.Obj? then picked.id else "";
    if name in Names(current) then None
    else Some(current + [if id != "" then Obj(id, name) else Bare(name)])
  }

  /** Tag names stay free of duplicates under `addCuisineTag`. */
  lemma AddCuisineTagKeepsNamesDistinct(current: seq<CuisineRef>, picked: CuisineRef)
    requires NoDuplicates(Names(current))
    ensures AddCuisineTag(current, picked).Some? ==> NoDuplicates(Names(AddCuisineTag(current, picked).value))
  {
    var r := AddCuisineTag(current, picked);
    if r.Some? {
      var ns := Names(r.value);
      forall i, j | 0 <= i < j < |ns| ensures ns[i] != ns[j] {
        if j < |current| {
          assert ns[i] == Names(current)[i] && ns[j] == Names(current)[j];
        } else {
          assert ns[i] == Names(current)[i];
        }
      }
    }
  }

  /** `removeCuisineTag(index)`: `splice(index, 1)`, which removes nothing
      for an index past the end. */
  function RemoveCuisineTag(current: seq<CuisineRef>, index: nat): (r: seq<CuisineRef>)
    ensures index < |current| ==> |r| == |current| - 1 && multiset(r) + multiset{current[index]} == multiset(current)
    ensures index < |current| ==> forall k :: 0 <= k < |r| ==> r[k] == (if k < index then current[k] else current[k + 1])
    ensures index >= |current| ==> r == current
  {
    if index < |current| then
      assert current == current[..index] + [current[index]] + current[index + 1..];
      RemoveAt(current, index)
    else current
  }

  /** Removing the tag just added restores the list. */
  lemma RemoveUndoesAdd(current: seq<CuisineRef>, picked: CuisineRef)
    requires AddCuisineTag(current, picked).Some?
    ensures RemoveCuisineTag(AddCuisineTag(current, picked).value, |current|) == current
  {
    var r := AddCuisineTag(current, picked).value;
    assert RemoveCuisineTag(r, |current|) == r[..|current|];
  }
}

=== FILE: documents.dfy ===
/** The hosted document store, reduced to what the application touches: a
    collection maps document ids to documents, a document maps field names
    to values, and the client calls `add`, `update`, `set(..., {merge:
    true})` and `delete`. The server timestamp placeholder is an abstract
    value. Every reader here mirrors the application's `doc.field ||
    default` idiom, in which a missing field and a JavaScript-falsy value
    (`""`, `0`, `null`, `false`) both give the default. */
module Documents {
  import opened Common

  type Id = string

  /** One entry of a recipe's `cuisines` list: the legacy bare name, or an
      `{id, name}` object. An empty `id` or `name` stands for a missing or
      empty property of the object. */
  datatype CuisineRef = Bare(name: string) | Obj(id: string, name: string)

  datatype Value =
    | Text(s: string)
    | Num(n: int)
    | Flag(b: bool)
    | Null
    | ServerTime                      // FieldValue.serverTimestamp()
    | Stamp(millis: int)              // a resolved Timestamp
    | Entries(refs: seq<CuisineRef>)  // a recipe's `cuisines` array
    | List(items: seq<string>)       // `relatedIngredients`, `recipes`, `ingredientGroups`
    | Position(top: string)           // `imagePosition: {top}`

  /** The names of the stored fields the application reads or writes. */
  datatype Field =
    | UserId | CreatedAt | UpdatedAt
    // recipes
    | Title | Cuisines | Cuisine | Minutes | Servings | Ingredients | Instructions
    | Rating | ImageUrl | ImagePosition | ImageOffsetY | RelatedIngredients
    // ingredients and cuisines
    | Name | Category | Quantity | Notes | ToBuy | Recipes | Order
    // the per-user settings document
    | IngredientGroups

  type Doc = map<Field, Value>
  type Collection = map<Id, Doc>

  /** What the store answers to an `add`: the fresh id, or a rejection. */
  datatype CreateOutcome = Created(newId: Id) | CreateFailed

  /** What the store answers to a single-document `get`. */
  datatype Fetch = Found(doc: Doc) | Missing | FetchError

  /** Document `id` exists and its field `k` holds `v`. */
  predicate FieldIs(c: Collection, id: Id, k: Field, v: Value)
  {
    id in c && k in c[id] && c[id][k] == v
  }

  /** JavaScript truthiness of a stored value. */
  predicate Truthy(v: Value)
  {
    match v
    case Text(s) => s != ""
    case Num(n) => n != 0
    case Flag(b) => b
    case Null => false
    case _ => true
  }

  /** `doc[k] || dflt` for a field of any kind. */
  function ValueOr(d: Doc, k: Field, dflt: Value): (r: Value)
    ensures k in d && Truthy(d[k]) ==> r == d[k]
    ensures !(k in d && Truthy(d[k])) ==> r == dflt
  {
    if k in d && Truthy(d[k]) then d[k] else dflt
  }

  /** `doc[k] || dflt` for a text field. */
  function TextOr(d: Doc, k: Field, dflt: string): string
  {
    if k in d && d[k].Text? && d[k].s != "" then d[k].s else dflt
  }

  /** `doc[k] || 0` for a numeric field. */
  function NumOrZero(d: Doc, k: Field): int
  {
    if k in d && d[k].Num? then d[k].n else 0
  }

  /** `doc[k]?.toMillis() || 0`: a pending server timestamp reads as absent. */
  function MillisOrZero(d: Doc, k: Field): int
  {
    if k in d && d[k].Stamp? then d[k].millis else 0
  }

  /** `doc[k] || []` for a list of ids. */
  function IdsOrEmpty(d: Doc, k: Field): seq<Id>
  {
    if k in d && d[k].List? then d[k].items else []
  }

  /** `doc.ref.update(fields)`: rejected when the document does not exist;
      otherwise exactly the given fields are overwritten. */
  function Update(c: Collection, id: Id, fields: Doc): (r: Option<Collection>)
    ensures r.None? <==> id !in c
    ensures r.Some? ==> r.value.Keys == c.Keys
    ensures r.Some? ==> forall other :: other in c && other != id ==> r.value[other] == c[other]
    ensures r.Some? ==> r.value[id].Keys == c[id].Keys + fields.Keys
    ensures r.Some? ==> forall k :: k in fields ==> k in r.value[id] && r.value[id][k] == fields[k]
    ensures r.Some? ==> forall k :: k in c[id] && k !in fields ==> k in r.value[id] && r.value[id][k] == c[id][k]
  {
    if id in c then Some(c[id := c[id] + fields]) else None
  }

  /** `doc.ref.set(fields, {merge: true})`: creates the document when it is
      missing, otherwise overwrites only the given fields. */
  function SetMerge(c: Collection, id: Id, fields: Doc): (r: Collection)
    ensures r.Keys == c.Keys + {id}
    ensures forall other :: other in c && other != id ==> r[other] == c[other]
    ensures forall k :: k in fields ==> k in r[id] && r[id][k] == fields[k]
    ensures id in c ==> forall k :: k in c[id] && k !in fields ==> k in r[id] && r[id][k] == c[id][k]
    ensures id in c ==> r[id].Keys == c[id].Keys + fields.Keys
    ensures id !in c ==> r[id] == fields
  {
    if id in c then c[id := c[id] + fields] else c[id := fields]
  }

  /** `collection.add(doc)` under the store-assigned fresh id. */
  function Add(c: Collection, newId: Id, d: Doc): (r: Collection)
    requires newId !in c
    ensures r.Keys == c.Keys + {newId}
    ensures |r.Keys| == |c.Keys| + 1
    ensures r[newId] == d
    ensures forall other :: other in c ==> r[other] == c[other]
  {
    c[newId := d]
  }

  /** `doc.ref.delete()`: succeeds whether or not the document exists. */
  function Delete(c: Collection, id: Id): (r: Collection)
    ensures r.Keys == c.Keys - {id}
    ensures forall other :: other in c && other != id ==> r[other] == c[other]
  {
    map k | k in c && k != id :: c[k]
  }
}

=== FILE: ingredient_groups.dfy ===
/** The ingredient groups page (public/ingredients.js): the user's list of
    group names, with "Other" pinned last; the bucketing of ingredients
    into groups; the group drag-and-drop; the snapshot of the order that
    `saveGroupOrder` stores; and the new-group and delete-group actions. */
module IngredientGroups {
  import opened Common
  import opened Documents
  import opened IngredientPanel

  /** The catch-all group: not draggable, no delete menu, always last. */
  const OtherGroup := "Other"

  /** The groups a user starts with. */
  const DefaultGroups: seq<string> := ["Fruits", "Vegetables", "Dairy", "Carbs", "Seeds", "Other"]

  predicate OtherLast(groups: seq<string>)
  {
    |groups| > 0 && groups[|groups| - 1] == OtherGroup
  }

  // ---------------------------------------------------------------------
  // Loading the list
  // ---------------------------------------------------------------------

  /** The group list after `loadUserGroups`, and whether it wrote the list
      back to the settings document. */
  datatype Loaded = Loaded(groups: seq<string>, wroteBack: bool)

  /** `loadUserGroups`: a stored list (even an empty one, which is truthy)
      replaces the current list; a missing document or field keeps the
      current list and stores it; no user or a failed read keeps it without
      storing. */
  function LoadUserGroups(current: seq<string>, user: Option<Id>, answer: Fetch): (r: Loaded)
    ensures user.None? || answer.FetchError? ==> r == Loaded(current, false)
    ensures user.Some? && answer.Found? && IngredientGroups in answer.doc && answer.doc[IngredientGroups].List? ==>
      r == Loaded(answer.doc[IngredientGroups].items, false)
    ensures r.wroteBack <==>
      user.Some? && (answer.Missing? || (answer.Found? && !(IngredientGroups in answer.doc && answer.doc[IngredientGroups].List?)))
    ensures r.wroteBack ==> r.groups == current
  {
    if user.None? then Loaded(current, false)
    else match answer
      case FetchError => Loaded(current, false)
      case Missing => Loaded(current, true)
      case Found(d) =>
        if IngredientGroups in d && d[IngredientGroups].List? then Loaded(d[IngredientGroups].items, false)
        else Loaded(current, true)
  }

  // ---------------------------------------------------------------------
  // Bucketing
  // ---------------------------------------------------------------------

  /** The group an ingredient is shown in: its category (default "Other")
      when that is a listed group, else "Other". */
  function GroupOf(groups: seq<string>, i: Item): (r: string)
    ensures r in groups || r == OtherGroup
  {
    var c := TextOr(i.doc, Category, OtherGroup);
    if c in groups then c else OtherGroup
  }

  /** The ingredients of one group, in load order. */
  function Members(groups: seq<string>, items: seq<Item>, g: string): (r: seq<Item>)
    ensures forall i :: i in r <==> i in items && GroupOf(groups, i) == g
  {
    Filter(items, (i: Item) => GroupOf(groups, i) == g)
  }

  /** `loadIngredientGroups`: one bucket per listed group, in list order.
      When an ingredient falls back to "Other" but "Other" is not listed,
      the push throws and nothing is shown (`None`). */
  function Buckets(groups: seq<string>, items: seq<Item>): (r: Option<seq<seq<Item>>>)
    ensures r.None? <==> OtherGroup !in groups && exists i :: i in items && GroupOf(groups, i) == OtherGroup
    ensures r.Some? ==> |r.value| == |groups|
    ensures r.Some? ==> forall g, i :: 0 <= g < |groups| ==> (i in r.value[g] <==> i in items && GroupOf(groups, i) == groups[g])
  {
    if OtherGroup !in groups && exists i :: i in items && GroupOf(groups, i) == OtherGroup then None
    else Some(seq(|groups|, g requires 0 <= g < |groups| => Members(groups, items, groups[g])))
  }

  /** Every ingredient is shown, and only under the name of its own group:
      exactly one group name holds it. */
  lemma EveryIngredientInOneGroup(groups: seq<string>, items: seq<Item>, i: Item)
    requires Buckets(groups, items).Some? && i in items
    ensures exists g :: 0 <= g < |groups| && i in Buckets(groups, items).value[g]
    ensures forall g :: 0 <= g < |groups| && i in Buckets(groups, items).value[g] ==> groups[g] == GroupOf(groups, i)
  {
    var b := Buckets(groups, items).value;
    var name := GroupOf(groups, i);
    assert name in groups;
    var g :| 0 <= g < |groups| && groups[g] == name;
    assert i in b[g];
  }

  // ---------------------------------------------------------------------
  // saveGroupOrder
  // ---------------------------------------------------------------------

  /** A group element's name that `saveGroupOrder` keeps: present and not
      "Other". */
  predicate Regular(name: string)
  {
    name != "" && name != OtherGroup
  }

  /** The regular names in DOM order. */
  function RegularNames(dom: seq<string>): (r: seq<string>)
    ensures forall n :: n in r ==> Regular(n)
    ensures forall n :: Regular(n) ==> Occurrences(r, n) == Occurrences(dom, n)
  {
    if |dom| == 0 then []
    else if Regular(dom[0]) then [dom[0]] + RegularNames(dom[1..])
    else RegularNames(dom[1..])
  }

  /** The names of regular groups in DOM order, then exactly one "Other". */
  function SaveGroupOrder(dom: seq<string>): (r: seq<string>)
    ensures OtherLast(r) && OtherGroup !in r[..|r| - 1]
    ensures r[..|r| - 1] == RegularNames(dom)
    ensures forall n :: Regular(n) ==> Occurrences(r, n) == Occurrences(dom, n)
    ensures "" !in r
  {
    var names := RegularNames(dom);
    var r := names + [OtherGroup];
    assert r[..|r| - 1] == names;
    OccurrencesAppend(names, OtherGroup);
    r
  }

  lemma OccurrencesAppend(s: seq<string>, x: string)
    ensures forall n :: n != x ==> Occurrences(s + [x], n) == Occurrences(s, n)
  {
    forall n | n != x ensures Occurrences(s + [x], n) == Occurrences(s, n) {
      OccurrencesAppendOne(s, x, n);
    }
  }

  lemma {:induction false} OccurrencesAppendOne(s: seq<string>, x: string, n: string)
    requires n != x
    ensures Occurrences(s + [x], n) == Occurrences(s, n)
  {
    if |s| > 0 {
      assert (s + [x])[1..] == s[1..] + [x];
      OccurrencesAppendOne(s[1..], x, n);
    } else {
      assert [x][1..] == [];
    }
  }

  lemma {:induction false} RegularNamesOfRegular(s: seq<string>)
    requires forall n :: n in s ==> Regular(n)
    ensures RegularNames(s) == s
  {
    if |s| > 0 {
      assert s[0] in s;
      RegularNamesOfRegular(s[1..]);
    }
  }

  /** The stored order is a full snapshot: rendering it and saving again
      stores the same list. */
  lemma SaveGroupOrderIdempotent(dom: seq<string>)
    ensures SaveGroupOrder(SaveGroupOrder(dom)) == SaveGroupOrder(dom)
  {
    var names := RegularNames(dom);
    RegularNamesOfRegular(names);
    RegularNamesAppendOther(names);
  }

  lemma {:induction false} RegularNamesAppendOther(s: seq<string>)
    ensures RegularNames(s + [OtherGroup]) == RegularNames(s)
  {
    if |s| == 0 {
      assert RegularNames([OtherGroup]) == RegularNames([]);
    } else {
      assert (s + [OtherGroup])[1..] == s[1..] + [OtherGroup];
      RegularNamesAppendOther(s[1..]);
    }
  }

  // ---------------------------------------------------------------------
  // Drag and drop
  // ---------------------------------------------------------------------

  /** The group drop handler on the group at `target`, with the dragged
      group at `dragged` (`None` when nothing is being dragged) and the
      cursor above or below the target's midpoint. The drop is ignored
      without a dragged group, onto the dragged group itself, or onto
      "Other"; otherwise the dragged group is taken out and put back
      immediately before (above) or after (below) the target. */
  function DropGroup(dom: seq<string>, dragged: Option<nat>, target: nat, above: bool): (r: Option<seq<string>>)
    requires target < |dom| && (dragged.Some? ==> dragged.value < |dom|)
    ensures r.None? <==> dragged.None? || dragged.value == target || dom[target] == OtherGroup
    ensures r.Some? ==> |r.value| == |dom| && multiset(r.value) == multiset(dom)
    ensures r.Some? ==>
      var at := MovedIndex(dragged.value, target, !above);
      at < |dom| && r.value[at] == dom[dragged.value]
      && RemoveAt(r.value, at) == RemoveAt(dom, dragged.value)
      && (above ==> at + 1 < |dom| && r.value[at + 1] == dom[target])
      && (!above ==> at >= 1 && r.value[at - 1] == dom[target])
  {
    if dragged.None? || dragged.value == target || dom[target] == OtherGroup then None
    else Some(MoveBeside(dom, dragged.value, target, !above))
  }

  /** "Other" stays last through every accepted drop (it is never the
      dragged group, having no drag handle). */
  lemma DropKeepsOtherLast(dom: seq<string>, dragged: nat, target: nat, above: bool)
    requires target < |dom| && dragged < |dom| && OtherLast(dom) && dom[dragged] != OtherGroup
    requires DropGroup(dom, Some(dragged), target, above).Some?
    ensures OtherLast(DropGroup(dom, Some(dragged), target, above).value)
  {
    var r := DropGroup(dom, Some(dragged), target, above).value;
    var at := MovedIndex(dragged, target, !above);
    var last := |dom| - 1;
    assert dragged != last && target != last;
    assert at < last;
    assert RemoveAt(r, at)[last - 1] == r[last];
    assert RemoveAt(dom, dragged)[last - 1] == dom[last];
  }

  /** A drop followed by `saveGroupOrder`: the list stored for the new DOM
      order, whose regular names are the moved order's, so the dragged
      group is saved where `DropGroup` put it. */
  function DropAndSave(dom: seq<string>, dragged: Option<nat>, target: nat, above: bool): (r: Option<seq<string>>)
    requires target < |dom| && (dragged.Some? ==> dragged.value < |dom|)
    ensures r.None? <==> DropGroup(dom, dragged, target, above).None?
    ensures r.Some? ==> OtherLast(r.value)
    ensures r.Some? ==> forall n :: Regular(n) ==> Occurrences(r.value, n) == Occurrences(dom, n)
    ensures r.Some? ==> r.value[..|r.value| - 1] == RegularNames(DropGroup(dom, dragged, target, above).value)
  {
    match DropGroup(dom, dragged, target, above)
    case None => None
    case Some(moved) =>
      MultisetOccurrences(moved, dom);
      Some(SaveGroupOrder(moved))
  }

  lemma MultisetOccurrences(a: seq<string>, b: seq<string>)
    requires multiset(a) == multiset(b)
    ensures forall n :: Occurrences(a, n) == Occurrences(b, n)
  {
    forall n ensures Occurrences(a, n) == Occurrences(b, n) {
      OccurrencesIsMultiplicity(a, n);
      OccurrencesIsMultiplicity(b, n);
    }
  }

  lemma {:induction false} OccurrencesIsMultiplicity(s: seq<string>, n: string)
    ensures Occurrences(s, n) == multiset(s)[n]
  {
    if |s| > 0 {
      assert s == [s[0]] + s[1..];
      OccurrencesIsMultiplicity(s[1..], n);
    }
  }

  // ---------------------------------------------------------------------
  // New group, delete group
  // ---------------------------------------------------------------------

  /** The "Done" button of the new-group input: a trimmed, non-empty name
      is put in front of the list (no check for an existing group of that
      name); an empty one changes nothing. */
  function NewGroup(groups: seq<string>, input: string): (r: seq<string>)
    ensures |Trim(input)| == 0 ==> r == groups
    ensures |Trim(input)| > 0 ==> |r| == |groups| + 1 && r[0] == Trim(input) && r[1..] == groups
  {
    var name := Trim(input);
    if |name| > 0 then [name] + groups else groups
  }

  lemma NewGroupKeepsOtherLast(groups: seq<string>, input: string)
    requires OtherLast(groups)
    ensures OtherLast(NewGroup(groups, input))
  {
  }

  /** The ingredient belongs to the user and sits in group `name`. */
  predicate InGroup(d: Doc, uid: Id, name: string)
  {
    UserId in d && d[UserId] == Text(uid) && Category in d && d[Category] == Text(name)
  }

  datatype AfterDelete = AfterDelete(groups: seq<string>, ingredients: Collection)

  /** "Delete group" on group `name` (the menu exists only on groups other
      than "Other"): every ingredient of the user in that group is moved to
      "Other", then the first occurrence of the name is removed from the
      list. */
  function DeleteGroup(groups: seq<string>, ingredients: Collection, uid: Id, name: string): (r: AfterDelete)
    requires name != OtherGroup
    ensures r.ingredients.Keys == ingredients.Keys
    ensures forall k :: k in ingredients && InGroup(ingredients[k], uid, name) ==>
      r.ingredients[k] == ingredients[k][Category := Text(OtherGroup)]
    ensures forall k :: k in ingredients && !InGroup(ingredients[k], uid, name) ==> r.ingredients[k] == ingredients[k]
    ensures name !in groups ==> r.groups == groups
    ensures name in groups ==>
      |r.groups| == |groups| - 1 && multiset(r.groups) + multiset{name} == multiset(groups)
      && IndexOf(groups, name).Some? && r.groups == RemoveAt(groups, IndexOf(groups, name).value)
  {
    var moved := map k | k in ingredients ::
      if InGroup(ingredients[k], uid, name) then ingredients[k][Category := Text(OtherGroup)] else ingredients[k];
    match IndexOf(groups, name)
    case None => AfterDelete(groups, moved)
    case Some(i) =>
      RemoveAtMultiset(groups, i);
      AfterDelete(RemoveAt(groups, i), moved)
  }

  /** After deleting a group no ingredient of the user is left in it, and
      "Other" is still last. */
  lemma DeleteGroupEmptiesIt(groups: seq<string>, ingredients: Collection, uid: Id, name: string)
    requires name != OtherGroup
    ensures var r := DeleteGroup(groups, ingredients, uid, name);
      forall k :: k in r.ingredients ==> !InGroup(r.ingredients[k], uid, name)
    ensures OtherLast(groups) ==> OtherLast(DeleteGroup(groups, ingredients, uid, name).groups)
  {
    var r := DeleteGroup(groups, ingredients, uid, name);
    forall k | k in r.ingredients ensures !InGroup(r.ingredients[k], uid, name) {
      if InGroup(ingredients[k], uid, name) {
        assert r.ingredients[k][Category] == Text(OtherGroup);
      }
    }
    if OtherLast(groups) && name in groups {
      var i := IndexOf(groups, name).value;
      assert i < |groups| - 1;
      assert r.groups[|r.groups| - 1] == groups[|groups| - 1];
    }
  }
}

=== FILE: ingredient_panel.dfy ===
/** The ingredient side panel and the ingredient table (public/ingredients.js):
    opening the panel blank or on a stored ingredient, the save that runs
    when the panel closes (an `update` when an ingredient is being edited,
    an `add` otherwise), the removal of a deleted ingredient's id from every
    recipe that lists it, and the comparator of the shopping table. */
module IngredientPanel {
  import opened Common
  import opened Documents

  /** The panel's image preview: shown with a source and a vertical offset. */
  datatype Preview = Preview(src: string, offset: int)

  /** The panel's inputs; `image` is `None` when the preview has no image. */
  datatype Inputs = Inputs(
    name: string, category: string, quantity: string, notes: string,
    toBuy: bool, image: Option<Preview>)

  /** The panel: the `data-editing-id` of the ingredient being edited, the
      inputs, and the recipes picked in the relation dropdown. */
  datatype Panel = Panel(editingId: Option<Id>, inputs: Inputs, selected: seq<Id>)

  const BlankInputs := Inputs("", "", "", "", false, None)

  /** `panel.dataset.editingId || null`: an empty id is not an edit. */
  function EditTarget(p: Panel): (r: Option<Id>)
    ensures r.Some? <==> p.editingId.Some? && |p.editingId.value| > 0
    ensures r.Some? ==> r == p.editingId
  {
    if p.editingId.Some? && |p.editingId.value| > 0 then p.editingId else None
  }

  /** `openIngredientPanel`: the edit target is cleared and every input
      emptied; the picked recipes are left as they are. */
  function OpenIngredientPanel(p: Panel): (r: Panel)
    ensures EditTarget(r).None?
    ensures r.inputs == BlankInputs && r.selected == p.selected
  {
    Panel(None, BlankInputs, p.selected)
  }

  /** The inputs filled from a stored ingredient, each with its `|| ""`
      default; the image is shown only when the document has one. */
  function InputsOf(d: Doc): (r: Inputs)
    ensures r.name == TextOr(d, Name, "") && r.category == TextOr(d, Category, "")
    ensures r.quantity == TextOr(d, Quantity, "") && r.notes == TextOr(d, Notes, "")
    ensures r.toBuy <==> ToBuy in d && Truthy(d[ToBuy])
    ensures r.image.Some? <==> TextOr(d, ImageUrl, "") != ""
    ensures r.image.Some? ==> r.image.value == Preview(TextOr(d, ImageUrl, ""), NumOrZero(d, ImageOffsetY))
  {
    var url := TextOr(d, ImageUrl, "");
    Inputs(
      TextOr(d, Name, ""), TextOr(d, Category, ""), TextOr(d, Quantity, ""), TextOr(d, Notes, ""),
      ToBuy in d && Truthy(d[ToBuy]),
      if url != "" then Some(Preview(url, NumOrZero(d, ImageOffsetY))) else None)
  }

  /** `openIngredientForEdit(id)` as written: when the document exists the
      inputs are filled and the edit target set; the picked recipes are not
      loaded from the document. Otherwise nothing changes. */
  function OpenForEditAsWritten(p: Panel, id: Id, answer: Fetch): (r: Panel)
    ensures answer.Found? ==> r.editingId == Some(id) && r.inputs == InputsOf(answer.doc)
    ensures r.selected == p.selected
    ensures !answer.Found? ==> r == p
  {
    match answer
    case Found(d) => Panel(Some(id), InputsOf(d), p.selected)
    case _ => p
  }

  /** `openIngredientForEdit(id)` with the ingredient's stored recipe links
      loaded into the dropdown selection, as the recipe panel does for its
      related ingredients. */
  function OpenForEdit(p: Panel, id: Id, answer: Fetch): (r: Panel)
    ensures answer.Found? ==> r.editingId == Some(id) && r.inputs == InputsOf(answer.doc)
    ensures answer.Found? ==> r.selected == IdsOrEmpty(answer.doc, Recipes)
    ensures !answer.Found? ==> r == p
  {
    match answer
    case Found(d) => Panel(Some(id), InputsOf(d), IdsOrEmpty(d, Recipes))
    case _ => p
  }

  // ---------------------------------------------------------------------
  // saveIngredient
  // ---------------------------------------------------------------------

  predicate HasImage(i: Inputs)
  {
    i.image.Some? && i.image.value.src != ""
  }

  /** A trimmed optional text: the text, or `null` when it is empty. */
  function TextOrNull(s: string): (r: Value)
    ensures |Trim(s)| > 0 ==> r == Text(Trim(s))
    ensures |Trim(s)| == 0 ==> r == Null
  {
    if |Trim(s)| > 0 then Text(Trim(s)) else Null
  }

  /** The values `saveIngredient` derives from the inputs: the trimmed
      name, the trimmed category or "Other", quantity and notes trimmed or
      `null`, and the image source and offset when the preview shows one. */
  datatype Cleaned = Cleaned(
    name: string, category: string, quantity: Value, notes: Value, toBuy: bool,
    image: Option<Preview>)

  function Clean(i: Inputs): (r: Cleaned)
    ensures r.name == Trim(i.name)
    ensures r.category == if |Trim(i.category)| > 0 then Trim(i.category) else "Other"
    ensures r.quantity == TextOrNull(i.quantity) && r.notes == TextOrNull(i.notes)
    ensures r.toBuy == i.toBuy
    ensures r.image == if HasImage(i) then i.image else None
  {
    var category := Trim(i.category);
    Cleaned(
      Trim(i.name), if |category| > 0 then category else "Other",
      TextOrNull(i.quantity), TextOrNull(i.notes), i.toBuy,
      if HasImage(i) then i.image else None)
  }

  /** Document `d` holds what a save of `c` with the picked recipes
      writes. */
  predicate Holds(d: Doc, c: Cleaned, selected: seq<Id>)
  {
    && Name in d && d[Name] == Text(c.name)
    && Category in d && d[Category] == Text(c.category)
    && Quantity in d && d[Quantity] == c.quantity
    && Notes in d && d[Notes] == c.notes
    && ToBuy in d && d[ToBuy] == Flag(c.toBuy)
    && Recipes in d && d[Recipes] == List(selected)
    && UpdatedAt in d && d[UpdatedAt] == ServerTime
    && (c.image.Some? ==>
          ImageUrl in d && d[ImageUrl] == Text(c.image.value.src)
          && ImageOffsetY in d && d[ImageOffsetY] == Num(c.image.value.offset))
  }

  /** The `ingredientData` object: the cleaned values, the picked recipes
      and a fresh `updatedAt`, plus the image and its offset when there is
      one. */
  function IngredientFields(c: Cleaned, selected: seq<Id>): (r: Doc)
    ensures Holds(r, c, selected)
    ensures c.image.None? ==> ImageUrl !in r && ImageOffsetY !in r
    ensures r.Keys == {Name, Category, Quantity, Notes, ToBuy, Recipes, UpdatedAt}
                      + (if c.image.Some? then {ImageUrl, ImageOffsetY} else {})
  {
    var base := map[
      Name := Text(c.name), Category := Text(c.category), Quantity := c.quantity, Notes := c.notes,
      ToBuy := Flag(c.toBuy), Recipes := List(selected), UpdatedAt := ServerTime];
    match c.image
    case None => base
    case Some(img) => base[ImageUrl := Text(img.src)][ImageOffsetY := Num(img.offset)]
  }

  /** What the panel's close handler gets back from `saveIngredient`: the
      saved id (`null` when nothing was saved), the panel and the store. */
  datatype Saved = Saved(savedId: Option<Id>, panel: Panel, store: Collection)

  /** Whether `saveIngredient` reaches the store at all. */
  predicate WillWrite(p: Panel, user: Option<Id>)
  {
    user.Some? && |Trim(p.inputs.name)| > 0
  }

  /** The edit branch: `update(ingredientData)` on the edited document,
      which throws when the document is gone. */
  function UpdateIngredient(store: Collection, id: Id, c: Cleaned, selected: seq<Id>): (r: Option<Collection>)
    ensures r.None? <==> id !in store
    ensures r.Some? ==> r.value.Keys == store.Keys
    ensures r.Some? ==> forall other :: other in store && other != id ==> r.value[other] == store[other]
    ensures r.Some? ==> Holds(r.value[id], c, selected)
    ensures r.Some? ==> forall k :: k in store[id] && k !in IngredientFields(c, selected) ==> k in r.value[id] && r.value[id][k] == store[id][k]
  {
    Update(store, id, IngredientFields(c, selected))
  }

  /** The create branch: `add` of `ingredientData` with the owner and a
      creation time. */
  function CreateIngredient(store: Collection, n: Id, uid: Id, c: Cleaned, selected: seq<Id>): (r: Collection)
    requires n !in store
    ensures r.Keys == store.Keys + {n}
    ensures forall other :: other in store ==> r[other] == store[other]
    ensures Holds(r[n], c, selected)
    ensures FieldIs(r, n, UserId, Text(uid)) && FieldIs(r, n, CreatedAt, ServerTime)
  {
    Add(store, n, WithOwner(IngredientFields(c, selected), c, selected, uid))
  }

  /** `{...ingredientData, userId, createdAt}`: adding the owner and the
      creation time keeps the saved fields. */
  function WithOwner(d: Doc, c: Cleaned, selected: seq<Id>, uid: Id): (r: Doc)
    requires Holds(d, c, selected)
    ensures Holds(r, c, selected)
    ensures UserId in r && r[UserId] == Text(uid) && CreatedAt in r && r[CreatedAt] == ServerTime
  {
    d[UserId := Text(uid)][CreatedAt := ServerTime]
  }

  /** `saveIngredient()`. Nothing is saved without a user or with an empty
      trimmed name. With an edit target the document is updated (a missing
      document makes the update throw, which the function catches), and on
      success the edit target and the picked recipes are cleared. Without
      one a new document is added with the owner and a creation time, and
      the picked recipes are cleared. */
  function SaveIngredient(p: Panel, store: Collection, user: Option<Id>, answer: CreateOutcome): (r: Saved)
    requires answer.Created? ==> answer.newId !in store
    ensures r.savedId.None? <==>
      !WillWrite(p, user)
      || (EditTarget(p).Some? && EditTarget(p).value !in store)
      || (EditTarget(p).None? && answer.CreateFailed?)
    ensures r.savedId.None? ==> r.panel == p && r.store == store
    ensures r.savedId.Some? ==>
      r.panel.selected == [] && EditTarget(r.panel).None? && r.panel.inputs == p.inputs
      && r.savedId.value in r.store && Holds(r.store[r.savedId.value], Clean(p.inputs), p.selected)
    ensures r.savedId.Some? && EditTarget(p).Some? ==>
      r.savedId == EditTarget(p)
      && r.store.Keys == store.Keys
      && (forall other :: other in store && other != r.savedId.value ==> r.store[other] == store[other])
    ensures r.savedId.Some? && EditTarget(p).None? ==>
      r.savedId == Some(answer.newId)
      && r.store.Keys == store.Keys + {answer.newId}
      && (forall other :: other in store ==> r.store[other] == store[other])
      && FieldIs(r.store, answer.newId, UserId, Text(user.value))
      && FieldIs(r.store, answer.newId, CreatedAt, ServerTime)
  {
    if !WillWrite(p, user) then Saved(None, p, store)
    else
      var c := Clean(p.inputs);
      match EditTarget(p)
      case Some(id) =>
        (match UpdateIngredient(store, id, c, p.selected)
         case None => Saved(None, p, store)
         case Some(s) => Saved(Some(id), p.(editingId := None, selected := []), s))
      case None =>
        (match answer
         case CreateFailed => Saved(None, p, store)
         case Created(n) => Saved(Some(n), p.(selected := []), CreateIngredient(store, n, user.value, c, p.selected)))
  }

  /** A panel opened with "+ New Ingredient" always creates: a save either
      adds a new document or saves nothing. */
  lemma NewPanelCreates(p: Panel, store: Collection, user: Option<Id>, answer: CreateOutcome)
    requires answer.Created? ==> answer.newId !in store
    ensures var r := SaveIngredient(OpenIngredientPanel(p), store, user, answer);
      r.savedId.Some? ==> answer.Created? && r.savedId == Some(answer.newId) && answer.newId !in store
  {
  }

  /** A panel opened with "+ New Ingredient" and closed without a name
      saves nothing. */
  lemma BlankPanelSavesNothing(p: Panel, store: Collection, user: Option<Id>, answer: CreateOutcome)
    requires answer.Created? ==> answer.newId !in store
    ensures SaveIngredient(OpenIngredientPanel(p), store, user, answer).store == store
  {
    assert Trim("") == "";
  }

  /** The ingredient fields as `saveIngredient` itself writes them: a
      trimmed non-empty name and category, a trimmed non-empty text or
      `null` for quantity and notes, a flag and a list of recipe ids. */
  predicate Canonical(d: Doc)
  {
    && Name in d && d[Name].Text? && |d[Name].s| > 0 && IsTrimmed(d[Name].s)
    && Category in d && d[Category].Text? && |d[Category].s| > 0 && IsTrimmed(d[Category].s)
    && Quantity in d && (d[Quantity] == Null || (d[Quantity].Text? && |d[Quantity].s| > 0 && IsTrimmed(d[Quantity].s)))
    && Notes in d && (d[Notes] == Null || (d[Notes].Text? && |d[Notes].s| > 0 && IsTrimmed(d[Notes].s)))
    && ToBuy in d && d[ToBuy].Flag?
    && Recipes in d && d[Recipes].List?
  }

  /** Both documents hold the same value in field `k`. */
  predicate Agree(a: Doc, b: Doc, k: Field)
  {
    k in a && k in b && a[k] == b[k]
  }

  /** The fields the edit round trip is about. */
  predicate SameIngredient(a: Doc, b: Doc)
  {
    Agree(a, b, Name) && Agree(a, b, Category) && Agree(a, b, Quantity)
    && Agree(a, b, Notes) && Agree(a, b, ToBuy) && Agree(a, b, Recipes)
  }

  /** A stored text that is already trimmed and non-empty reads back as
      itself. */
  lemma StoredText(d: Doc, k: Field)
    requires k in d && d[k].Text? && |d[k].s| > 0 && IsTrimmed(d[k].s)
    ensures Trim(TextOr(d, k, "")) == d[k].s
  {
    TrimOfTrimmed(d[k].s);
  }

  /** A stored optional text (trimmed, or `null`) reads back as itself. */
  lemma StoredOptionalText(d: Doc, k: Field)
    requires k in d && (d[k] == Null || (d[k].Text? && |d[k].s| > 0 && IsTrimmed(d[k].s)))
    ensures TextOrNull(TextOr(d, k, "")) == d[k]
  {
    if d[k].Text? {
      StoredText(d, k);
    } else {
      assert TextOr(d, k, "") == "";
      assert Trim("") == "";
    }
  }

  /** The inputs filled from a stored ingredient clean back to its stored
      values. */
  lemma CleanOfStored(d: Doc)
    requires Canonical(d)
    ensures var c := Clean(InputsOf(d));
      Text(c.name) == d[Name] && |c.name| > 0 && Text(c.category) == d[Category]
      && c.quantity == d[Quantity] && c.notes == d[Notes] && Flag(c.toBuy) == d[ToBuy]
  {
    CleanedTexts(InputsOf(d), d);
    CleanedFlag(InputsOf(d), d);
  }

  lemma CleanedTexts(i: Inputs, d: Doc)
    requires Canonical(d)
    requires i.name == TextOr(d, Name, "") && i.category == TextOr(d, Category, "")
    requires i.quantity == TextOr(d, Quantity, "") && i.notes == TextOr(d, Notes, "")
    ensures var c := Clean(i);
      Text(c.name) == d[Name] && |c.name| > 0 && Text(c.category) == d[Category]
      && c.quantity == d[Quantity] && c.notes == d[Notes]
  {
    StoredText(d, Name);
    StoredText(d, Category);
    StoredOptionalText(d, Quantity);
    StoredOptionalText(d, Notes);
  }

  lemma CleanedFlag(i: Inputs, d: Doc)
    requires ToBuy in d && d[ToBuy].Flag?
    requires i.toBuy <==> ToBuy in d && Truthy(d[ToBuy])
    ensures Flag(Clean(i).toBuy) == d[ToBuy]
  {
  }

  /** Saving an edit of a stored ingredient with a name writes the cleaned
      inputs over it. */
  lemma SaveOfEdit(q: Panel, store: Collection, uid: Id, id: Id)
    requires EditTarget(q) == Some(id) && id in store && |Trim(q.inputs.name)| > 0
    ensures var r := SaveIngredient(q, store, Some(uid), CreateFailed);
      r.savedId == Some(id) && id in r.store && Holds(r.store[id], Clean(q.inputs), q.selected)
  {
  }

  lemma HoldsAgree(d: Doc, stored: Doc, c: Cleaned, selected: seq<Id>)
    requires Holds(d, c, selected)
    requires Name in stored && Text(c.name) == stored[Name]
    requires Category in stored && Text(c.category) == stored[Category]
    requires Quantity in stored && c.quantity == stored[Quantity]
    requires Notes in stored && c.notes == stored[Notes]
    requires ToBuy in stored && Flag(c.toBuy) == stored[ToBuy]
    requires Recipes in stored && List(selected) == stored[Recipes]
    ensures SameIngredient(d, stored)
  {
  }

  /** Opening a stored ingredient for editing and closing the panel without
      touching anything writes the same name, category, quantity, notes,
      to-buy flag and recipe links back. */
  lemma EditWithoutChangesKeepsIngredient(p: Panel, store: Collection, uid: Id, id: Id)
    requires |id| > 0 && id in store && Canonical(store[id])
    ensures var r := SaveIngredient(OpenForEdit(p, id, Found(store[id])), store, Some(uid), CreateFailed);
      r.savedId == Some(id) && id in r.store && SameIngredient(r.store[id], store[id])
  {
    var d := store[id];
    var q := OpenForEdit(p, id, Found(d));
    CleanOfStored(d);
    SaveOfEdit(q, store, uid, id);
    var r := SaveIngredient(q, store, Some(uid), CreateFailed);
    HoldsAgree(r.store[id], d, Clean(q.inputs), q.selected);
  }

  /** With `openIngredientForEdit` as written, the same round trip erases a
      stored recipe link: the selection left empty by the previous save is
      written over the document's `recipes`. */
  lemma AsWrittenEditDropsRecipes(uid: Id)
    ensures var d := map[Name := Text("Basil"), Category := Text("Other"), Quantity := Null,
                         Notes := Null, ToBuy := Flag(false), Recipes := List(["r1"])];
      var store := map["i1" := d];
      var p := Panel(None, BlankInputs, []);
      var r := SaveIngredient(OpenForEditAsWritten(p, "i1", Found(d)), store, Some(uid), CreateFailed);
      Canonical(d) && r.savedId == Some("i1") && r.store["i1"][Recipes] == List([])
  {
    var d := map[Name := Text("Basil"), Category := Text("Other"), Quantity := Null,
                 Notes := Null, ToBuy := Flag(false), Recipes := List(["r1"])];
    assert IsTrimmed("Basil") && IsTrimmed("Other");
    var q := OpenForEditAsWritten(Panel(None, BlankInputs, []), "i1", Found(d));
    assert q.inputs.name == "Basil";
    assert Trim("Basil") == "Basil" by { TrimOfTrimmed("Basil"); }
  }

  // ---------------------------------------------------------------------
  // Deleting an ingredient
  // ---------------------------------------------------------------------

  /** The recipe lists the ingredient among its related ingredients
      (`array-contains`). */
  predicate References(d: Doc, id: Id)
  {
    id in IdsOrEmpty(d, RelatedIngredients)
  }

  /** `relatedIngredients.filter(ingId => ingId !== id)`. */
  function WithoutId(ids: seq<Id>, id: Id): (r: seq<Id>)
    ensures id !in r
    ensures forall x :: x != id ==> Occurrences(r, x) == Occurrences(ids, x)
  {
    if |ids| == 0 then []
    else if ids[0] == id then WithoutId(ids[1..], id)
    else [ids[0]] + WithoutId(ids[1..], id)
  }

  /** Removal works part by part, so the ids that remain keep their
      order. */
  lemma {:induction false} WithoutIdConcat(a: seq<Id>, b: seq<Id>, id: Id)
    ensures WithoutId(a + b, id) == WithoutId(a, id) + WithoutId(b, id)
  {
    if |a| > 0 {
      assert (a + b)[0] == a[0] && (a + b)[1..] == a[1..] + b;
      WithoutIdConcat(a[1..], b, id);
    } else {
      assert a + b == b;
    }
  }

  /** A list without the id is left as it is. */
  lemma {:induction false} WithoutAbsentId(ids: seq<Id>, id: Id)
    requires id !in ids
    ensures WithoutId(ids, id) == ids
  {
    if |ids| > 0 {
      WithoutAbsentId(ids[1..], id);
      assert [ids[0]] + ids[1..] == ids;
    }
  }

  /** The batch of updates the delete handler commits: every recipe that
      references the ingredient gets the list without it and a fresh
      `updatedAt`; every other recipe is left alone, so when none matches
      nothing is written. */
  function Cascade(recipes: Collection, id: Id): (r: Collection)
    ensures r.Keys == recipes.Keys
    ensures forall k :: k in recipes && !References(recipes[k], id) ==> r[k] == recipes[k]
    ensures forall k :: k in recipes && References(recipes[k], id) ==>
      FieldIs(r, k, RelatedIngredients, List(WithoutId(IdsOrEmpty(recipes[k], RelatedIngredients), id)))
      && FieldIs(r, k, UpdatedAt, ServerTime)
      && r[k].Keys == recipes[k].Keys + {UpdatedAt}
      && (forall f :: f in recipes[k] && f != RelatedIngredients && f != UpdatedAt ==> r[k][f] == recipes[k][f])
  {
    map k | k in recipes ::
      if References(recipes[k], id) then
        recipes[k][RelatedIngredients := List(WithoutId(IdsOrEmpty(recipes[k], RelatedIngredients), id))][UpdatedAt := ServerTime]
      else recipes[k]
  }

  datatype Stores = Stores(recipes: Collection, ingredients: Collection)

  /** The delete handler: the cascade over the recipes, then the deletion
      of the ingredient itself. */
  function DeleteIngredient(s: Stores, id: Id): (r: Stores)
    ensures r.ingredients.Keys == s.ingredients.Keys - {id}
    ensures forall k :: k in s.ingredients && k != id ==> r.ingredients[k] == s.ingredients[k]
    ensures r.recipes == Cascade(s.recipes, id)
  {
    Stores(Cascade(s.recipes, id), Delete(s.ingredients, id))
  }

  /** After the deletion no recipe refers to the ingredient any more. */
  lemma NoDanglingReference(s: Stores, id: Id)
    ensures forall k :: k in DeleteIngredient(s, id).recipes ==> !References(DeleteIngredient(s, id).recipes[k], id)
  {
    var r := DeleteIngredient(s, id).recipes;
    forall k | k in r ensures !References(r[k], id) {
      if References(s.recipes[k], id) {
        assert IdsOrEmpty(r[k], RelatedIngredients) == WithoutId(IdsOrEmpty(s.recipes[k], RelatedIngredients), id);
      }
    }
  }

  /** Running the cascade a second time changes nothing. */
  lemma CascadeIdempotent(recipes: Collection, id: Id)
    ensures Cascade(Cascade(recipes, id), id) == Cascade(recipes, id)
  {
    var once := Cascade(recipes, id);
    NoDanglingReference(Stores(recipes, map[]), id);
    assert forall k :: k in once ==> !References(once[k], id);
  }

  // ---------------------------------------------------------------------
  // The shopping table
  // ---------------------------------------------------------------------

  /** A stored ingredient with its id. */
  datatype Item = Item(id: Id, doc: Doc)

  datatype ShopSort = ByItemName | ByItemCategory | ByItemDate | OtherShopSort

  function ItemName(i: Item): string { TextOr(i.doc, Name, "Untitled") }
  function ItemCategory(i: Item): string { TextOr(i.doc, Category, "Other") }

  /** The comparator of `loadShoppingIngredients`: name and category in
      alphabetical order unless the order is "desc", date newest first
      unless it is "asc". */
  function CompareShopping(sortBy: ShopSort, order: SortOrder, a: Item, b: Item): int
  {
    var base :=
      match sortBy
      case ByItemName => Collate(ItemName(a), ItemName(b))
      case ByItemCategory => Collate(ItemCategory(a), ItemCategory(b))
      case ByItemDate => MillisOrZero(b.doc, CreatedAt) - MillisOrZero(a.doc, CreatedAt)
      case OtherShopSort => 0;
    if sortBy != ByItemDate && order == Desc then -base
    else if sortBy == ByItemDate && order == Asc then -base
    else base
  }

  lemma CompareShoppingAntisymmetric(sortBy: ShopSort, order: SortOrder, a: Item, b: Item)
    ensures CompareShopping(sortBy, order, a, b) == -CompareShopping(sortBy, order, b, a)
  {
    CollateAntisymmetric(ItemName(a), ItemName(b));
    CollateAntisymmetric(ItemCategory(a), ItemCategory(b));
  }

  /** "asc" and "desc" give opposite orders for every sort key. */
  lemma ShoppingOrderFlagReverses(sortBy: ShopSort, a: Item, b: Item)
    ensures CompareShopping(sortBy, Asc, a, b) == -CompareShopping(sortBy, Desc, a, b)
  {
  }

  /** The comparator handed to `sort`. */
  function ShoppingOrder(sortBy: ShopSort, order: SortOrder): (Item, Item) -> int
  {
    (a: Item, b: Item) => CompareShopping(sortBy, order, a, b)
  }

  lemma ShoppingOrderAntisymmetric(sortBy: ShopSort, order: SortOrder)
    ensures Antisymmetric(ShoppingOrder(sortBy, order))
  {
    forall a: Item, b: Item
      ensures ShoppingOrder(sortBy, order)(a, b) == -ShoppingOrder(sortBy, order)(b, a)
    {
      CompareShoppingAntisymmetric(sortBy, order, a, b);
    }
  }

  /** Two items the comparator ties are equal in the sort key. */
  lemma ShoppingTiesTransitive(sortBy: ShopSort, order: SortOrder)
    ensures TiesTransitive(ShoppingOrder(sortBy, order))
  {
    var cmp := ShoppingOrder(sortBy, order);
    forall a: Item, b: Item, c: Item | cmp(a, b) == 0 && cmp(b, c) == 0
      ensures cmp(a, c) == 0
    {
      CollateZeroIffEqual(ItemName(a), ItemName(b));
      CollateZeroIffEqual(ItemName(b), ItemName(c));
      CollateZeroIffEqual(ItemName(a), ItemName(c));
      CollateZeroIffEqual(ItemCategory(a), ItemCategory(b));
      CollateZeroIffEqual(ItemCategory(b), ItemCategory(c));
      CollateZeroIffEqual(ItemCategory(a), ItemCategory(c));
    }
  }

  /** `items.sort(...)`: a permutation in which each item compares at most
      equal to the next. */
  function SortShopping(items: seq<Item>, sortBy: ShopSort, order: SortOrder): (r: seq<Item>)
    ensures multiset(r) == multiset(items)
    ensures forall i :: 0 <= i < |r| - 1 ==> CompareShopping(sortBy, order, r[i], r[i + 1]) <= 0
  {
    var cmp := ShoppingOrder(sortBy, order);
    ShoppingOrderAntisymmetric(sortBy, order);
    var r := SortBy(items, cmp);
    assert SortedBy(r, cmp);
    r
  }

  /** The sort is stable: items that tie with `k` (same name, category or
      date) keep the order the store listed them in. */
  lemma SortShoppingStable(items: seq<Item>, sortBy: ShopSort, order: SortOrder, k: Item)
    ensures TiedWith(SortShopping(items, sortBy, order), ShoppingOrder(sortBy, order), k)
         == TiedWith(items, ShoppingOrder(sortBy, order), k)
  {
    ShoppingOrderAntisymmetric(sortBy, order);
    ShoppingTiesTransitive(sortBy, order);
    SortByStable(items, ShoppingOrder(sortBy, order), k);
  }

  /** With the default flags ("asc"), names and categories come out in
      alphabetical order and dates oldest first; with "desc" dates come out
      newest first. */
  lemma ShoppingDirections(items: seq<Item>, i: nat)
    requires i + 1 < |items|
    ensures var r := SortShopping(items, ByItemName, Asc);
      |r| == |items| && Collate(ItemName(r[i]), ItemName(r[i + 1])) <= 0
    ensures var r := SortShopping(items, ByItemCategory, Asc);
      |r| == |items| && Collate(ItemCategory(r[i]), ItemCategory(r[i + 1])) <= 0
    ensures var r := SortShopping(items, ByItemDate, Desc);
      |r| == |items| && MillisOrZero(r[i].doc, CreatedAt) >= MillisOrZero(r[i + 1].doc, CreatedAt)
  {
    var r1 := SortShopping(items, ByItemName, Asc);
    var r2 := SortShopping(items, ByItemCategory, Asc);
    var r3 := SortShopping(items, ByItemDate, Desc);
    assert |multiset(r1)| == |multiset(items)| && |multiset(r2)| == |multiset(items)| && |multiset(r3)| == |multiset(items)|;
    assert CompareShopping(ByItemName, Asc, r1[i], r1[i + 1]) <= 0;
    assert CompareShopping(ByItemCategory, Asc, r2[i], r2[i + 1]) <= 0;
    assert CompareShopping(ByItemDate, Desc, r3[i], r3[i + 1]) <= 0;
  }
}

=== FILE: recipe_draft.dfy ===
/** The recipe editing panel as a state machine (public/app.js and
    public/recipes.js). The editor holds the draft id, the loading flag,
    the in-flight creation flag, the form and the selected related
    ingredients. Each handler is a function from an editor and the
    `recipes` collection to the next editor and collection. The
    asynchronous creation of the backing document is split in two steps:
    `AutoSave` starts it, and `CreateCompletes` applies the store's answer,
    so that edits arriving in between are explicit. */
module RecipeDraft {
  import opened Common
  import opened Documents
  import opened CuisineRefs
  import opened CuisineTags

  /** The panel shows five rating stars, valued 1 to 5. */
  const StarCount := 5

  /** The cover image preview: its source, whether it carries the
      `has-image` class, and its `style.top`. */
  datatype Image = Image(src: string, shown: bool, top: string)

  /** The values of the panel's inputs. `minutes` and `servings` are the
      raw text of the number inputs; `stars[i]` tells whether the star
      valued `i + 1` is active. */
  datatype Form = Form(
    title: string,
    tags: seq<Tag>,
    minutes: string,
    servings: string,
    ingredients: string,
    instructions: string,
    stars: seq<bool>,
    image: Image)

  /** `currentDraftId`, `isLoadingRecipe`, `isCreatingDoc`, the form and
      `selectedIngredientsForRecipe`. */
  datatype Editor = Editor(
    draftId: Option<Id>,
    loading: bool,
    creating: bool,
    form: Form,
    related: seq<Id>)

  /** What an edit led to. */
  datatype Outcome =
    | Ignored          // a recipe is being loaded into the form
    | Dropped          // no draft yet and a creation is in flight
    | NoUser           // no draft yet and nobody is signed in
    | CreateStarted    // the backing document is being created
    | CreateRejected   // the store refused to create it
    | Written          // the field was written to the draft document
    | UpdateRejected   // the draft document no longer exists
    | Unchanged        // the edit changed nothing, so nothing was saved

  datatype Step = Step(outcome: Outcome, editor: Editor, store: Collection)

  // ---------------------------------------------------------------------
  // autoSave
  // ---------------------------------------------------------------------

  /** The fields of an edit: the edited field and the server time as
      `updatedAt`. */
  function EditFields(field: Field, value: Value): (r: Doc)
    ensures r.Keys == {field, UpdatedAt}
    ensures r[UpdatedAt] == ServerTime
    ensures field != UpdatedAt ==> r[field] == value
  {
    map[field := value][UpdatedAt := ServerTime]
  }

  /** The document `autoSave` creates for a fresh draft. */
  function DraftDoc(uid: Id): (r: Doc)
    ensures r.Keys == {UserId, CreatedAt, UpdatedAt}
    ensures r[UserId] == Text(uid) && r[CreatedAt] == ServerTime && r[UpdatedAt] == ServerTime
  {
    map[UserId := Text(uid), CreatedAt := ServerTime, UpdatedAt := ServerTime]
  }

  /** The `update` that ends `autoSave` once a draft id is known. */
  function WriteEdit(e: Editor, store: Collection, id: Id, field: Field, value: Value): (r: Step)
    ensures r.editor == e
    ensures r.outcome == UpdateRejected <==> id !in store
    ensures r.outcome == UpdateRejected ==> r.store == store
    ensures r.outcome != UpdateRejected ==> r.outcome == Written
    ensures r.outcome == Written ==>
      r.store.Keys == store.Keys
      && (forall other :: other in store && other != id ==> r.store[other] == store[other])
      && r.store[id].Keys == store[id].Keys + {field, UpdatedAt}
      && r.store[id][UpdatedAt] == ServerTime
      && (field != UpdatedAt ==> r.store[id][field] == value)
      && (forall k :: k in store[id] && k != field && k != UpdatedAt ==> r.store[id][k] == store[id][k])
  {
    match Update(store, id, EditFields(field, value))
    case None => Step(UpdateRejected, e, store)
    case Some(s) => Step(Written, e, s)
  }

  /** `autoSave(field, value)` as far as its first `await`: ignored while
      loading; with no draft id it either drops the edit (a creation is in
      flight), gives up (nobody signed in) or starts the creation; with a
      draft id it writes the field. `user` is the signed-in user's uid. */
  function AutoSave(e: Editor, store: Collection, user: Option<Id>, field: Field, value: Value): (r: Step)
    ensures e.loading ==> r == Step(Ignored, e, store)
    ensures r.outcome == Dropped <==> !e.loading && e.draftId.None? && e.creating
    ensures r.outcome == NoUser <==> !e.loading && e.draftId.None? && !e.creating && user.None?
    ensures r.outcome == CreateStarted <==> !e.loading && e.draftId.None? && !e.creating && user.Some?
    ensures r.outcome == CreateStarted ==> r.editor == e.(creating := true) && r.store == store
    ensures r.outcome == Dropped || r.outcome == NoUser ==> r.editor == e && r.store == store
    ensures r.outcome == UpdateRejected <==> !e.loading && e.draftId.Some? && e.draftId.value !in store
    ensures r.outcome == UpdateRejected ==> r.editor == e && r.store == store
    ensures r.outcome == Written <==> !e.loading && e.draftId.Some? && e.draftId.value in store
    ensures r.outcome == Written ==>
      r.editor == e
      && r.store.Keys == store.Keys
      && (forall other :: other in store && other != e.draftId.value ==> r.store[other] == store[other])
      && FieldIs(r.store, e.draftId.value, UpdatedAt, ServerTime)
      && (field != UpdatedAt ==> FieldIs(r.store, e.draftId.value, field, value))
    ensures r.store.Keys == store.Keys
  {
    if e.loading then Step(Ignored, e, store)
    else if e.draftId.None? then
      if e.creating then Step(Dropped, e, store)
      else if user.None? then Step(NoUser, e.(creating := false), store)
      else Step(CreateStarted, e.(creating := true), store)
    else WriteEdit(e, store, e.draftId.value, field, value)
  }

  /** The rest of `autoSave` after `CreateStarted`: the store's answer to
      the `add`. On success the fresh id becomes the draft id, the flag is
      cleared and the edit that started the creation is written to the new
      document; on failure only the flag is cleared. */
  function CreateCompletes(e: Editor, store: Collection, uid: Id, field: Field, value: Value,
                           answer: CreateOutcome): (r: Step)
    requires answer.Created? ==> answer.newId !in store
    ensures answer.CreateFailed? ==> r == Step(CreateRejected, e.(creating := false), store)
    ensures answer.Created? ==>
      var n := answer.newId;
      r.outcome == Written
      && r.editor == e.(draftId := Some(n), creating := false)
      && r.store.Keys == store.Keys + {n}
      && (forall other :: other in store ==> r.store[other] == store[other])
      && FieldIs(r.store, n, UpdatedAt, ServerTime)
      && (field != UpdatedAt ==> FieldIs(r.store, n, field, value))
      && (field != UserId ==> FieldIs(r.store, n, UserId, Text(uid)))
      && (field != CreatedAt ==> FieldIs(r.store, n, CreatedAt, ServerTime))
  {
    match answer
    case CreateFailed => Step(CreateRejected, e.(creating := false), store)
    case Created(n) =>
      var e' := e.(draftId := Some(n), creating := false);
      WriteToNewDraft(e', store, n, uid, field, value);
      WriteEdit(e', Add(store, n, DraftDoc(uid)), n, field, value)
  }

  /** The edit that started a creation, written to the document just
      added. */
  lemma WriteToNewDraft(e: Editor, store: Collection, n: Id, uid: Id, field: Field, value: Value)
    requires n !in store
    ensures var r := WriteEdit(e, Add(store, n, DraftDoc(uid)), n, field, value);
      r.outcome == Written
      && r.editor == e
      && r.store.Keys == store.Keys + {n}
      && (forall other :: other in store ==> r.store[other] == store[other])
      && FieldIs(r.store, n, UpdatedAt, ServerTime)
      && (field != UpdatedAt ==> FieldIs(r.store, n, field, value))
      && (field != UserId ==> FieldIs(r.store, n, UserId, Text(uid)))
      && (field != CreatedAt ==> FieldIs(r.store, n, CreatedAt, ServerTime))
  {
    NewDraftStore(e, store, n, uid, field, value);
    NewDraftFields(e, store, n, uid, field, value);
  }

  lemma NewDraftStore(e: Editor, store: Collection, n: Id, uid: Id, field: Field, value: Value)
    requires n !in store
    ensures var r := WriteEdit(e, Add(store, n, DraftDoc(uid)), n, field, value);
      r.outcome == Written
      && r.editor == e
      && r.store.Keys == store.Keys + {n}
      && (forall other :: other in store ==> r.store[other] == store[other])
  {
    var added := Add(store, n, DraftDoc(uid));
    var r := WriteEdit(e, added, n, field, value);
    assert n in added;
    assert r.outcome == Written && r.store.Keys == added.Keys;
    forall other | other in store
      ensures r.store[other] == store[other]
    {
      assert other in added && other != n;
    }
  }

  lemma NewDraftFields(e: Editor, store: Collection, n: Id, uid: Id, field: Field, value: Value)
    requires n !in store
    ensures var r := WriteEdit(e, Add(store, n, DraftDoc(uid)), n, field, value);
      FieldIs(r.store, n, UpdatedAt, ServerTime)
      && (field != UpdatedAt ==> FieldIs(r.store, n, field, value))
      && (field != UserId ==> FieldIs(r.store, n, UserId, Text(uid)))
      && (field != CreatedAt ==> FieldIs(r.store, n, CreatedAt, ServerTime))
  {
    var added := Add(store, n, DraftDoc(uid));
    var d := DraftDoc(uid);
    assert n in added && added[n] == d && UserId in d && CreatedAt in d;
    EditWrites(e, added, n, field, value);
    if field != UserId {
      EditKeeps(e, added, n, field, value, UserId);
    }
    if field != CreatedAt {
      EditKeeps(e, added, n, field, value, CreatedAt);
    }
  }

  /** An edit written to a stored document holds the new value and a fresh
      `updatedAt`. */
  lemma EditWrites(e: Editor, c: Collection, id: Id, field: Field, value: Value)
    requires id in c
    ensures var r := WriteEdit(e, c, id, field, value);
      FieldIs(r.store, id, UpdatedAt, ServerTime) && (field != UpdatedAt ==> FieldIs(r.store, id, field, value))
  {
  }

  /** An edit leaves the document's other fields as they were. */
  lemma EditKeeps(e: Editor, c: Collection, id: Id, field: Field, value: Value, k: Field)
    requires id in c && k in c[id] && k != field && k != UpdatedAt
    ensures FieldIs(WriteEdit(e, c, id, field, value).store, id, k, c[id][k])
  {
  }

  /** An editor with no draft and nothing pending, as `openSidePanel`
      leaves it. */
  predicate Fresh(e: Editor)
  {
    e.draftId.None? && !e.loading && !e.creating
  }

  /** The first edit on a fresh draft creates exactly one document, holding
      the owner, both timestamps and the edited field; later edits go to
      that document and create nothing. */
  lemma FirstEditCreatesOneDocument(e: Editor, store: Collection, uid: Id, field: Field, value: Value,
                                    n: Id, field2: Field, value2: Value, user2: Option<Id>)
    requires Fresh(e) && n !in store
    requires field != UserId && field != CreatedAt && field != UpdatedAt
    ensures var s1 := AutoSave(e, store, Some(uid), field, value);
      s1.outcome == CreateStarted
      && var s2 := CreateCompletes(s1.editor, s1.store, uid, field, value, Created(n));
      s2.store.Keys == store.Keys + {n}
      && s2.store[n] == map[UserId := Text(uid), CreatedAt := ServerTime, UpdatedAt := ServerTime, field := value]
      && s2.editor.draftId == Some(n) && !s2.editor.creating
      && var s3 := AutoSave(s2.editor, s2.store, user2, field2, value2);
      s3.outcome == Written && s3.store.Keys == s2.store.Keys && s3.editor.draftId == Some(n)
  {
    StartsCreation(e, store, uid, field, value);
    var e1 := e.(creating := true);
    CreatedDocument(e1, store, uid, field, value, n);
    DraftWithEdit(uid, field, value);
    var s2 := CreateCompletes(e1, store, uid, field, value, Created(n));
    WritesToDraft(s2.editor, s2.store, user2, field2, value2);
  }

  /** The draft fields with an edit of a field of the recipe written over
      them. */
  lemma DraftWithEdit(uid: Id, field: Field, value: Value)
    requires field != UserId && field != CreatedAt && field != UpdatedAt
    ensures DraftDoc(uid) + EditFields(field, value)
         == map[UserId := Text(uid), CreatedAt := ServerTime, UpdatedAt := ServerTime, field := value]
  {
    var expected := map[UserId := Text(uid), CreatedAt := ServerTime, UpdatedAt := ServerTime, field := value];
    assert (DraftDoc(uid) + EditFields(field, value)).Keys == expected.Keys;
  }

  lemma StartsCreation(e: Editor, store: Collection, uid: Id, field: Field, value: Value)
    requires Fresh(e)
    ensures AutoSave(e, store, Some(uid), field, value) == Step(CreateStarted, e.(creating := true), store)
  {
  }

  lemma WritesToDraft(e: Editor, store: Collection, user: Option<Id>, field: Field, value: Value)
    requires !e.loading && e.draftId.Some? && e.draftId.value in store
    ensures var s := AutoSave(e, store, user, field, value);
      s.outcome == Written && s.store.Keys == store.Keys && s.editor == e
  {
  }

  lemma DropsWhileCreating(e: Editor, store: Collection, user: Option<Id>, field: Field, value: Value)
    requires !e.loading && e.draftId.None? && e.creating
    ensures AutoSave(e, store, user, field, value) == Step(Dropped, e, store)
  {
  }

  /** The document a completed creation leaves: the draft fields with the
      edit written over them. */
  lemma CreatedDocument(e: Editor, store: Collection, uid: Id, field: Field, value: Value, n: Id)
    requires n !in store
    ensures var s := CreateCompletes(e, store, uid, field, value, Created(n));
      s.store.Keys == store.Keys + {n} && s.store[n] == DraftDoc(uid) + EditFields(field, value)
      && s.store[n].Keys == {UserId, CreatedAt, UpdatedAt, field}
      && s.editor == e.(draftId := Some(n), creating := false)
  {
    var added := Add(store, n, DraftDoc(uid));
    assert Update(added, n, EditFields(field, value)) == Some(added[n := DraftDoc(uid) + EditFields(field, value)]);
  }

  /** An edit made while the first creation is in flight is lost: nothing
      is written for it, then or when the creation completes, and no
      second document is created. */
  lemma EditDuringCreationIsDropped(e: Editor, store: Collection, uid: Id, field: Field, value: Value,
                                    user2: Option<Id>, field2: Field, value2: Value, n: Id)
    requires Fresh(e) && n !in store
    requires field2 != field && field2 != UserId && field2 != CreatedAt && field2 != UpdatedAt
    ensures var s1 := AutoSave(e, store, Some(uid), field, value);
      var s2 := AutoSave(s1.editor, s1.store, user2, field2, value2);
      s2.outcome == Dropped && s2.store == store && s2.editor == s1.editor
      && var s3 := CreateCompletes(s2.editor, s2.store, uid, field, value, Created(n));
      s3.store.Keys == store.Keys + {n} && field2 !in s3.store[n]
  {
    StartsCreation(e, store, uid, field, value);
    var e1 := e.(creating := true);
    DropsWhileCreating(e1, store, user2, field2, value2);
    CreatedDocument(e1, store, uid, field, value, n);
    DraftLeavesOut(uid, field, value, field2);
  }

  /** The draft fields with an edit written over them hold no other
      field. */
  lemma DraftLeavesOut(uid: Id, field: Field, value: Value, other: Field)
    requires other != field && other != UserId && other != CreatedAt && other != UpdatedAt
    ensures other !in DraftDoc(uid) + EditFields(field, value)
  {
  }

  /** When nobody is signed in or the creation fails, the flag is reset
      and no draft id is adopted, so the next edit tries to create the
      document again. */
  lemma FailedCreationIsRetried(e: Editor, store: Collection, uid: Id, field: Field, value: Value,
                                field2: Field, value2: Value)
    requires Fresh(e)
    ensures var s := AutoSave(e, store, None, field, value);
      s.outcome == NoUser && Fresh(s.editor) && s.store == store
      && AutoSave(s.editor, s.store, Some(uid), field2, value2).outcome == CreateStarted
    ensures var s1 := AutoSave(e, store, Some(uid), field, value);
      var s2 := CreateCompletes(s1.editor, s1.store, uid, field, value, CreateFailed);
      s2.outcome == CreateRejected && Fresh(s2.editor) && s2.store == store
      && AutoSave(s2.editor, s2.store, Some(uid), field2, value2).outcome == CreateStarted
  {
  }

  // ---------------------------------------------------------------------
  // Inputs of the panel
  // ---------------------------------------------------------------------

  /** The stars shown for a rating of `k`: exactly those valued at most
      `k` are active. */
  function StarsUpTo(k: int): (r: seq<bool>)
    ensures |r| == StarCount
    ensures forall i :: 0 <= i < StarCount ==> (r[i] <==> i + 1 <= k)
  {
    seq(StarCount, i requires 0 <= i < StarCount => i + 1 <= k)
  }

  lemma {:induction false} CountTruePrefix(s: seq<bool>, k: nat)
    requires k <= |s|
    requires forall i :: 0 <= i < |s| ==> (s[i] <==> i < k)
    ensures CountTrue(s) == k
    decreases |s|
  {
    if |s| > 0 {
      if k > 0 {
        CountTruePrefix(s[1..], k - 1);
      } else {
        CountTruePrefix(s[1..], 0);
      }
    }
  }

  /** The number of active stars is the rating, clamped to 0..5. */
  lemma ActiveStarsCount(k: int)
    ensures CountTrue(StarsUpTo(k)) == if k < 0 then 0 else if k > StarCount then StarCount else k
  {
    var c := if k < 0 then 0 else if k > StarCount then StarCount else k;
    CountTruePrefix(StarsUpTo(k), c);
  }

  /** Clicking the star valued `k`: the stars up to `k` light up and the
      rating `k` is saved. */
  function ClickStar(e: Editor, store: Collection, user: Option<Id>, k: int): (r: Step)
    ensures r.editor.form.stars == StarsUpTo(k)
    ensures 0 <= k <= StarCount ==> CountTrue(r.editor.form.stars) == k
    ensures r.outcome == Written ==> e.draftId.Some? && FieldIs(r.store, e.draftId.value, Rating, Num(k))
    ensures e.loading ==> r.outcome == Ignored && r.store == store
  {
    ActiveStarsCount(k);
    AutoSave(e.(form := e.form.(stars := StarsUpTo(k))), store, user, Rating, Num(k))
  }

  /** Typing `text` into the minutes or servings input saves
      `parseInt(text) || 0`. */
  function TypeNumber(e: Editor, store: Collection, user: Option<Id>, f: Field, text: string): (r: Step)
    requires f == Minutes || f == Servings
    ensures (if f == Minutes then r.editor.form.minutes else r.editor.form.servings) == text
    ensures r.outcome == Written ==> e.draftId.Some? && FieldIs(r.store, e.draftId.value, f, Num(IntOrZero(text)))
  {
    var form := if f == Minutes then e.form.(minutes := text) else e.form.(servings := text);
    AutoSave(e.(form := form), store, user, f, Num(IntOrZero(text)))
  }

  /** Typing a number's decimal text saves that number; typing text that
      does not start with a number saves 0. */
  lemma TypedNumberIsSaved(e: Editor, store: Collection, user: Option<Id>, f: Field, n: int, text: string)
    requires f == Minutes || f == Servings
    ensures var r := TypeNumber(e, store, user, f, IntToDecimal(n));
      r.outcome == Written ==> FieldIs(r.store, e.draftId.value, f, Num(n))
    ensures ParseInt(text).None? ==>
      var r := TypeNumber(e, store, user, f, text);
      r.outcome == Written ==> FieldIs(r.store, e.draftId.value, f, Num(0))
  {
    ParseIntOfDecimal(n);
  }

  /** Typing into the title, ingredients or instructions input saves the
      raw text. */
  function TypeText(e: Editor, store: Collection, user: Option<Id>, f: Field, text: string): (r: Step)
    requires f == Title || f == Ingredients || f == Instructions
    ensures (if f == Title then r.editor.form.title
             else if f == Ingredients then r.editor.form.ingredients
             else r.editor.form.instructions) == text
    ensures r.outcome == Written ==> e.draftId.Some? && FieldIs(r.store, e.draftId.value, f, Text(text))
  {
    var form :=
      if f == Title then e.form.(title := text)
      else if f == Ingredients then e.form.(ingredients := text)
      else e.form.(instructions := text);
    AutoSave(e.(form := form), store, user, f, Text(text))
  }

  /** Picking a cuisine for the recipe: nothing happens when a tag with
      that name is already shown; otherwise the tags are re-rendered with
      the new entry and the whole list is saved as `cuisines`. */
  function AddTag(e: Editor, store: Collection, user: Option<Id>, picked: CuisineRef,
                  names: map<Id, string>): (r: Step)
    ensures NameOf(picked) in Names(CurrentCuisines(e.form.tags)) ==> r == Step(Unchanged, e, store)
    ensures r.outcome != Unchanged ==>
      var now := AddCuisineTag(CurrentCuisines(e.form.tags), picked);
      now.Some? && r.editor.form.tags == RenderTags(now.value, names)
      && (r.outcome == Written ==> e.draftId.Some? && FieldIs(r.store, e.draftId.value, Cuisines, Entries(now.value)))
  {
    match AddCuisineTag(CurrentCuisines(e.form.tags), picked)
    case None => Step(Unchanged, e, store)
    case Some(now) =>
      AutoSave(e.(form := e.form.(tags := RenderTags(now, names))), store, user, Cuisines, Entries(now))
  }

  /** Removing the tag at `index` and saving the remaining list. */
  function RemoveTag(e: Editor, store: Collection, user: Option<Id>, index: nat,
                     names: map<Id, string>): (r: Step)
    ensures var now := RemoveCuisineTag(CurrentCuisines(e.form.tags), index);
      r.editor.form.tags == RenderTags(now, names)
      && (r.outcome == Written ==> e.draftId.Some? && FieldIs(r.store, e.draftId.value, Cuisines, Entries(now)))
  {
    var now := RemoveCuisineTag(CurrentCuisines(e.form.tags), index);
    AutoSave(e.(form := e.form.(tags := RenderTags(now, names))), store, user, Cuisines, Entries(now))
  }

  // ---------------------------------------------------------------------
  // Opening the panel
  // ---------------------------------------------------------------------

  /** The form `openSidePanel` shows: every input blank, no tag, no active
      star, no image; the image's offset is left as it was. */
  function BlankForm(f: Form): (r: Form)
    ensures r.title == "" && r.tags == [] && r.minutes == "" && r.servings == ""
    ensures r.ingredients == "" && r.instructions == ""
    ensures |r.stars| == StarCount && CountTrue(r.stars) == 0
    ensures r.image.src == "" && !r.image.shown && r.image.top == f.image.top
  {
    ActiveStarsCount(0);
    Form("", [], "", "", "", "", StarsUpTo(0), f.image.(src := "", shown := false))
  }

  /** `openSidePanel()` for a new recipe: without the panel or its overlay
      nothing changes; otherwise draft id, both flags, related ingredients
      and the form are reset. No store call is made. */
  function OpenSidePanel(e: Editor, panelPresent: bool): (r: Editor)
    ensures !panelPresent ==> r == e
    ensures panelPresent ==> Fresh(r) && r.related == [] && r.form == BlankForm(e.form)
  {
    if !panelPresent then e else Editor(None, false, false, BlankForm(e.form), [])
  }

  /** `minutes || ""` shown in a number input. */
  function NumberText(d: Doc, k: Field): (r: string)
    ensures NumOrZero(d, k) == 0 <==> r == ""
    ensures IntOrZero(r) == NumOrZero(d, k)
  {
    var n := NumOrZero(d, k);
    if n == 0 then IntOrZeroOfEmpty(); "" else IntOrZeroOfDecimal(n); IntToDecimal(n)
  }

  /** `imagePosition?.top || "0px"`. */
  function TopOr(d: Doc): (r: string)
    ensures r != ""
  {
    if ImagePosition in d && d[ImagePosition].Position? && d[ImagePosition].top != "" then d[ImagePosition].top
    else "0px"
  }

  /** The form filled from a stored recipe, every absent or falsy field
      shown as its default; `names` maps cuisine ids to names for entries
      stored without one. */
  function Populate(f: Form, d: Doc, names: map<Id, string>): (r: Form)
    ensures r.title == TextOr(d, Title, "")
    ensures CurrentCuisines(r.tags) == CurrentCuisines(RenderTags(EntriesOf(d), names))
    ensures IntOrZero(r.minutes) == NumOrZero(d, Minutes)
    ensures IntOrZero(r.servings) == NumOrZero(d, Servings)
    ensures r.ingredients == TextOr(d, Ingredients, "") && r.instructions == TextOr(d, Instructions, "")
    ensures |r.stars| == StarCount && forall i :: 0 <= i < StarCount ==> (r.stars[i] <==> i + 1 <= NumOrZero(d, Rating))
    ensures TextOr(d, ImageUrl, "") != "" ==> r.image == Image(TextOr(d, ImageUrl, ""), true, TopOr(d))
    ensures TextOr(d, ImageUrl, "") == "" ==> r.image == f.image.(src := "", shown := false)
  {
    var minutes := NumberText(d, Minutes);
    var servings := NumberText(d, Servings);
    var url := TextOr(d, ImageUrl, "");
    Form(
      TextOr(d, Title, ""),
      RenderTags(EntriesOf(d), names),
      minutes,
      servings,
      TextOr(d, Ingredients, ""),
      TextOr(d, Instructions, ""),
      StarsUpTo(NumOrZero(d, Rating)),
      if url != "" then Image(url, true, TopOr(d)) else f.image.(src := "", shown := false))
  }

  /** The synchronous start of `openExistingRecipe(id)`: loading is set,
      the creation flag cleared and the id adopted before anything is
      fetched; without the panel, loading is cleared again at once. */
  function BeginOpenExisting(e: Editor, id: Id, panelPresent: bool): (r: Editor)
    ensures r.draftId == Some(id) && !r.creating
    ensures r.loading <==> panelPresent
    ensures r.form == e.form && r.related == e.related
  {
    var started := e.(loading := true, creating := false, draftId := Some(id));
    if panelPresent then started else started.(loading := false)
  }

  /** The end of `openExistingRecipe`, once the fetch has answered: a found
      recipe fills the form and the related ingredients; a missing one or
      a failed fetch leaves them alone. Loading is cleared in every case
      and the draft id stays. */
  function FinishOpenExisting(e: Editor, answer: Fetch, names: map<Id, string>): (r: Editor)
    ensures !r.loading && r.draftId == e.draftId && r.creating == e.creating
    ensures answer.Found? ==> r.form == Populate(e.form, answer.doc, names)
    ensures answer.Found? ==> r.related == IdsOrEmpty(answer.doc, RelatedIngredients)
    ensures !answer.Found? ==> r.form == e.form && r.related == e.related
  {
    match answer
    case Found(d) =>
      e.(form := Populate(e.form, d, names), related := IdsOrEmpty(d, RelatedIngredients), loading := false)
    case _ => e.(loading := false)
  }

  function OpenExistingRecipe(e: Editor, id: Id, panelPresent: bool, answer: Fetch,
                              names: map<Id, string>): (r: Editor)
    ensures !r.loading && !r.creating && r.draftId == Some(id)
    ensures panelPresent && answer.Found? ==> r.form == Populate(e.form, answer.doc, names)
    ensures !(panelPresent && answer.Found?) ==> r.form == e.form && r.related == e.related
  {
    var started := BeginOpenExisting(e, id, panelPresent);
    if panelPresent then FinishOpenExisting(started, answer, names) else started
  }

  /** While a recipe is being fetched, no edit reaches the store. */
  lemma NoEditWhileLoading(e: Editor, id: Id, store: Collection, user: Option<Id>, field: Field, value: Value)
    ensures var r := AutoSave(BeginOpenExisting(e, id, true), store, user, field, value);
      r.outcome == Ignored && r.store == store
  {
  }

  // ---------------------------------------------------------------------
  // finalizeRecipeSave and closing the panel
  // ---------------------------------------------------------------------

  datatype Finalized =
    | Skipped                  // no draft id
    | Rejected                 // no user and no stored owner: `set` refuses an undefined field
    | Merged(store: Collection)

  /** What `finalizeRecipeSave` reads from the form. */
  datatype Snapshot = Snapshot(
    title: string,
    cuisines: seq<CuisineRef>,
    minutes: int,
    servings: int,
    ingredients: string,
    instructions: string,
    rating: nat,
    imageUrl: string,
    imageTop: string,
    related: seq<Id>)

  /** The form as `finalizeRecipeSave` reads it: the trimmed title, the
      cuisines read back from the tags, the numbers parsed (0 when not a
      number), the count of active stars, the image only when one is shown
      and its offset with `"0px"` as default. */
  function ReadForm(form: Form, related: seq<Id>): Snapshot
  {
    Snapshot(
      Trim(form.title),
      CurrentCuisines(form.tags),
      IntOrZero(form.minutes),
      IntOrZero(form.servings),
      form.ingredients,
      form.instructions,
      CountTrue(form.stars),
      if form.image.shown then form.image.src else "",
      if form.image.top != "" then form.image.top else "0px",
      related)
  }

  /** The fields `finalizeRecipeSave` writes; every other stored field of
      the recipe is left to the merge. */
  const FormKeys: set<Field> := {
    UserId, CreatedAt, Title, Cuisines, Cuisine, Minutes, Servings, Ingredients,
    Instructions, Rating, ImageUrl, ImagePosition, RelatedIngredients, UpdatedAt}

  /** The document `finalizeRecipeSave` merges, with the legacy `cuisine`
      field set to the first entry's name. */
  function FormFields(s: Snapshot, owner: Value, created: Value): (r: Doc)
    ensures r.Keys == FormKeys
    ensures UserId in r && r[UserId] == owner
    ensures CreatedAt in r && r[CreatedAt] == created
    ensures Title in r && r[Title] == Text(s.title)
    ensures Cuisines in r && r[Cuisines] == Entries(s.cuisines)
    ensures Cuisine in r && r[Cuisine] == Text(LegacyName(s.cuisines))
    ensures Minutes in r && r[Minutes] == Num(s.minutes)
    ensures Servings in r && r[Servings] == Num(s.servings)
    ensures Ingredients in r && r[Ingredients] == Text(s.ingredients)
    ensures Instructions in r && r[Instructions] == Text(s.instructions)
    ensures ImageUrl in r && r[ImageUrl] == Text(s.imageUrl)
    ensures ImagePosition in r && r[ImagePosition] == Position(s.imageTop)
    ensures Rating in r && r[Rating] == Num(s.rating)
    ensures RelatedIngredients in r && r[RelatedIngredients] == List(s.related)
    ensures UpdatedAt in r && r[UpdatedAt] == ServerTime
  {
    FormDocKeys(s, owner, created);
    FormDoc(s, owner, created)
  }

  /** The merged document as a map display. */
  function FormDoc(s: Snapshot, owner: Value, created: Value): (r: Doc)
    ensures UserId in r && r[UserId] == owner
    ensures CreatedAt in r && r[CreatedAt] == created
    ensures Title in r && r[Title] == Text(s.title)
    ensures Cuisines in r && r[Cuisines] == Entries(s.cuisines)
    ensures Cuisine in r && r[Cuisine] == Text(LegacyName(s.cuisines))
    ensures Minutes in r && r[Minutes] == Num(s.minutes)
    ensures Servings in r && r[Servings] == Num(s.servings)
    ensures Ingredients in r && r[Ingredients] == Text(s.ingredients)
    ensures Instructions in r && r[Instructions] == Text(s.instructions)
    ensures ImageUrl in r && r[ImageUrl] == Text(s.imageUrl)
    ensures ImagePosition in r && r[ImagePosition] == Position(s.imageTop)
    ensures Rating in r && r[Rating] == Num(s.rating)
    ensures RelatedIngredients in r && r[RelatedIngredients] == List(s.related)
    ensures UpdatedAt in r && r[UpdatedAt] == ServerTime
  {
    map[
      UserId := owner,
      CreatedAt := created,
      Title := Text(s.title),
      Cuisines := Entries(s.cuisines),
      Cuisine := Text(LegacyName(s.cuisines)),
      Minutes := Num(s.minutes),
      Servings := Num(s.servings),
      Ingredients := Text(s.ingredients),
      Instructions := Text(s.instructions),
      Rating := Num(s.rating),
      ImageUrl := Text(s.imageUrl),
      ImagePosition := Position(s.imageTop),
      RelatedIngredients := List(s.related),
      UpdatedAt := ServerTime]
  }

  lemma FormDocKeys(s: Snapshot, owner: Value, created: Value)
    ensures FormDoc(s, owner, created).Keys == FormKeys
  {
  }

  /** `finalizeRecipeSave()`: with a draft id, the whole form is
      merge-written to the draft document (which is created if it has
      gone). The owner is the signed-in user, else the stored owner; the
      stored `createdAt` is kept when it is set. */
  function Finalize(e: Editor, store: Collection, user: Option<Id>): (r: Finalized)
    ensures r.Skipped? <==> e.draftId.None?
    ensures r.Rejected? <==>
      e.draftId.Some? && user.None? && !(e.draftId.value in store && UserId in store[e.draftId.value])
    ensures r.Merged? ==> r.store.Keys == store.Keys + {e.draftId.value}
    ensures r.Merged? ==> forall other :: other in store && other != e.draftId.value ==> r.store[other] == store[other]
  {
    match e.draftId
    case None => Skipped
    case Some(id) =>
      var existing := Existing(store, id);
      match OwnerOf(user, existing)
      case None => Rejected
      case Some(owner) => Merged(SetMerge(store, id, FormFields(ReadForm(e.form, e.related), owner, CreatedOf(existing))))
  }

  /** `doc.data() || {}` for the draft document. */
  function Existing(store: Collection, id: Id): (r: Doc)
    ensures id in store ==> r == store[id]
    ensures id !in store ==> r == map[]
  {
    if id in store then store[id] else map[]
  }

  /** `user ? user.uid : existing.userId`, or `None` for the undefined
      value the store refuses. */
  function OwnerOf(user: Option<Id>, existing: Doc): (r: Option<Value>)
    ensures r.None? <==> user.None? && UserId !in existing
    ensures user.Some? ==> r == Some(Text(user.value))
    ensures user.None? && UserId in existing ==> r == Some(existing[UserId])
  {
    if user.Some? then Some(Text(user.value))
    else if UserId in existing then Some(existing[UserId])
    else None
  }

  /** `existing.createdAt || serverTimestamp()`. */
  function CreatedOf(existing: Doc): (r: Value)
    ensures CreatedAt in existing && Truthy(existing[CreatedAt]) ==> r == existing[CreatedAt]
    ensures !(CreatedAt in existing && Truthy(existing[CreatedAt])) ==> r == ServerTime
  {
    if CreatedAt in existing && Truthy(existing[CreatedAt]) then existing[CreatedAt] else ServerTime
  }

  lemma FinalizeIsMerge(e: Editor, store: Collection, user: Option<Id>)
    requires Finalize(e, store, user).Merged?
    ensures var id := e.draftId.value;
      var existing := Existing(store, id);
      Finalize(e, store, user).store
        == SetMerge(store, id, FormFields(ReadForm(e.form, e.related), OwnerOf(user, existing).value, CreatedOf(existing)))
  {
    var id := e.draftId.value;
    var existing := Existing(store, id);
    var owner := OwnerOf(user, existing);
    assert owner.Some?;
    var fields := FormFields(ReadForm(e.form, e.related), owner.value, CreatedOf(existing));
    assert Finalize(e, store, user) == Merged(SetMerge(store, id, fields));
  }

  /** Merging the snapshot writes each form field and keeps every stored
      field the form does not hold; a document that has gone comes back
      with the form fields alone. */
  lemma MergeWritesSnapshot(store: Collection, id: Id, snap: Snapshot, owner: Value, created: Value)
    ensures var s := SetMerge(store, id, FormFields(snap, owner, created));
      FieldIs(s, id, Title, Text(snap.title))
      && FieldIs(s, id, Cuisines, Entries(snap.cuisines))
      && FieldIs(s, id, Cuisine, Text(LegacyName(snap.cuisines)))
      && FieldIs(s, id, Rating, Num(snap.rating))
      && FieldIs(s, id, Minutes, Num(snap.minutes))
      && FieldIs(s, id, Servings, Num(snap.servings))
      && FieldIs(s, id, Ingredients, Text(snap.ingredients))
      && FieldIs(s, id, Instructions, Text(snap.instructions))
      && FieldIs(s, id, ImageUrl, Text(snap.imageUrl))
      && FieldIs(s, id, ImagePosition, Position(snap.imageTop))
      && FieldIs(s, id, RelatedIngredients, List(snap.related))
      && FieldIs(s, id, UpdatedAt, ServerTime)
      && FieldIs(s, id, UserId, owner)
      && FieldIs(s, id, CreatedAt, created)
    ensures var s := SetMerge(store, id, FormFields(snap, owner, created));
      forall f :: id in store && f in store[id] && f !in FormKeys ==> FieldIs(s, id, f, store[id][f])
    ensures var s := SetMerge(store, id, FormFields(snap, owner, created));
      id !in store ==> s[id].Keys == FormKeys
  {
  }

  /** What a successful `finalizeRecipeSave` writes: the trimmed title,
      the cuisines read back from the tags and the first one's name, the
      number of active stars as the rating, the parsed numbers, the raw
      ingredients and instructions, the shown image (or "") and its offset
      (or "0px"), the related ingredients and a fresh `updatedAt`; the
      owner is the signed-in user or else the stored one, a stored
      `createdAt` is kept, and so is every stored field the form does not
      write. */
  lemma FinalizeWritesForm(e: Editor, store: Collection, user: Option<Id>)
    requires Finalize(e, store, user).Merged?
    ensures var s := Finalize(e, store, user).store;
      var id := e.draftId.value;
      var cuisines := CurrentCuisines(e.form.tags);
      FieldIs(s, id, Title, Text(Trim(e.form.title)))
      && FieldIs(s, id, Cuisines, Entries(cuisines))
      && FieldIs(s, id, Cuisine, Text(LegacyName(cuisines)))
      && FieldIs(s, id, Rating, Num(CountTrue(e.form.stars)))
      && FieldIs(s, id, Minutes, Num(IntOrZero(e.form.minutes)))
      && FieldIs(s, id, Servings, Num(IntOrZero(e.form.servings)))
      && FieldIs(s, id, Ingredients, Text(e.form.ingredients))
      && FieldIs(s, id, Instructions, Text(e.form.instructions))
      && FieldIs(s, id, ImageUrl, Text(if e.form.image.shown then e.form.image.src else ""))
      && FieldIs(s, id, ImagePosition, Position(if e.form.image.top != "" then e.form.image.top else "0px"))
      && FieldIs(s, id, RelatedIngredients, List(e.related))
      && FieldIs(s, id, UpdatedAt, ServerTime)
      && (user.Some? ==> FieldIs(s, id, UserId, Text(user.value)))
      && (user.None? ==> id in store && UserId in store[id] && FieldIs(s, id, UserId, store[id][UserId]))
      && (id in store && CreatedAt in store[id] && Truthy(store[id][CreatedAt]) ==>
            FieldIs(s, id, CreatedAt, store[id][CreatedAt]))
      && (!(id in store && CreatedAt in store[id] && Truthy(store[id][CreatedAt])) ==>
            FieldIs(s, id, CreatedAt, ServerTime))
    ensures var s := Finalize(e, store, user).store;
      var id := e.draftId.value;
      forall f :: id in store && f in store[id] && f !in FormKeys ==> FieldIs(s, id, f, store[id][f])
  {
    var id := e.draftId.value;
    var existing := Existing(store, id);
    var owner := OwnerOf(user, existing).value;
    var created := CreatedOf(existing);
    FinalizeIsMerge(e, store, user);
    MergeWritesSnapshot(store, id, ReadForm(e.form, e.related), owner, created);
  }

  datatype Closed = Closed(editor: Editor, store: Collection, closed: bool)

  /** The close button: finalize, then forget the draft id. A rejected
      finalize throws out of the handler, so the draft id is kept and the
      panel stays open. */
  function ClosePanel(e: Editor, store: Collection, user: Option<Id>): (r: Closed)
    ensures r.closed <==> !Finalize(e, store, user).Rejected?
    ensures r.closed ==> r.editor == e.(draftId := None)
    ensures !r.closed ==> r.editor == e && r.store == store
    ensures e.draftId.None? ==> r.store == store
  {
    match Finalize(e, store, user)
    case Skipped => Closed(e.(draftId := None), store, true)
    case Rejected => Closed(e, store, false)
    case Merged(s) => Closed(e.(draftId := None), s, true)
  }

  /** After closing, the next edit starts a new document rather than
      writing to the old one. */
  lemma EditAfterCloseStartsNewDraft(e: Editor, store: Collection, user: Option<Id>, uid: Id,
                                     field: Field, value: Value)
    requires !e.loading && !e.creating
    ensures var c := ClosePanel(e, store, user);
      c.closed ==> AutoSave(c.editor, c.store, Some(uid), field, value).outcome == CreateStarted
  {
  }

  /** A stored recipe whose fields are as the panel writes them. */
  predicate Canonical(d: Doc)
  {
    IsTrimmed(TextOr(d, Title, ""))
    && (forall i :: 0 <= i < |EntriesOf(d)| ==> WellFormed(EntriesOf(d)[i]))
    && 0 <= NumOrZero(d, Rating) <= StarCount
  }

  /** Opening a recipe and closing the panel again writes back what was
      stored: the trimmed title, the cuisines, the numbers, the rating and
      the related ingredients. */
  lemma ReopenThenCloseKeepsRecipe(e: Editor, id: Id, d: Doc, names: map<Id, string>,
                                   store: Collection, uid: Id)
    requires Canonical(d)
    ensures var reopened := OpenExistingRecipe(e, id, true, Found(d), names);
      var f := Finalize(reopened, store, Some(uid));
      f.Merged?
      && FieldIs(f.store, id, Title, Text(TextOr(d, Title, "")))
      && FieldIs(f.store, id, Cuisines, Entries(EntriesOf(d)))
      && FieldIs(f.store, id, Minutes, Num(NumOrZero(d, Minutes)))
      && FieldIs(f.store, id, Servings, Num(NumOrZero(d, Servings)))
      && FieldIs(f.store, id, Rating, Num(NumOrZero(d, Rating)))
      && FieldIs(f.store, id, RelatedIngredients, List(IdsOrEmpty(d, RelatedIngredients)))
  {
    var reopened := OpenExistingRecipe(e, id, true, Found(d), names);
    TrimOfTrimmed(TextOr(d, Title, ""));
    TagsRoundTrip(EntriesOf(d), names);
    ActiveStarsCount(NumOrZero(d, Rating));
    assert reopened.form.stars == StarsUpTo(NumOrZero(d, Rating));
    FinalizeWritesForm(reopened, store, Some(uid));
  }
}

=== FILE: recipe_list.dfy ===
/** The recipe grid (public/recipes.js `loadRecipes`, `duplicateRecipe`;
    public/app.js `filterRecipes`): the rating and cook-time filters, the
    sort comparator with its direction rules, the title search over the
    rendered card titles, and the copy made by "Duplicate". */
module RecipeList {
  import opened Common
  import opened Documents
  import opened CuisineRefs

  /** A recipe as `loadRecipes` holds it: its id and its stored fields. */
  datatype Card = Card(id: Id, doc: Doc)

  function RatingOf(c: Card): int { NumOrZero(c.doc, Rating) }
  function MinutesOf(c: Card): int { NumOrZero(c.doc, Minutes) }

  /** The title a card shows. */
  function ShownTitle(c: Card): string { TextOr(c.doc, Title, "Untitled") }

  // ---------------------------------------------------------------------
  // Filters
  // ---------------------------------------------------------------------

  /** A `data-time` value of the cook-time menu; `OtherTime` stands for
      any value outside the five the comparator knows. */
  datatype CookTime = UpTo15 | From15To30 | From30To60 | From60To180 | Over180 | OtherTime

  /** The five menu choices. */
  const CookTimeChoices: seq<CookTime> := [UpTo15, From15To30, From30To60, From60To180, Over180]

  /** Whether `minutes` falls in the cook-time choice; an unknown choice
      keeps every recipe. */
  predicate InBucket(bucket: CookTime, minutes: int)
  {
    match bucket
    case UpTo15 => minutes <= 15
    case From15To30 => 15 < minutes <= 30
    case From30To60 => 30 < minutes <= 60
    case From60To180 => 60 < minutes <= 180
    case Over180 => minutes > 180
    case OtherTime => true
  }

  /** Every number of minutes falls in exactly one of the five choices. */
  lemma BucketsPartition(minutes: int)
    ensures exists i :: 0 <= i < |CookTimeChoices| && InBucket(CookTimeChoices[i], minutes)
    ensures forall i, j ::
      (0 <= i < |CookTimeChoices| && 0 <= j < |CookTimeChoices|
       && InBucket(CookTimeChoices[i], minutes) && InBucket(CookTimeChoices[j], minutes)) ==> i == j
  {
    var i := if minutes <= 15 then 0 else if minutes <= 30 then 1 else if minutes <= 60 then 2
             else if minutes <= 180 then 3 else 4;
    assert InBucket(CookTimeChoices[i], minutes);
  }

  /** A card passes the filters: the rating filter, when set, keeps exact
      matches (a missing rating is 0); the cook-time filter, when set,
      keeps the card's bucket. */
  predicate Passes(c: Card, rating: Option<int>, bucket: Option<CookTime>)
  {
    (rating.None? || RatingOf(c) == rating.value)
    && (bucket.None? || InBucket(bucket.value, MinutesOf(c)))
  }

  /** The two `filter` calls of `loadRecipes`, one after the other. */
  function ApplyFilters(cards: seq<Card>, rating: Option<int>, bucket: Option<CookTime>): (r: seq<Card>)
    ensures |r| <= |cards|
    ensures forall c :: c in r <==> c in cards && Passes(c, rating, bucket)
  {
    if |cards| == 0 then []
    else if Passes(cards[0], rating, bucket) then [cards[0]] + ApplyFilters(cards[1..], rating, bucket)
    else ApplyFilters(cards[1..], rating, bucket)
  }

  /** Filtering works part by part, so the kept cards stay in the order
      they were loaded in. */
  lemma {:induction false} ApplyFiltersConcat(a: seq<Card>, b: seq<Card>, rating: Option<int>, bucket: Option<CookTime>)
    ensures ApplyFilters(a + b, rating, bucket) == ApplyFilters(a, rating, bucket) + ApplyFilters(b, rating, bucket)
  {
    ApplyFiltersIsFilter(a + b, rating, bucket);
    ApplyFiltersIsFilter(a, rating, bucket);
    ApplyFiltersIsFilter(b, rating, bucket);
    FilterConcat(a, b, Keeps(rating, bucket));
  }

  /** The filters as a predicate on one card. */
  function Keeps(rating: Option<int>, bucket: Option<CookTime>): Card -> bool
  {
    c => Passes(c, rating, bucket)
  }

  lemma {:induction false} ApplyFiltersIsFilter(cards: seq<Card>, rating: Option<int>, bucket: Option<CookTime>)
    ensures ApplyFilters(cards, rating, bucket) == Filter(cards, Keeps(rating, bucket))
  {
    if |cards| > 0 {
      ApplyFiltersIsFilter(cards[1..], rating, bucket);
    }
  }

  /** With no rating filter and no or an unknown cook-time choice, every
      recipe is kept, in order. */
  lemma NoFilterKeepsAll(cards: seq<Card>, bucket: Option<CookTime>)
    requires bucket.None? || bucket == Some(OtherTime)
    ensures ApplyFilters(cards, None, bucket) == cards
  {
    forall c | c in cards ensures Passes(c, None, bucket) {
      PassesWithoutFilter(c, bucket);
    }
    AllPassKeepsAll(cards, None, bucket);
  }

  lemma PassesWithoutFilter(c: Card, bucket: Option<CookTime>)
    requires bucket.None? || bucket == Some(OtherTime)
    ensures Passes(c, None, bucket)
  {
  }

  /** Filters every card passes keep the list as it is. */
  lemma {:induction false} AllPassKeepsAll(cards: seq<Card>, rating: Option<int>, bucket: Option<CookTime>)
    requires forall c :: c in cards ==> Passes(c, rating, bucket)
    ensures ApplyFilters(cards, rating, bucket) == cards
  {
    if |cards| > 0 {
      assert cards[0] in cards;
      AllPassKeepsAll(cards[1..], rating, bucket);
      assert [cards[0]] + cards[1..] == cards;
    }
  }

  /** Filtering again changes nothing. */
  lemma {:induction false} FiltersIdempotent(cards: seq<Card>, rating: Option<int>, bucket: Option<CookTime>)
    ensures ApplyFilters(ApplyFilters(cards, rating, bucket), rating, bucket) == ApplyFilters(cards, rating, bucket)
  {
    if |cards| > 0 {
      FiltersIdempotent(cards[1..], rating, bucket);
    }
  }

  // ---------------------------------------------------------------------
  // Sorting
  // ---------------------------------------------------------------------

  /** The sort key; `OtherKey` stands for any value the comparator does
      not know. "date" and "createdAt" are the same key under two names. */
  datatype SortKey = ByName | ByRating | ByCookTime | ByDate | ByCreatedAt | OtherKey

  /** Keys whose natural direction is highest (or newest) first. */
  predicate DescendingByDefault(sort: SortKey)
  {
    sort == ByRating || sort == ByDate || sort == ByCreatedAt
  }

  /** The comparator of `loadRecipes`: by displayed title, by rating
      (highest first), by minutes (shortest first) or by creation time
      (newest first, a pending time counting as 0). Rating and date sort in
      that default direction unless the order is "asc"; name and cook time
      unless it is "desc". Any other key leaves every pair equal. */
  function CompareRecipes(sort: SortKey, order: SortOrder, a: Card, b: Card): int
  {
    var base :=
      match sort
      case ByName => Collate(ShownTitle(a), ShownTitle(b))
      case ByRating => RatingOf(b) - RatingOf(a)
      case ByCookTime => MinutesOf(a) - MinutesOf(b)
      case ByDate | ByCreatedAt => MillisOrZero(b.doc, CreatedAt) - MillisOrZero(a.doc, CreatedAt)
      case OtherKey => 0;
    if DescendingByDefault(sort) then
      (if order == Asc then -base else base)
    else
      (if order == Desc then -base else base)
  }

  lemma CompareAntisymmetric(sort: SortKey, order: SortOrder, a: Card, b: Card)
    ensures CompareRecipes(sort, order, a, b) == -CompareRecipes(sort, order, b, a)
  {
    CollateAntisymmetric(ShownTitle(a), ShownTitle(b));
  }

  /** "asc" and "desc" give opposite orders for every sort key. */
  lemma OrderFlagReverses(sort: SortKey, a: Card, b: Card)
    ensures CompareRecipes(sort, Asc, a, b) == -CompareRecipes(sort, Desc, a, b)
  {
  }

  /** The comparator handed to `sort`. */
  function RecipeOrder(sort: SortKey, order: SortOrder): (Card, Card) -> int
  {
    (a: Card, b: Card) => CompareRecipes(sort, order, a, b)
  }

  lemma RecipeOrderAntisymmetric(sort: SortKey, order: SortOrder)
    ensures Antisymmetric(RecipeOrder(sort, order))
  {
    forall a: Card, b: Card
      ensures RecipeOrder(sort, order)(a, b) == -RecipeOrder(sort, order)(b, a)
    {
      CompareAntisymmetric(sort, order, a, b);
    }
  }

  /** Two cards the comparator ties are equal in the sort key, so ties
      group into classes. */
  lemma RecipeTiesTransitive(sort: SortKey, order: SortOrder)
    ensures TiesTransitive(RecipeOrder(sort, order))
  {
    var cmp := RecipeOrder(sort, order);
    forall a: Card, b: Card, c: Card | cmp(a, b) == 0 && cmp(b, c) == 0
      ensures cmp(a, c) == 0
    {
      CollateZeroIffEqual(ShownTitle(a), ShownTitle(b));
      CollateZeroIffEqual(ShownTitle(b), ShownTitle(c));
      CollateZeroIffEqual(ShownTitle(a), ShownTitle(c));
    }
  }

  /** `filteredRecipes.sort(...)`: a permutation of the cards in which each
      compares at most equal to the next. */
  function SortRecipes(cards: seq<Card>, sort: SortKey, order: SortOrder): (r: seq<Card>)
    ensures multiset(r) == multiset(cards)
    ensures forall i :: 0 <= i < |r| - 1 ==> CompareRecipes(sort, order, r[i], r[i + 1]) <= 0
  {
    var cmp := RecipeOrder(sort, order);
    RecipeOrderAntisymmetric(sort, order);
    var r := SortBy(cards, cmp);
    assert SortedBy(r, cmp);
    r
  }

  /** The sort is stable: cards that tie with `k` (equal rating, minutes,
      date or title, or every card under an unknown key) keep their loaded
      order. */
  lemma SortRecipesStable(cards: seq<Card>, sort: SortKey, order: SortOrder, k: Card)
    ensures TiedWith(SortRecipes(cards, sort, order), RecipeOrder(sort, order), k)
         == TiedWith(cards, RecipeOrder(sort, order), k)
  {
    RecipeOrderAntisymmetric(sort, order);
    RecipeTiesTransitive(sort, order);
    SortByStable(cards, RecipeOrder(sort, order), k);
  }

  /** The directions each order flag gives. Under "desc", the grid's
      default, rating and date sort highest and newest first while cook
      time sorts longest first and names in reverse alphabetical order;
      "asc" gives the opposite of each. A missing flag is read like "desc"
      for rating and date and like "asc" for names and cook time. */
  lemma RecipeDirections(cards: seq<Card>, sort: SortKey, order: SortOrder, i: nat)
    requires i + 1 < |cards|
    ensures var r := SortRecipes(cards, sort, order);
      (sort == ByRating ==>
        if order == Asc then RatingOf(r[i]) <= RatingOf(r[i + 1]) else RatingOf(r[i]) >= RatingOf(r[i + 1]))
      && ((sort == ByDate || sort == ByCreatedAt) ==>
        if order == Asc then MillisOrZero(r[i].doc, CreatedAt) <= MillisOrZero(r[i + 1].doc, CreatedAt)
        else MillisOrZero(r[i].doc, CreatedAt) >= MillisOrZero(r[i + 1].doc, CreatedAt))
      && (sort == ByCookTime ==>
        if order == Desc then MinutesOf(r[i]) >= MinutesOf(r[i + 1]) else MinutesOf(r[i]) <= MinutesOf(r[i + 1]))
      && (sort == ByName ==>
        if order == Desc then Collate(ShownTitle(r[i]), ShownTitle(r[i + 1])) >= 0
        else Collate(ShownTitle(r[i]), ShownTitle(r[i + 1])) <= 0)
  {
    var r := SortRecipes(cards, sort, order);
    assert |r| == |cards| by {
      assert |multiset(r)| == |multiset(cards)|;
    }
    assert CompareRecipes(sort, order, r[i], r[i + 1]) <= 0;
  }

  /** The grid as first shown (sorted by "createdAt", "desc"): newest
      recipe first. */
  lemma GridStartsNewestFirst(cards: seq<Card>, i: nat)
    requires i + 1 < |cards|
    ensures var r := SortRecipes(cards, ByCreatedAt, Desc);
      MillisOrZero(r[i].doc, CreatedAt) >= MillisOrZero(r[i + 1].doc, CreatedAt)
  {
    RecipeDirections(cards, ByCreatedAt, Desc, i);
  }

  // ---------------------------------------------------------------------
  // Title search
  // ---------------------------------------------------------------------

  /** The text `filterRecipes` looks for: the term lower-cased and
      trimmed. */
  function Needle(term: string): string { Trim(Lower(term)) }

  /** The browser's treatment of a card title: `loadRecipes` writes it into
      the card through `innerHTML` and the search reads it back through
      `textContent`. The HTML parser is not modelled; the search takes it as
      the parameter `render`, which is only known to give plain text back
      unchanged. */
  ghost predicate KeepsPlainText(render: string -> string)
  {
    forall t :: PlainText(t) ==> render(t) == t
  }

  /** The text a card's title element holds once rendered. */
  function RenderedTitle(render: string -> string, c: Card): string
  {
    render(ShownTitle(c))
  }

  /** A card stays visible when the needle is empty or occurs in the
      lower-cased rendered title. */
  predicate ShowsFor(needle: string, render: string -> string, c: Card)
  {
    |needle| == 0 || Contains(Lower(RenderedTitle(render, c)), needle)
  }

  predicate Matches(term: string, render: string -> string, c: Card)
  {
    ShowsFor(Needle(term), render, c)
  }

  /** One card's `display` decision. */
  method CardShows(needle: string, render: string -> string, c: Card) returns (visible: bool)
    ensures visible <==> ShowsFor(needle, render, c)
  {
    visible := true;
    if |needle| != 0 {
      visible := Includes(Lower(RenderedTitle(render, c)), needle);
    }
  }

  /** The display decisions for a given needle, card by card. */
  method ShowAll(cards: seq<Card>, render: string -> string, needle: string) returns (shown: seq<bool>)
    ensures |shown| == |cards|
    ensures forall i :: 0 <= i < |cards| ==> (shown[i] <==> ShowsFor(needle, render, cards[i]))
  {
    shown := [];
    var i := 0;
    while i < |cards|
      invariant 0 <= i <= |cards| && |shown| == i
      invariant forall j :: 0 <= j < i ==> (shown[j] <==> ShowsFor(needle, render, cards[j]))
    {
      var visible := CardShows(needle, render, cards[i]);
      shown := shown + [visible];
      i := i + 1;
    }
  }

  /** `filterRecipes(term)`: which cards stay displayed. */
  method FilterCards(cards: seq<Card>, render: string -> string, term: string) returns (shown: seq<bool>)
    ensures |shown| == |cards|
    ensures forall i :: 0 <= i < |cards| ==> (shown[i] <==> Matches(term, render, cards[i]))
  {
    shown := ShowAll(cards, render, Needle(term));
  }

  /** Searching ignores the case of the term. */
  lemma SearchIgnoresCase(term: string, render: string -> string, c: Card)
    ensures Matches(Lower(term), render, c) <==> Matches(term, render, c)
  {
    LowerIdempotent(term);
  }

  /** Searching for the text a card shows keeps that card, whatever the
      browser made of the stored title. */
  lemma TitleFindsItsCard(render: string -> string, c: Card)
    ensures Matches(RenderedTitle(render, c), render, c)
  {
    TrimOccurs(Lower(RenderedTitle(render, c)));
  }

  /** A plain-text title is shown as stored, so searching for the stored
      title keeps its card. */
  lemma PlainTitleFindsItsCard(render: string -> string, c: Card)
    requires KeepsPlainText(render) && PlainText(ShownTitle(c))
    ensures Matches(ShownTitle(c), render, c)
  {
    assert RenderedTitle(render, c) == ShownTitle(c);
    TitleFindsItsCard(render, c);
  }

  /** Plain-text titles are searched exactly as stored: the visibility of
      such a card is decided by its stored title. */
  lemma PlainTitleSearchedAsStored(term: string, render: string -> string, c: Card)
    requires KeepsPlainText(render) && PlainText(ShownTitle(c))
    ensures Matches(term, render, c) <==> |Needle(term)| == 0 || Contains(Lower(ShownTitle(c)), Needle(term))
  {
    assert RenderedTitle(render, c) == ShownTitle(c);
  }

  // ---------------------------------------------------------------------
  // Duplicate
  // ---------------------------------------------------------------------

  datatype Duplicated = NoUser | NotFound | AddFailed | Copied(recipes: Collection)

  /** The fields a copy holds; the related ingredients and the image
      position are not among them. */
  const CopiedFields: set<Field> := {
    UserId, Title, Cuisines, Cuisine, Minutes, Servings, Ingredients, Instructions,
    Rating, ImageUrl, ImageOffsetY, CreatedAt, UpdatedAt}

  /** The value the copy holds in field `k` of `CopiedFields`. */
  function CopyValue(d: Doc, uid: Id, k: Field): Value
  {
    match k
    case UserId => Text(uid)
    case Title => Text(TextOr(d, Title, "Untitled") + " Copy")
    case Cuisines => Entries(EntriesOf(d))
    case Cuisine => Text(LegacyName(EntriesOf(d)))
    case Minutes => ValueOr(d, Minutes, Num(0))
    case Servings => ValueOr(d, Servings, Num(0))
    case Ingredients => ValueOr(d, Ingredients, Text(""))
    case Instructions => ValueOr(d, Instructions, Text(""))
    case Rating => ValueOr(d, Rating, Num(0))
    case ImageUrl => ValueOr(d, ImageUrl, Text(""))
    case ImageOffsetY => ValueOr(d, ImageOffsetY, Num(0))
    case _ => ServerTime
  }

  /** The copy `duplicateRecipe` adds: the shown title followed by
      " Copy", the same cuisine entries, the other fields with their
      defaults, the signed-in owner and fresh timestamps. The related
      ingredients and the image position are not copied. */
  function CopyFields(d: Doc, uid: Id): (r: Doc)
    ensures Title in r && r[Title] == Text(TextOr(d, Title, "Untitled") + " Copy")
    ensures Cuisines in r && r[Cuisines] == Entries(EntriesOf(d))
    ensures Cuisine in r && r[Cuisine] == Text(LegacyName(EntriesOf(d)))
    ensures UserId in r && r[UserId] == Text(uid)
    ensures CreatedAt in r && r[CreatedAt] == ServerTime && UpdatedAt in r && r[UpdatedAt] == ServerTime
    ensures RelatedIngredients !in r && ImagePosition !in r
  {
    map k | k in CopiedFields :: CopyValue(d, uid, k)
  }

  /** `duplicateRecipe(id)`: nothing without a user or when the recipe is
      gone; otherwise one new document holding the copy, every existing
      recipe untouched. */
  function DuplicateRecipe(recipes: Collection, user: Option<Id>, id: Id, answer: CreateOutcome): (r: Duplicated)
    requires answer.Created? ==> answer.newId !in recipes
    ensures r.NoUser? <==> user.None?
    ensures r.NotFound? <==> user.Some? && id !in recipes
    ensures r.AddFailed? <==> user.Some? && id in recipes && answer.CreateFailed?
    ensures r.Copied? ==>
      r.recipes.Keys == recipes.Keys + {answer.newId}
      && (forall other :: other in recipes ==> r.recipes[other] == recipes[other])
      && r.recipes[answer.newId] == CopyFields(recipes[id], user.value)
  {
    if user.None? then NoUser
    else if id !in recipes then NotFound
    else match answer
      case CreateFailed => AddFailed
      case Created(n) => Copied(Add(recipes, n, CopyFields(recipes[id], user.value)))
  }

  /** The copy shows the original's title with " Copy" appended and counts
      toward the same cuisines. */
  lemma CopyKeepsTitleAndCuisines(recipes: Collection, uid: Id, id: Id, n: Id)
    requires id in recipes && n !in recipes
    ensures var r := DuplicateRecipe(recipes, Some(uid), id, Created(n));
      r.Copied?
      && TextOr(r.recipes[n], Title, "Untitled") == TextOr(recipes[id], Title, "Untitled") + " Copy"
      && EntriesOf(r.recipes[n]) == EntriesOf(recipes[id])
  {
  }

  /** A copy passes the rating and cook-time filters exactly when its
      original does. */
  lemma CopyFiltersLikeOriginal(d: Doc, uid: Id, id: Id, n: Id, rating: Option<int>, bucket: Option<CookTime>)
    ensures Passes(Card(n, CopyFields(d, uid)), rating, bucket) <==> Passes(Card(id, d), rating, bucket)
  {
    var copy := CopyFields(d, uid);
    assert NumOrZero(copy, Rating) == NumOrZero(d, Rating);
    assert NumOrZero(copy, Minutes) == NumOrZero(d, Minutes);
  }
}

=== FILE: shopping_pdf.dfy ===
/** The shopping-list download (public/shopping.js, `downloadShoppingListPDF`
    and `drawBackgroundImage`): the ingredients marked "to buy" are filed
    by category, the categories are put in the order of the user's group
    list followed by the others in the order they were first met, and each
    category is drawn as one or more boxes, every box after the first
    being labelled a continuation. Page geometry is abstracted into the
    number of lines that fit in the next box. */
module ShoppingPdf {
  import opened Common
  import opened Documents
  import IngredientGroups

  // ---------------------------------------------------------------------
  // Filing the to-buy items
  // ---------------------------------------------------------------------

  /** One line of a category box. */
  datatype Line = Line(name: string, quantity: string, notes: string)

  /** The query behind the download: the user's ingredients with `toBuy`. */
  predicate OnList(d: Doc, uid: Id)
  {
    UserId in d && d[UserId] == Text(uid) && ToBuy in d && d[ToBuy] == Flag(true)
  }

  /** The query's answer, in the store's order. */
  function ToBuyDocs(docs: seq<Doc>, uid: Id): (r: seq<Doc>)
    ensures forall d :: d in r <==> d in docs && OnList(d, uid)
  {
    Filter(docs, d => OnList(d, uid))
  }

  /** `data.category || 'Other'` */
  function CategoryOf(d: Doc): string
  {
    TextOr(d, Category, "Other")
  }

  /** The line an ingredient is drawn as: name, quantity and notes, with
      the defaults "Untitled", "" and "". */
  function LineOf(d: Doc): Line
  {
    Line(TextOr(d, Name, "Untitled"), TextOr(d, Quantity, ""), TextOr(d, Notes, ""))
  }

  /** A stored non-empty text is drawn as stored; a missing or empty one
      gives the default, and the category is never empty. */
  lemma FilingDefaults(d: Doc)
    ensures CategoryOf(d) != "" && LineOf(d).name != ""
    ensures (Category !in d || d[Category] == Text("")) ==> CategoryOf(d) == "Other"
    ensures (Name !in d || d[Name] == Text("")) ==> LineOf(d).name == "Untitled"
    ensures (Quantity !in d || d[Quantity] == Null) ==> LineOf(d).quantity == ""
    ensures (Notes !in d || d[Notes] == Null) ==> LineOf(d).notes == ""
    ensures forall s :: s != "" && Category in d && d[Category] == Text(s) ==> CategoryOf(d) == s
    ensures forall s :: Name in d && d[Name] == Text(s) && s != "" ==> LineOf(d).name == s
    ensures forall s :: Quantity in d && d[Quantity] == Text(s) ==> LineOf(d).quantity == s
    ensures forall s :: Notes in d && d[Notes] == Text(s) ==> LineOf(d).notes == s
  {
  }

  /** Reference definition: the lines filed under `cat`, in the order of
      the snapshot. */
  function FiledUnder(snap: seq<Doc>, cat: string): seq<Line>
  {
    if |snap| == 0 then []
    else FiledUnder(snap[..|snap| - 1], cat)
         + (if CategoryOf(snap[|snap| - 1]) == cat then [LineOf(snap[|snap| - 1])] else [])
  }

  /** `itemsByCategory` together with the order in which its keys were
      created. */
  datatype Grouping = Grouping(keys: seq<string>, lines: map<string, seq<Line>>)

  /** The `snapshot.forEach` that fills `itemsByCategory`: a category met
      for the first time gets a fresh list, and every line is pushed onto
      the list of its category. */
  function Group(snap: seq<Doc>): Grouping
  {
    if |snap| == 0 then Grouping([], map[])
    else
      var g := Group(snap[..|snap| - 1]);
      var d := snap[|snap| - 1];
      var c := CategoryOf(d);
      if c in g.lines then Grouping(g.keys, g.lines[c := g.lines[c] + [LineOf(d)]])
      else Grouping(g.keys + [c], g.lines[c := [LineOf(d)]])
  }

  /** The keys are created once each, and they are exactly the categories
      of the snapshot. */
  lemma {:induction false} GroupKeys(snap: seq<Doc>)
    ensures var g := Group(snap);
            NoDuplicates(g.keys)
            && (forall c :: c in g.keys <==> c in g.lines)
            && forall c :: c in g.lines <==> exists i :: 0 <= i < |snap| && CategoryOf(snap[i]) == c
  {
    if |snap| > 0 {
      var front := snap[..|snap| - 1];
      var g := Group(front);
      GroupKeys(front);
      var c := CategoryOf(snap[|snap| - 1]);
      assert forall i :: 0 <= i < |front| ==> front[i] == snap[i];
      var g' := Group(snap);
      forall x | x in g'.lines
        ensures exists i :: 0 <= i < |snap| && CategoryOf(snap[i]) == x
      {
        if x != c {
          var i :| 0 <= i < |front| && CategoryOf(front[i]) == x;
          assert CategoryOf(snap[i]) == x;
        } else {
          assert CategoryOf(snap[|snap| - 1]) == x;
        }
      }
      if c !in g.lines {
        assert forall i :: 0 <= i < |g.keys| ==> (g.keys + [c])[i] == g.keys[i] && g.keys[i] in g.keys;
      }
    }
  }

  /** Every category's list holds the lines filed under it, in order. */
  lemma {:induction false} GroupFilesEveryLine(snap: seq<Doc>)
    ensures var g := Group(snap);
            forall c :: c in g.lines ==> g.lines[c] == FiledUnder(snap, c) && |g.lines[c]| > 0
  {
    if |snap| > 0 {
      var front := snap[..|snap| - 1];
      GroupFilesEveryLine(front);
      GroupKeys(front);
      var g := Group(front);
      var d := snap[|snap| - 1];
      if CategoryOf(d) !in g.lines {
        FiledUnderAbsent(front, CategoryOf(d));
      }
      forall x | x in Group(snap).lines
        ensures Group(snap).lines[x] == FiledUnder(snap, x) && |Group(snap).lines[x]| > 0
      {
        assert FiledUnder(snap, x) == FiledUnder(front, x) + (if CategoryOf(d) == x then [LineOf(d)] else []);
      }
    }
  }

  /** No line is filed under a category no ingredient has. */
  lemma {:induction false} FiledUnderAbsent(snap: seq<Doc>, cat: string)
    requires forall i :: 0 <= i < |snap| ==> CategoryOf(snap[i]) != cat
    ensures FiledUnder(snap, cat) == []
  {
    if |snap| > 0 {
      var front := snap[..|snap| - 1];
      assert forall i :: 0 <= i < |front| ==> front[i] == snap[i];
      FiledUnderAbsent(front, cat);
    }
  }

  // ---------------------------------------------------------------------
  // Category order
  // ---------------------------------------------------------------------

  /** The first loop of the ordering as written: every entry of the
      group list that has items, in list order, once per occurrence in
      the list. */
  function PresentGroupsAsWritten(groups: seq<string>, keys: seq<string>): (r: seq<string>)
    ensures forall c :: c in r <==> c in groups && c in keys
  {
    if |groups| == 0 then []
    else
      var g := groups[|groups| - 1];
      PresentGroupsAsWritten(groups[..|groups| - 1], keys) + (if g in keys then [g] else [])
  }

  /** The first loop with a repeated group name taken once. */
  function PresentGroups(groups: seq<string>, keys: seq<string>): (r: seq<string>)
    ensures forall c :: c in r <==> c in groups && c in keys
  {
    if |groups| == 0 then []
    else
      var p := PresentGroups(groups[..|groups| - 1], keys);
      var g := groups[|groups| - 1];
      p + (if g in keys && g !in p then [g] else [])
  }

  /** The second loop: each key, in creation order, that the list does not
      hold yet is appended. */
  function AddRemaining(keys: seq<string>, acc: seq<string>): (r: seq<string>)
    ensures |acc| <= |r| && r[..|acc|] == acc
  {
    if |keys| == 0 then acc
    else
      var r := AddRemaining(keys[..|keys| - 1], acc);
      var c := keys[|keys| - 1];
      r + (if c !in r then [c] else [])
  }

  /** `sortedCategories` as written. */
  function CategoryOrderAsWritten(groups: seq<string>, keys: seq<string>): (r: seq<string>)
    ensures forall c :: c in r <==> c in keys
  {
    var p := PresentGroupsAsWritten(groups, keys);
    AddRemainingContents(keys, p);
    AddRemaining(keys, p)
  }

  /** `sortedCategories` with each present category taken once. */
  function CategoryOrder(groups: seq<string>, keys: seq<string>): seq<string>
  {
    AddRemaining(keys, PresentGroups(groups, keys))
  }

  /** The position of the first occurrence of `x` in `s` (`|s|` when
      there is none). */
  function Rank(s: seq<string>, x: string): nat
  {
    if |s| == 0 || s[0] == x then 0 else 1 + Rank(s[1..], x)
  }

  lemma {:induction false} RankBelow(s: seq<string>, x: string)
    ensures x in s <==> Rank(s, x) < |s|
    ensures x in s ==> s[Rank(s, x)] == x
  {
    if |s| > 0 && s[0] != x {
      RankBelow(s[1..], x);
      assert x in s <==> x in s[1..];
    }
  }

  lemma {:induction false} RankOfPrefix(s: seq<string>, x: string)
    requires |s| > 0 && x in s[..|s| - 1]
    ensures x in s && Rank(s, x) == Rank(s[..|s| - 1], x) < |s| - 1
  {
    RankBelow(s[..|s| - 1], x);
    if s[0] != x {
      assert s[1..][..|s[1..]| - 1] == s[..|s| - 1][1..];
      RankOfPrefix(s[1..], x);
    }
  }

  lemma {:induction false} RankOfLast(s: seq<string>)
    requires |s| > 0 && s[|s| - 1] !in s[..|s| - 1]
    ensures Rank(s, s[|s| - 1]) == |s| - 1
  {
    if |s| > 1 {
      assert s[1..][..|s[1..]| - 1] == s[..|s| - 1][1..];
      RankOfLast(s[1..]);
    }
  }

  /** Every element of `p` occurs in `s`, and `p` lists them in the order
      of their first occurrences there. */
  predicate RankedBy(p: seq<string>, s: seq<string>)
  {
    (forall x :: x in p ==> x in s)
    && forall i, j :: 0 <= i < j < |p| ==> Rank(s, p[i]) < Rank(s, p[j])
  }

  /** Appending an element to `s` keeps the ranks of those already in it. */
  lemma RankedByLonger(p: seq<string>, s: seq<string>)
    requires |s| > 0 && RankedBy(p, s[..|s| - 1])
    ensures RankedBy(p, s)
  {
    forall x | x in p
      ensures x in s
    {
      RankOfPrefix(s, x);
    }
    forall i, j | 0 <= i < j < |p|
      ensures Rank(s, p[i]) < Rank(s, p[j])
    {
      assert p[i] in p && p[j] in p;
      RankOfPrefix(s, p[i]);
      RankOfPrefix(s, p[j]);
    }
  }

  /** The new last element of `s` ranks after everything listed before. */
  lemma RankedByExtend(p: seq<string>, s: seq<string>)
    requires |s| > 0 && s[|s| - 1] !in s[..|s| - 1]
    requires RankedBy(p, s) && forall x :: x in p ==> x in s[..|s| - 1]
    ensures RankedBy(p + [s[|s| - 1]], s)
  {
    var g := s[|s| - 1];
    var q := p + [g];
    RankOfLast(s);
    forall x | x in q
      ensures x in s
    {
      if x != g {
        assert x in p;
      }
    }
    forall i, j | 0 <= i < j < |q|
      ensures Rank(s, q[i]) < Rank(s, q[j])
    {
      assert q[i] == p[i] && p[i] in p;
      if j < |p| {
        assert q[j] == p[j];
      } else {
        assert q[j] == g;
        RankOfPrefix(s, p[i]);
      }
    }
  }

  lemma NoDuplicatesExtend(p: seq<string>, g: string)
    requires NoDuplicates(p) && g !in p
    ensures NoDuplicates(p + [g])
  {
    var q := p + [g];
    assert forall i :: 0 <= i < |p| ==> q[i] == p[i] && p[i] in p;
  }

  /** The present groups are distinct and in the order of their first
      occurrence in the group list. */
  lemma {:induction false} PresentGroupsOrdered(groups: seq<string>, keys: seq<string>)
    ensures NoDuplicates(PresentGroups(groups, keys))
    ensures RankedBy(PresentGroups(groups, keys), groups)
  {
    if |groups| > 0 {
      var front := groups[..|groups| - 1];
      var p := PresentGroups(front, keys);
      var g := groups[|groups| - 1];
      PresentGroupsOrdered(front, keys);
      RankedByLonger(p, groups);
      if g in keys && g !in p {
        assert g !in front;
        NoDuplicatesExtend(p, g);
        RankedByExtend(p, groups);
      }
    }
  }

  /** What the second loop adds to `acc`. */
  function Added(keys: seq<string>, acc: seq<string>): seq<string>
  {
    AddRemaining(keys, acc)[|acc|..]
  }

  /** The second loop adds exactly the keys not yet listed, without
      repeating one. */
  lemma {:induction false} AddRemainingContents(keys: seq<string>, acc: seq<string>)
    ensures AddRemaining(keys, acc) == acc + Added(keys, acc)
    ensures forall c :: c in Added(keys, acc) <==> c in keys && c !in acc
    ensures NoDuplicates(acc) ==> NoDuplicates(AddRemaining(keys, acc))
  {
    if |keys| > 0 {
      var front := keys[..|keys| - 1];
      var r := AddRemaining(front, acc);
      var c := keys[|keys| - 1];
      AddRemainingContents(front, acc);
      assert forall x :: x in keys <==> x in front || x == c;
      if c !in r {
        assert AddRemaining(keys, acc) == r + [c];
        assert Added(keys, acc) == Added(front, acc) + [c];
        if NoDuplicates(acc) {
          NoDuplicatesExtend(r, c);
        }
      } else {
        assert AddRemaining(keys, acc) == r;
      }
    }
  }

  /** The keys are added in creation order. */
  lemma {:induction false} AddRemainingRanked(keys: seq<string>, acc: seq<string>)
    ensures RankedBy(Added(keys, acc), keys)
  {
    if |keys| > 0 {
      var front := keys[..|keys| - 1];
      var r := AddRemaining(front, acc);
      var c := keys[|keys| - 1];
      var q := Added(front, acc);
      AddRemainingRanked(front, acc);
      AddRemainingContents(front, acc);
      RankedByLonger(q, keys);
      if c !in r {
        assert c !in front;
        assert Added(keys, acc) == q + [c];
        RankedByExtend(q, keys);
      } else {
        assert Added(keys, acc) == q;
      }
    }
  }

  /** Categories in the group list come first, in its order; the others
      follow, in key creation order. */
  predicate GroupsFirst(r: seq<string>, groups: seq<string>, keys: seq<string>)
  {
    forall i, j {:trigger r[i], r[j]} :: 0 <= i < j < |r| ==>
      (r[j] in groups ==> r[i] in groups && Rank(groups, r[i]) < Rank(groups, r[j]))
      && (r[i] !in groups ==> r[j] !in groups && r[i] in keys && r[j] in keys && Rank(keys, r[i]) < Rank(keys, r[j]))
  }

  /** The order of the categories in the PDF: every category that has
      items appears exactly once; those in the group list come first, in
      its order, and the others follow in the order they were first met. */
  lemma CategoryOrderShape(groups: seq<string>, keys: seq<string>)
    ensures NoDuplicates(CategoryOrder(groups, keys))
    ensures forall c :: c in CategoryOrder(groups, keys) <==> c in keys
    ensures GroupsFirst(CategoryOrder(groups, keys), groups, keys)
  {
    var p := PresentGroups(groups, keys);
    PresentGroupsOrdered(groups, keys);
    AddRemainingContents(keys, p);
    AddRemainingRanked(keys, p);
    var q := Added(keys, p);
    var r := CategoryOrder(groups, keys);
    assert r == p + q;
    forall i, j | 0 <= i < j < |r|
      ensures r[j] in groups ==> r[i] in groups && Rank(groups, r[i]) < Rank(groups, r[j])
      ensures r[i] !in groups ==> r[j] !in groups && r[i] in keys && r[j] in keys && Rank(keys, r[i]) < Rank(keys, r[j])
    {
      if j < |p| {
        assert r[i] == p[i] && r[j] == p[j] && p[i] in p && p[j] in p;
      } else if i < |p| {
        assert r[i] == p[i] && p[i] in p && r[j] == q[j - |p|] && q[j - |p|] in q;
      } else {
        assert r[i] == q[i - |p|] && r[j] == q[j - |p|] && q[i - |p|] in q && q[j - |p|] in q;
      }
    }
  }

  /** Without repeated group names the two versions agree. */
  lemma {:induction false} AsWrittenAgreesWithoutRepeats(groups: seq<string>, keys: seq<string>)
    requires NoDuplicates(groups)
    ensures PresentGroupsAsWritten(groups, keys) == PresentGroups(groups, keys)
    ensures CategoryOrderAsWritten(groups, keys) == CategoryOrder(groups, keys)
  {
    if |groups| > 0 {
      var front := groups[..|groups| - 1];
      assert forall i, j :: 0 <= i < j < |front| ==> front[i] == groups[i] && front[j] == groups[j];
      AsWrittenAgreesWithoutRepeats(front, keys);
      assert groups[|groups| - 1] !in front;
    }
  }

  /** The new-group button does not refuse a name already in the list, so
      the list can hold "Fruits" twice; the ordering as written then lists
      the category twice. */
  lemma AsWrittenRepeatsCategory()
    ensures IngredientGroups.NewGroup(["Fruits", "Other"], "Fruits") == ["Fruits", "Fruits", "Other"]
    ensures CategoryOrderAsWritten(["Fruits", "Fruits", "Other"], ["Fruits"]) == ["Fruits", "Fruits"]
    ensures CategoryOrder(["Fruits", "Fruits", "Other"], ["Fruits"]) == ["Fruits"]
  {
    TrimOfTrimmed("Fruits");
    var g := ["Fruits", "Fruits", "Other"];
    assert g[..2] == ["Fruits", "Fruits"] && g[..2][..1] == ["Fruits"] && g[..2][..1][..0] == [];
    var k: seq<string> := ["Fruits"];
    assert k[..0] == [];
    assert PresentGroupsAsWritten(g, k) == ["Fruits", "Fruits"];
    assert PresentGroups(g, k) == ["Fruits"];
  }

  // ---------------------------------------------------------------------
  // Boxes
  // ---------------------------------------------------------------------

  /** How many lines the page geometry lets a box hold. The layout puts a
      box on a fresh page when fewer than 50 units remain, which leaves
      room for at least two lines, so the number is never zero. */
  type Capacity = k: nat | k >= 1 witness 1

  /** One drawn box: its category, its lines, and whether its title is
      marked as a continuation. */
  datatype Box = Box(category: string, lines: seq<Line>, continued: bool)

  /** The lines of the boxes, in drawing order. */
  function Flatten(bs: seq<Box>): seq<Line>
  {
    if |bs| == 0 then [] else bs[0].lines + Flatten(bs[1..])
  }

  /** The lines of the boxes of one category, in drawing order. */
  function LinesOf(bs: seq<Box>, c: string): seq<Line>
  {
    if |bs| == 0 then []
    else (if bs[0].category == c then bs[0].lines else []) + LinesOf(bs[1..], c)
  }

  lemma {:induction false} LinesOfAppend(a: seq<Box>, b: seq<Box>, c: string)
    ensures LinesOf(a + b, c) == LinesOf(a, c) + LinesOf(b, c)
  {
    if |a| > 0 {
      assert (a + b)[0] == a[0] && (a + b)[1..] == a[1..] + b;
      LinesOfAppend(a[1..], b, c);
    } else {
      assert a + b == b;
    }
  }

  lemma {:induction false} FlattenAppend(a: seq<Box>, b: seq<Box>)
    ensures Flatten(a + b) == Flatten(a) + Flatten(b)
  {
    if |a| > 0 {
      assert (a + b)[0] == a[0] && (a + b)[1..] == a[1..] + b;
      FlattenAppend(a[1..], b);
    } else {
      assert a + b == b;
    }
  }

  /** The `while (items.length > 0)` loop for one category. `fit(n)` is the
      number of lines the page geometry lets the `n`-th box of the
      document hold; each box takes that many lines or the rest. */
  function CategoryBoxes(category: string, lines: seq<Line>, fit: nat -> Capacity, n: nat, first: bool): (r: seq<Box>)
    ensures Flatten(r) == lines
    ensures |r| <= |lines| && (|r| == 0 <==> |lines| == 0)
    decreases |lines|
  {
    if |lines| == 0 then []
    else
      var count := if |lines| < fit(n) then |lines| else fit(n);
      var rest := CategoryBoxes(category, lines[count..], fit, n + 1, false);
      var r := [Box(category, lines[..count], !first)] + rest;
      assert r[0] == Box(category, lines[..count], !first) && r[1..] == rest;
      assert lines == lines[..count] + lines[count..];
      r
  }

  /** Every box is labelled with `category`, and only the first box, when
      it is the category's first, is drawn without the continuation mark. */
  predicate CategoryRun(r: seq<Box>, category: string, first: bool)
  {
    forall i :: 0 <= i < |r| ==> r[i].category == category && (r[i].continued <==> i > 0 || !first)
  }

  /** Box `i` holds at least one line and at most `fit(n + i)`, and all
      boxes but the last are full. */
  predicate WithinFit(r: seq<Box>, fit: nat -> Capacity, n: nat)
  {
    (forall i :: 0 <= i < |r| ==> 1 <= |r[i].lines| <= fit(n + i))
    && forall i :: 0 <= i < |r| - 1 ==> |r[i].lines| == fit(n + i)
  }

  lemma {:induction false} CategoryBoxesLabelled(category: string, lines: seq<Line>, fit: nat -> Capacity, n: nat, first: bool)
    ensures CategoryRun(CategoryBoxes(category, lines, fit, n, first), category, first)
    decreases |lines|
  {
    if |lines| > 0 {
      var count := if |lines| < fit(n) then |lines| else fit(n);
      CategoryBoxesLabelled(category, lines[count..], fit, n + 1, false);
      var rest := CategoryBoxes(category, lines[count..], fit, n + 1, false);
      var r := CategoryBoxes(category, lines, fit, n, first);
      assert r == [Box(category, lines[..count], !first)] + rest;
      forall i | 0 <= i < |r|
        ensures r[i].category == category && (r[i].continued <==> i > 0 || !first)
      {
        if i > 0 {
          assert r[i] == rest[i - 1];
        }
      }
    }
  }

  lemma {:induction false} CategoryBoxesFit(category: string, lines: seq<Line>, fit: nat -> Capacity, n: nat, first: bool)
    ensures WithinFit(CategoryBoxes(category, lines, fit, n, first), fit, n)
    decreases |lines|
  {
    if |lines| > 0 {
      var count := if |lines| < fit(n) then |lines| else fit(n);
      CategoryBoxesFit(category, lines[count..], fit, n + 1, false);
      var rest := CategoryBoxes(category, lines[count..], fit, n + 1, false);
      assert CategoryBoxes(category, lines, fit, n, first) == [Box(category, lines[..count], !first)] + rest;
      WithinFitCons(Box(category, lines[..count], !first), rest, fit, n);
    }
  }

  /** A box that fits its place, and is full when more boxes follow, can go
      in front of boxes that fit theirs. */
  lemma WithinFitCons(b: Box, rest: seq<Box>, fit: nat -> Capacity, n: nat)
    requires WithinFit(rest, fit, n + 1)
    requires 1 <= |b.lines| <= fit(n) && (|rest| > 0 ==> |b.lines| == fit(n))
    ensures WithinFit([b] + rest, fit, n)
  {
    var r := [b] + rest;
    forall i | 1 <= i < |r|
      ensures 1 <= |r[i].lines| <= fit(n + i)
      ensures i < |r| - 1 ==> |r[i].lines| == fit(n + i)
    {
      var j := i - 1;
      assert r[i] == rest[j] && n + i == (n + 1) + j;
    }
  }

  /** The boxes of one category hold exactly its lines. */
  lemma {:induction false} LinesOfOneCategory(bs: seq<Box>, category: string, c: string)
    requires forall i :: 0 <= i < |bs| ==> bs[i].category == category
    ensures LinesOf(bs, c) == if c == category then Flatten(bs) else []
  {
    if |bs| > 0 {
      LinesOfOneCategory(bs[1..], category, c);
    }
  }

  /** The boxes of a category hold its lines and nothing of another one. */
  lemma CategoryLines(category: string, lines: seq<Line>, fit: nat -> Capacity, n: nat, c: string)
    ensures LinesOf(CategoryBoxes(category, lines, fit, n, true), c) == if c == category then lines else []
  {
    CategoryBoxesLabelled(category, lines, fit, n, true);
    LinesOfOneCategory(CategoryBoxes(category, lines, fit, n, true), category, c);
  }

  /** `itemsByCategory[category]` for a category of the order. */
  function LinesFor(lines: map<string, seq<Line>>, c: string): seq<Line>
  {
    if c in lines then lines[c] else []
  }

  /** The loop over `sortedCategories`: the boxes of each category, one
      category after the other, numbering the boxes through the document. */
  function Boxes(cats: seq<string>, lines: map<string, seq<Line>>, fit: nat -> Capacity, n: nat): seq<Box>
    decreases |cats|
  {
    if |cats| == 0 then []
    else
      var b := CategoryBoxes(cats[0], LinesFor(lines, cats[0]), fit, n, true);
      b + Boxes(cats[1..], lines, fit, n + |b|)
  }

  /** Every box belongs to a category of the order. */
  predicate AllIn(r: seq<Box>, cats: seq<string>)
  {
    forall i :: 0 <= i < |r| ==> r[i].category in cats
  }

  lemma {:induction false} BoxesOfTheOrder(cats: seq<string>, lines: map<string, seq<Line>>, fit: nat -> Capacity, n: nat)
    ensures AllIn(Boxes(cats, lines, fit, n), cats)
    decreases |cats|
  {
    if |cats| > 0 {
      var b := CategoryBoxes(cats[0], LinesFor(lines, cats[0]), fit, n, true);
      var rest := Boxes(cats[1..], lines, fit, n + |b|);
      CategoryBoxesLabelled(cats[0], LinesFor(lines, cats[0]), fit, n, true);
      BoxesOfTheOrder(cats[1..], lines, fit, n + |b|);
      AllInJoin(b, rest, cats);
      assert Boxes(cats, lines, fit, n) == b + rest;
    }
  }

  lemma AllInJoin(b: seq<Box>, rest: seq<Box>, cats: seq<string>)
    requires |cats| > 0 && CategoryRun(b, cats[0], true) && AllIn(rest, cats[1..])
    ensures AllIn(b + rest, cats)
  {
    var r := b + rest;
    forall i | 0 <= i < |r|
      ensures r[i].category in cats
    {
      if i < |b| {
        assert r[i] == b[i];
      } else {
        assert r[i] == rest[i - |b|];
        assert r[i].category in cats[1..];
      }
    }
  }

  /** Each category of the order gets exactly its own lines, in order, and
      a category outside the order gets none. */
  lemma {:induction false} BoxesHoldTheirLines(cats: seq<string>, lines: map<string, seq<Line>>, fit: nat -> Capacity, n: nat, c: string)
    requires NoDuplicates(cats)
    ensures LinesOf(Boxes(cats, lines, fit, n), c) == if c in cats then LinesFor(lines, c) else []
    decreases |cats|
  {
    if |cats| > 0 {
      var b := CategoryBoxes(cats[0], LinesFor(lines, cats[0]), fit, n, true);
      var rest := Boxes(cats[1..], lines, fit, n + |b|);
      NoDuplicatesTail(cats);
      LinesOfAppend(b, rest, c);
      CategoryLines(cats[0], LinesFor(lines, cats[0]), fit, n, c);
      BoxesHoldTheirLines(cats[1..], lines, fit, n + |b|, c);
      assert Boxes(cats, lines, fit, n) == b + rest;
      if c == cats[0] {
        assert LinesOf(rest, c) == [];
      } else {
        assert c in cats <==> c in cats[1..];
      }
    }
  }

  lemma NoDuplicatesTail(s: seq<string>)
    requires |s| > 0 && NoDuplicates(s)
    ensures NoDuplicates(s[1..]) && s[0] !in s[1..]
  {
    assert forall i, j :: 0 <= i < j < |s[1..]| ==> s[1..][i] == s[i + 1] && s[1..][j] == s[j + 1];
  }

  /** Only the first box of each category is drawn without the
      continuation mark: a box is a continuation exactly when the box
      before it belongs to the same category. */
  predicate ContinuationsMarked(r: seq<Box>)
  {
    forall i {:trigger r[i].continued} :: 0 <= i < |r| ==> (r[i].continued <==> i > 0 && r[i - 1].category == r[i].category)
  }

  lemma {:induction false} ContinuationsFollowTheirCategory(cats: seq<string>, lines: map<string, seq<Line>>, fit: nat -> Capacity, n: nat)
    requires NoDuplicates(cats)
    ensures ContinuationsMarked(Boxes(cats, lines, fit, n))
    decreases |cats|
  {
    if |cats| > 0 {
      var b := CategoryBoxes(cats[0], LinesFor(lines, cats[0]), fit, n, true);
      var rest := Boxes(cats[1..], lines, fit, n + |b|);
      NoDuplicatesTail(cats);
      CategoryBoxesLabelled(cats[0], LinesFor(lines, cats[0]), fit, n, true);
      BoxesOfTheOrder(cats[1..], lines, fit, n + |b|);
      ContinuationsFollowTheirCategory(cats[1..], lines, fit, n + |b|);
      Junction(b, rest, cats[0], cats[1..]);
      assert Boxes(cats, lines, fit, n) == b + rest;
    }
  }

  /** Joining the boxes of one category to the boxes of later ones. */
  lemma Junction(b: seq<Box>, rest: seq<Box>, c: string, later: seq<string>)
    requires c !in later
    requires CategoryRun(b, c, true)
    requires AllIn(rest, later)
    requires ContinuationsMarked(rest)
    ensures ContinuationsMarked(b + rest)
  {
    var r := b + rest;
    forall i | 0 <= i < |r|
      ensures r[i].continued <==> i > 0 && r[i - 1].category == r[i].category
    {
      if i < |b| {
        assert r[i] == b[i] && r[i].category == c && (r[i].continued <==> i > 0);
        if i > 0 {
          assert r[i - 1] == b[i - 1] && r[i - 1].category == c;
        }
      } else {
        var j := i - |b|;
        assert r[i] == rest[j];
        MarkedAt(rest, j);
        if j > 0 {
          assert r[i - 1] == rest[j - 1];
        } else if i > 0 {
          assert r[i - 1] == b[|b| - 1] && r[i - 1].category == c;
          assert rest[0].category in later;
        }
      }
    }
  }

  lemma MarkedAt(r: seq<Box>, j: int)
    requires ContinuationsMarked(r) && 0 <= j < |r|
    ensures r[j].continued <==> j > 0 && r[j - 1].category == r[j].category
  {
  }

  // ---------------------------------------------------------------------
  // The download
  // ---------------------------------------------------------------------

  /** The background images by name. */
  const Backgrounds: map<string, string> := map[
    "simple" := "Images/Backgrounds/Simple Background.png",
    "blue" := "Images/Backgrounds/Blue Background.png",
    "cream" := "Images/Backgrounds/Cream Background.png",
    "green" := "Images/Backgrounds/Green Background.png",
    "grey" := "Images/Backgrounds/Grey Background.png"]

  /** `backgroundMap[backgroundName] || backgroundMap['simple']` */
  function BackgroundImage(name: string): string
  {
    if name in Backgrounds then Backgrounds[name] else Backgrounds["simple"]
  }

  /** Every name gives one of the five images, and a name gives the
      simple background exactly when it is "simple" or unknown. */
  lemma BackgroundFallsBackToSimple(name: string)
    ensures BackgroundImage(name) in Backgrounds.Values
    ensures BackgroundImage(name) == Backgrounds["simple"] <==> name == "simple" || name !in Backgrounds
    ensures name in Backgrounds ==> BackgroundImage(name) == Backgrounds[name]
  {
  }

  /** What pressing "download" leads to. */
  datatype Outcome =
    | NotSignedIn                                 // returns at once
    | QueryFailed                                 // "Error downloading shopping list."
    | NothingToBuy                                // "No items in your shopping list."
    | LibraryMissing                              // the PDF library is not loaded
    | Pdf(background: string, boxes: seq<Box>)

  /** `downloadShoppingListPDF` as written. `ingredients` is the
      ingredients collection in the store's order, or `None` when the query
      is rejected; `libraryLoaded` is whether the PDF library is present.
      The boxes follow `CategoryOrderAsWritten`, so a group name listed
      twice draws its category twice. */
  function DownloadShoppingList(user: Option<Id>, ingredients: Option<seq<Doc>>, libraryLoaded: bool,
                                groups: seq<string>, background: string, fit: nat -> Capacity): (r: Outcome)
    ensures r.NotSignedIn? <==> user.None?
    ensures r.QueryFailed? <==> user.Some? && ingredients.None?
    ensures r.NothingToBuy? <==> user.Some? && ingredients.Some? && |ToBuyDocs(ingredients.value, user.value)| == 0
    ensures r.Pdf? <==> user.Some? && ingredients.Some? && |ToBuyDocs(ingredients.value, user.value)| > 0 && libraryLoaded
    ensures r.Pdf? ==> r.background == BackgroundImage(background)
  {
    if user.None? then NotSignedIn
    else if ingredients.None? then QueryFailed
    else
      var snap := ToBuyDocs(ingredients.value, user.value);
      if |snap| == 0 then NothingToBuy
      else if !libraryLoaded then LibraryMissing
      else
        var g := Group(snap);
        Pdf(BackgroundImage(background), Boxes(CategoryOrderAsWritten(groups, g.keys), g.lines, fit, 0))
  }

  /** The download with each category drawn once: the boxes follow
      `CategoryOrder`; every other outcome is the one of the download as
      written. */
  function DownloadShoppingListCorrected(user: Option<Id>, ingredients: Option<seq<Doc>>, libraryLoaded: bool,
                                         groups: seq<string>, background: string, fit: nat -> Capacity): (r: Outcome)
    ensures r.Pdf? <==> DownloadShoppingList(user, ingredients, libraryLoaded, groups, background, fit).Pdf?
    ensures !r.Pdf? ==> r == DownloadShoppingList(user, ingredients, libraryLoaded, groups, background, fit)
    ensures r.Pdf? ==> r.background == BackgroundImage(background)
  {
    match DownloadShoppingList(user, ingredients, libraryLoaded, groups, background, fit)
    case Pdf(bg, _) =>
      var g := Group(ToBuyDocs(ingredients.value, user.value));
      Pdf(bg, Boxes(CategoryOrder(groups, g.keys), g.lines, fit, 0))
    case other => other
  }

  /** With no group name listed twice, the download as written is the
      corrected one. */
  lemma AsWrittenDownloadAgreesWithoutRepeats(user: Option<Id>, ingredients: Option<seq<Doc>>, libraryLoaded: bool,
                                              groups: seq<string>, background: string, fit: nat -> Capacity)
    requires NoDuplicates(groups)
    ensures DownloadShoppingList(user, ingredients, libraryLoaded, groups, background, fit)
         == DownloadShoppingListCorrected(user, ingredients, libraryLoaded, groups, background, fit)
  {
    if user.Some? && ingredients.Some? {
      AsWrittenAgreesWithoutRepeats(groups, Group(ToBuyDocs(ingredients.value, user.value)).keys);
    }
  }

  /** In the corrected PDF every category holds exactly the to-buy lines
      filed under it, in the store's order; so every ingredient on the
      list is drawn once, and nothing else is. */
  lemma PdfListsEveryItemOnce(user: Id, ingredients: seq<Doc>, groups: seq<string>, background: string,
                              fit: nat -> Capacity, c: string)
    ensures DownloadShoppingListCorrected(Some(user), Some(ingredients), true, groups, background, fit).Pdf?
            ==> LinesOf(DownloadShoppingListCorrected(Some(user), Some(ingredients), true, groups, background, fit).boxes, c)
                == FiledUnder(ToBuyDocs(ingredients, user), c)
  {
    var snap := ToBuyDocs(ingredients, user);
    if |snap| > 0 {
      LaidOutLines(snap, groups, fit, c);
    }
  }

  /** Laid out in the corrected order, the boxes hold under each category
      exactly the lines filed under it. */
  lemma LaidOutLines(snap: seq<Doc>, groups: seq<string>, fit: nat -> Capacity, c: string)
    ensures var g := Group(snap);
      LinesOf(Boxes(CategoryOrder(groups, g.keys), g.lines, fit, 0), c) == FiledUnder(snap, c)
  {
    var g := Group(snap);
    var order := CategoryOrder(groups, g.keys);
    GroupKeys(snap);
    GroupFilesEveryLine(snap);
    CategoryOrderShape(groups, g.keys);
    BoxesHoldTheirLines(order, g.lines, fit, 0, c);
    if c !in order {
      FiledUnderAbsent(snap, c);
    }
  }

  /** In the corrected PDF the first box is not a continuation, and a later
      box is one exactly when it follows a box of the same category. */
  lemma PdfMarksContinuations(user: Id, ingredients: seq<Doc>, groups: seq<string>, background: string,
                              fit: nat -> Capacity)
    ensures DownloadShoppingListCorrected(Some(user), Some(ingredients), true, groups, background, fit).Pdf?
            ==> ContinuationsMarked(DownloadShoppingListCorrected(Some(user), Some(ingredients), true, groups, background, fit).boxes)
  {
    var snap := ToBuyDocs(ingredients, user);
    if |snap| > 0 {
      var g := Group(snap);
      CategoryOrderShape(groups, g.keys);
      ContinuationsFollowTheirCategory(CategoryOrder(groups, g.keys), g.lines, fit, 0);
    }
  }

  /** A category that comes twice in the order is drawn twice: its lines
      appear two times over, and its second run starts with an unmarked
      box right after a box of the same category. */
  lemma RepeatedCategoryDrawnTwice(c: string, lines: map<string, seq<Line>>, fit: nat -> Capacity, n: nat)
    requires c in lines && |lines[c]| > 0
    ensures LinesOf(Boxes([c, c], lines, fit, n), c) == lines[c] + lines[c]
    ensures !ContinuationsMarked(Boxes([c, c], lines, fit, n))
  {
    LinesDrawnTwice(c, lines, fit, n);
    RepeatUnmarked(c, lines, fit, n);
  }

  lemma LinesDrawnTwice(c: string, lines: map<string, seq<Line>>, fit: nat -> Capacity, n: nat)
    requires c in lines
    ensures LinesOf(Boxes([c, c], lines, fit, n), c) == lines[c] + lines[c]
  {
    var b1 := CategoryBoxes(c, lines[c], fit, n, true);
    var b2 := CategoryBoxes(c, lines[c], fit, n + |b1|, true);
    BoxesTwice(c, lines, fit, n);
    LinesOfAppend(b1, b2, c);
    CategoryLines(c, lines[c], fit, n, c);
    CategoryLines(c, lines[c], fit, n + |b1|, c);
  }

  lemma RepeatUnmarked(c: string, lines: map<string, seq<Line>>, fit: nat -> Capacity, n: nat)
    requires c in lines && |lines[c]| > 0
    ensures !ContinuationsMarked(Boxes([c, c], lines, fit, n))
  {
    var b1 := CategoryBoxes(c, lines[c], fit, n, true);
    var b2 := CategoryBoxes(c, lines[c], fit, n + |b1|, true);
    BoxesTwice(c, lines, fit, n);
    CategoryBoxesLabelled(c, lines[c], fit, n, true);
    CategoryBoxesLabelled(c, lines[c], fit, n + |b1|, true);
    assert |b1| > 0 && |b2| > 0;
    assert b1[|b1| - 1].category == c;
    assert b2[0].category == c && !b2[0].continued;
    SecondRunUnmarked(b1, b2, c);
  }

  lemma BoxesTwice(c: string, lines: map<string, seq<Line>>, fit: nat -> Capacity, n: nat)
    requires c in lines
    ensures var b1 := CategoryBoxes(c, lines[c], fit, n, true);
      Boxes([c, c], lines, fit, n) == b1 + CategoryBoxes(c, lines[c], fit, n + |b1|, true)
  {
    var b1 := CategoryBoxes(c, lines[c], fit, n, true);
    assert [c, c][1..] == [c] && [c][1..] == [];
    assert Boxes([c], lines, fit, n + |b1|) == CategoryBoxes(c, lines[c], fit, n + |b1|, true) + [];
  }

  /** A run that starts unmarked right after a box of its own category
      breaks the continuation marks. */
  lemma SecondRunUnmarked(b1: seq<Box>, b2: seq<Box>, c: string)
    requires |b1| > 0 && |b2| > 0
    requires b1[|b1| - 1].category == c && b2[0].category == c && !b2[0].continued
    ensures !ContinuationsMarked(b1 + b2)
  {
    var r := b1 + b2;
    var j := |b1|;
    assert r[j] == b2[0] && r[j - 1] == b1[|b1| - 1];
    assert !r[j].continued;
  }

  /** The download as written, with "Fruits" listed twice and one fruit to
      buy: the fruit is drawn twice, and the second "Fruits" box is not
      marked as a continuation although it follows the first. */
  lemma AsWrittenPdfDrawsItemTwice(fit: nat -> Capacity)
    ensures var d := map[UserId := Text("u"), ToBuy := Flag(true), Category := Text("Fruits")];
      var r := DownloadShoppingList(Some("u"), Some([d]), true, ["Fruits", "Fruits", "Other"], "simple", fit);
      r.Pdf?
      && LinesOf(r.boxes, "Fruits") == [LineOf(d), LineOf(d)]
      && FiledUnder([d], "Fruits") == [LineOf(d)]
      && !ContinuationsMarked(r.boxes)
  {
    var d := map[UserId := Text("u"), ToBuy := Flag(true), Category := Text("Fruits")];
    assert OnList(d, "u") && CategoryOf(d) == "Fruits";
    AsWrittenRepeatsCategory();
    RepeatedGroupDrawsOneItemTwice(d, "u", ["Fruits", "Fruits", "Other"], "simple", fit);
    FiledUnderOne(d, "Fruits");
  }

  /** When the as-written order lists the only item's category twice, the
      item is drawn twice and the repeat is not marked as a continuation. */
  lemma RepeatedGroupDrawsOneItemTwice(d: Doc, uid: Id, groups: seq<string>, background: string, fit: nat -> Capacity)
    requires OnList(d, uid)
    requires CategoryOrderAsWritten(groups, [CategoryOf(d)]) == [CategoryOf(d), CategoryOf(d)]
    ensures var r := DownloadShoppingList(Some(uid), Some([d]), true, groups, background, fit);
      r.Pdf?
      && LinesOf(r.boxes, CategoryOf(d)) == [LineOf(d), LineOf(d)]
      && !ContinuationsMarked(r.boxes)
  {
    var c := CategoryOf(d);
    DownloadOfOne(d, uid, groups, background, fit);
    RepeatedCategoryDrawnTwice(c, map[c := [LineOf(d)]], fit, 0);
  }

  /** With one ingredient on the list, the layout covers its category
      alone. */
  lemma DownloadOfOne(d: Doc, uid: Id, groups: seq<string>, background: string, fit: nat -> Capacity)
    requires OnList(d, uid)
    ensures DownloadShoppingList(Some(uid), Some([d]), true, groups, background, fit)
         == Pdf(BackgroundImage(background),
                Boxes(CategoryOrderAsWritten(groups, [CategoryOf(d)]), map[CategoryOf(d) := [LineOf(d)]], fit, 0))
  {
    OnlyDocOnList(d, uid);
    GroupOfOne(d);
  }

  lemma GroupOfOne(d: Doc)
    ensures Group([d]) == Grouping([CategoryOf(d)], map[CategoryOf(d) := [LineOf(d)]])
  {
    assert [d][..0] == [] && [d][0] == d;
    var empty: seq<string> := [];
    assert empty + [CategoryOf(d)] == [CategoryOf(d)];
  }

  lemma FiledUnderOne(d: Doc, c: string)
    requires CategoryOf(d) == c
    ensures FiledUnder([d], c) == [LineOf(d)]
  {
    assert [d][..0] == [] && [d][0] == d;
  }

  lemma OnlyDocOnList(d: Doc, uid: Id)
    requires OnList(d, uid)
    ensures ToBuyDocs([d], uid) == [d]
  {
    assert [d][1..] == [];
  }
}
